=== FILE: README.md ===
# Pulse core in Dafny

A Dafny model of the core of Pulse, a team-chat backend written in Go. The
model covers four parts.

- **The real-time relay.** The WebSocket hub keeps one registered client per
  user. It fans events out to the clients subscribed to a channel. A client
  whose bounded mailbox is full is dropped, and presence is announced when a
  client registers or unregisters. The model also covers the dispatch of
  inbound client events, the event envelope, and the notifier that turns
  message writes into broadcasts.
- **The input validators.** These cover registration, login, workspace and
  channel input. Lengths are counted in UTF-8 bytes, as Go's `len` counts
  them.
- **`slugify`** and the helpers `contains`, `searchString` and
  `isDuplicateError`.
- **The services.** These are workspaces, channels, channel messages, direct
  messages and pulsemates (the friend relation). The model covers their
  authorisation rules, their error precedence and what each successful call
  writes. Channel messages and direct messages share a cursor pagination
  window: clamp the limit, fetch one row more than asked, keep the newest
  `limit` rows and report `hasMore`.

The hub is a serial state machine over `Hub`. Each case of its `Run` loop
and each send helper is one step to a new `Hub`, or to a `Fault` where Go
would panic (closing a closed channel, sending on a closed channel). The
services are functions over an in-memory `Store.Db` that stands in for the
postgres repositories:

- Tables looked up by a non-key column are sequences, and a lookup returns
  the first match, as `QueryRow` does.
- Membership tables are maps from (container id, user id) to a role.

Some of the code's inputs become parameters of the model:

| In the code | In the model |
|---|---|
| `time.Now` | `now` |
| `uuid.New` | a fresh-id parameter, with a precondition that the id is unused |
| whether `json.Marshal` succeeds | `encodes` |
| the result of unmarshalling a channel payload | `decoded` |
| `mail.ParseAddress` | a predicate `parses` |
| the failure of a repository write | a `writeError`/`insertError`/`memberError`/`updateError` option |
| whether a notifier is set | `hasNotifier` |
| the notifier calls a service makes | a list of `Notice`s returned with the new store in `Effect` |
| the random choice in `WritePump`'s `select` | a sequence `picks` |
| the iteration order of a Go map `range` | a sequence `order` |

A `Create` that writes twice returns a `Written` value: the store as the call
leaves it, paired with its answer. A failure of the second write keeps the
first one.

The model follows the code, including where its behaviour may surprise a
reader:

- **One client per user.** The hub keeps one client per user. A user's
  second connection replaces the first in the map, and the first stays open
  but unreachable.
- **No drain guarantee.** Once the hub has closed a client, `WritePump` picks
  at random between a buffered item and the closed `done` channel. A closed
  mailbox is therefore not guaranteed to be drained
  (`Connection.WriterDrain`).
- **Archived channels.** `Send` does not check whether the channel is
  archived.
- **Deleted messages.** Editing a soft-deleted message succeeds, and message
  lookup by id returns deleted rows.
- **DM edit and delete.** These check the sender only, not that the caller is
  still a participant.

## Model

| member | source | states |
|---|---|---|
| Base.LessIrreflexive | backend/internal/service/dm_service.go:60-64 | no string is ordered before itself under Go's `<` on strings |
| Base.LessAsymmetric | backend/internal/service/dm_service.go:60-64 | Go's string order is asymmetric |
| Base.LessTrichotomy | backend/internal/service/dm_service.go:60-64 | any two distinct strings are ordered one way or the other |
| Base.Canonical | backend/internal/service/dm_service.go:60-64 | the canonical pair is the two ids, with the first not after the second in string order |
| Base.CanonicalSymmetric | backend/internal/service/pulsemate_service.go:192-198 | both participants get the same canonical pair, whichever asks |
| Text.Utf8Width | backend/pkg/validator/validator.go:39-41 | a code point takes 1 to 4 bytes, and exactly one byte iff it is ASCII |
| Text.ByteLen | backend/pkg/validator/validator.go:39-41 | Go's `len` lies between the code-point count and four times it, and equals the count iff the text is ASCII |
| Text.TrimLeftFunc | backend/pkg/validator/validator.go:28 | the result is a suffix whose first character fails the predicate, and everything removed satisfies it |
| Text.TrimRightFunc | backend/pkg/validator/validator.go:28 | the result is a prefix whose last character fails the predicate, and everything removed satisfies it |
| Text.TrimFuncNoop | backend/pkg/validator/validator.go:28 | text whose two ends fail the predicate is left unchanged by trimming |
| Text.Filter | backend/internal/service/workspace_service.go:234-240 | the kept characters all satisfy the predicate and are no more than the input |
| Text.FilterAppend | backend/internal/service/workspace_service.go:234-240 | filtering distributes over concatenation |
| Text.FilterNone | backend/internal/service/workspace_service.go:234-240 | text with no satisfying character filters to empty |
| Text.FilterSome | backend/internal/service/workspace_service.go:234-240 | one satisfying character makes the filtered text non-empty |
| Validator.HasErrorsIffSomeField | backend/pkg/validator/validator.go:13-15 | `HasErrors` holds iff some field has a message |
| Validator.NoErrorsIff | backend/pkg/validator/validator.go:13-15 | no errors iff the map has no keys |
| Validator.Add | backend/pkg/validator/validator.go:17-19 | the field gets the message, replacing an earlier one; every other field keeps its message |
| Validator.Put | backend/pkg/validator/validator.go:17-19 | a message, when present, is recorded for the field and nothing else changes |
| Validator.LengthError | backend/pkg/validator/validator.go:49-55 | no error iff the trimmed text is non-empty and its byte length is within the bounds; otherwise the "required", "too short" or "too long" message, checked in that order |
| Validator.EmailError | backend/pkg/validator/validator.go:27-33 | no error iff the trimmed address is non-empty and parses; an empty one is "Email is required", one that does not parse "Invalid email address" |
| Validator.UsernameError | backend/pkg/validator/validator.go:35-45 | no error iff the trimmed name is 3 to 50 bytes of `[a-zA-Z0-9_-]`; otherwise the required, at-least-3, too-long or allowed-characters message, in that order |
| Validator.DisplayNameError | backend/pkg/validator/validator.go:47-55 | no error iff the trimmed display name is 2 to 100 bytes; otherwise the required, at-least-2 or too-long message |
| Validator.ScanClasses | backend/pkg/validator/validator.go:131-141 | the loop's three flags are set iff the password has an upper-case letter, a lower-case letter, a digit |
| Validator.MissingClasses | backend/pkg/validator/validator.go:143-152 | the missing classes among "one uppercase letter", "one lowercase letter", "one number", in that order; none iff all three classes occur |
| Validator.PasswordError | backend/pkg/validator/validator.go:125-157 | no error iff the password is at least 8 bytes with all three classes; a short password gets only the length message |
| Validator.SlugError | backend/pkg/validator/validator.go:92-101 | no error iff the trimmed slug is empty or 2 to 100 bytes of `[a-z0-9-]`; otherwise the at-least-2, too-long or allowed-characters message, in that order |
| Validator.ChannelTypeError | backend/pkg/validator/validator.go:118-120 | no error iff the type is empty, `public`, `private` or `dm`; the error is the message naming the three types |
| Validator.ValidateRegister | backend/pkg/validator/validator.go:24-61 | exactly the four fields that fail their rule are reported, each with that rule's message |
| Validator.RegisterAcceptedIff | backend/pkg/validator/validator.go:24-61 | registration input is accepted iff all four rules pass |
| Validator.ValidateLogin | backend/pkg/validator/validator.go:63-78 | the email is reported iff it fails its rule, with that rule's message, and the password iff it is empty, as "Password is required"; accepted iff neither |
| Validator.ValidateWorkspace | backend/pkg/validator/validator.go:80-104 | name and slug are reported iff they fail their rules, each with its rule's message; an empty slug is never reported |
| Validator.ValidateChannel | backend/pkg/validator/validator.go:106-123 | name and type are reported iff they fail their rules, each with its rule's message; accepted iff both pass |
| Validator.PasswordListsMissingInOrder | backend/pkg/validator/validator.go:143-155 | a long password lacking all classes names them in the order upper, lower, number, separated by ", " |
| Envelope.KindsDistinct | backend/internal/transport/ws/events.go:11-30 | the thirteen event kinds are pairwise distinct |
| Envelope.NewEvent | backend/internal/transport/ws/events.go:78-89 | fails iff the payload does not serialise; otherwise it carries the kind, scope, payload and clock given |
| Connection.NewClient | backend/internal/transport/ws/client.go:37-46 | a new client has no subscriptions and an empty, open mailbox |
| Connection.Subscribe | backend/internal/transport/ws/client.go:56-61 | afterwards the client is subscribed to the channel; other channels and fields are unchanged |
| Connection.Unsubscribe | backend/internal/transport/ws/client.go:63-68 | afterwards the client is not subscribed; other channels and fields are unchanged |
| Connection.SubscribeIdempotent | backend/internal/transport/ws/client.go:56-61 | subscribing twice is subscribing once |
| Connection.UnsubscribeIdempotent | backend/internal/transport/ws/client.go:63-68 | unsubscribing twice is unsubscribing once |
| Connection.UnsubscribeUndoesSubscribe | backend/internal/transport/ws/client.go:56-68 | unsubscribing undoes a fresh subscription |
| Connection.Close | backend/internal/transport/ws/hub.go:49-50 | closing panics iff the client is already closed, and otherwise changes only the closed flag |
| Connection.TryEnqueue | backend/internal/transport/ws/hub.go:67-74 | a send panics iff the mailbox is closed, reports full iff it holds 256 items, and otherwise appends at the tail, keeping the capacity bound |
| Connection.SendOrDrop | backend/internal/transport/ws/hub.go:100-105 | panics iff closed; appends when there is room and drops silently when full |
| Connection.SendPong | backend/internal/transport/ws/client.go:166-172 | panics iff closed; adds at most one bare pong at the tail, always when there is room, and changes nothing else |
| Connection.ErrorEvent | backend/internal/transport/ws/client.go:174-178 | the error envelope is unscoped and carries the code and message |
| Connection.SendError | backend/internal/transport/ws/client.go:174-187 | panics iff the event serialises and the client is closed; adds at most one error event, always when it serialises and there is room |
| Connection.WriterDrain | backend/internal/transport/ws/client.go:94-128 | items are written in mailbox order; an open client's mailbox is written in full and the writer waits; a closed one exits, having drained everything only when every choice took an item |
| Registry.EmptyHubValid | backend/internal/transport/ws/hub.go:26-33 | the new hub has no clients and meets the hub invariant |
| Registry.Offered | backend/internal/transport/ws/hub.go:67-74 | one send appends when there is room; when full, it either closes the client (broadcast) or leaves it alone |
| Registry.DeliverEffect | backend/internal/transport/ws/hub.go:58-75 | a fan-out panics iff a target is closed; otherwise each target is offered the event, others are untouched, and only the full targets of a dropping fan-out lose their entry |
| Registry.DeliverConsistent | backend/internal/transport/ws/hub.go:58-75 | a fan-out keeps every map entry pointing at a client of that user |
| Registry.DeliverValid | backend/internal/transport/ws/hub.go:58-75 | on a valid hub a fan-out never panics and keeps the hub valid |
| Registry.Targets | backend/internal/transport/ws/hub.go:58-66 | a broadcast reaches exactly the registered, non-excluded users whose client is subscribed |
| Registry.ChannelBroadcast | backend/internal/transport/ws/hub.go:57-75 | subscribed, non-excluded clients get the event at the tail; full ones are removed and closed; nothing else changes; the map stays consistent |
| Registry.BroadcastToChannel | backend/internal/transport/ws/hub.go:81-92 | nothing happens when the event does not serialise; otherwise it is the broadcast case |
| Registry.Prefix | backend/internal/transport/ws/hub.go:58 | the users visited so far are exactly the first n of the order |
| Registry.DeliverAddRoom | backend/internal/transport/ws/hub.go:67-68 | adding a target with room appends to that mailbox only |
| Registry.DeliverAddFull | backend/internal/transport/ws/hub.go:69-73 | adding a full target closes it and deletes its entry only |
| Registry.DeliverAddClosed | backend/internal/transport/ws/hub.go:67-68 | adding a closed target makes the fan-out panic |
| Registry.StepExtends | backend/internal/transport/ws/hub.go:58-75 | one more loop iteration equals the fan-out to one more user |
| Registry.LoopStep | backend/internal/transport/ws/hub.go:58-75 | one turn of the loop extends the fan-out by the next user of the order, or panics as the whole fan-out does |
| Registry.RunBroadcast | backend/internal/transport/ws/hub.go:57-75 | the loop over the map, in any iteration order, has the order-independent outcome `ChannelBroadcast` |
| Registry.Others | backend/internal/transport/ws/hub.go:143-146 | the presence audience is every registered user but the subject |
| Registry.PresenceEvent | backend/internal/transport/ws/hub.go:132-135 | presence is unscoped and names the user and status |
| Registry.BroadcastPresence | backend/internal/transport/ws/hub.go:131-152 | presence is offered to every other registered user and dropped when full, so the map never changes and stays consistent |
| Registry.Register | backend/internal/transport/ws/hub.go:39-44 | the user's entry now points at the new client, replacing an earlier one; other entries are kept; every other registered client is offered "online"; the map stays consistent |
| Registry.RegisterEffect | backend/internal/transport/ws/hub.go:39-44 | after storing the client, the announcement keeps the new entry and client; unserialisable, it leaves every old client alone |
| Registry.RegisterOffers | backend/internal/transport/ws/hub.go:39-44 | the serialised "online" is offered exactly to the registered clients of other users |
| Registry.RegisterValid | backend/internal/transport/ws/hub.go:39-44 | registering a new client never panics and keeps the hub valid |
| Registry.Unregister | backend/internal/transport/ws/hub.go:46-55 | as written: an absent user is a no-op; otherwise the user's entry goes, whichever client it names, and the given client is closed, panicking if it already was |
| Registry.UnregisterCurrent | backend/internal/transport/ws/hub.go:46-55 | for the registered client: removed, closed, and "offline" offered to every other registered client; the hub stays valid |
| Registry.StaleUnregisterOrphans | backend/internal/transport/ws/hub.go:46-55 | a stale client's unregister deletes the newer client's entry, leaving that client open but unreachable |
| Registry.UnregisterOffersOffline | backend/internal/transport/ws/hub.go:46-55 | for any open client whose user has an entry, current or stale: the call succeeds and "offline" is offered to every registered client of another user, so a stale unregister announces its user offline while the newer connection is live |
| Registry.DroppedThenReconnectedPanics | backend/internal/transport/ws/hub.go:46-55 | a client dropped as full whose user reconnects is closed a second time by its own unregister: a panic |
| Registry.UnregisterOwn | backend/internal/transport/ws/hub.go:46-55 | the corrected unregister acts only when the given client is the registered one |
| Registry.UnregisterOwnValid | backend/internal/transport/ws/hub.go:46-55 | the corrected unregister never panics on a valid hub, keeps it valid and removes only its own entry |
| Registry.UnregisterTwice | backend/internal/transport/ws/hub.go:46-55 | a second unregister of the same client changes nothing |
| Registry.BroadcastToUser | backend/internal/transport/ws/hub.go:95-106 | an unregistered user or an unserialisable event is a no-op; the map never changes |
| Registry.BroadcastToUserIsDeliver | backend/internal/transport/ws/hub.go:95-106 | a direct send is the non-dropping fan-out to that single user |
| Registry.HandleTyping | backend/internal/transport/ws/hub.go:109-128 | `typing.stop` is a no-op; `typing.start` broadcasts one `typing` event naming the sender to the channel, excluding the sender |
| Registry.Consume | backend/internal/transport/ws/client.go:101-114 | the writer removes a prefix of one client's mailbox and nothing else |
| Registry.ConsumeValid | backend/internal/transport/ws/client.go:101-114 | consuming keeps the hub valid |
| Inbound.WithClient | backend/internal/transport/ws/client.go:131-164 | a client-level panic propagates; otherwise only that client's entry in the table changes |
| Inbound.BadChannelPayload | backend/internal/transport/ws/client.go:133-147 | an undecodable (un)subscribe produces at most one `INVALID_PAYLOAD` error with the right message, subscriptions unchanged |
| Inbound.SubscribeEvent | backend/internal/transport/ws/client.go:133-140 | a decodable subscribe adds exactly that channel and touches nothing else |
| Inbound.UnsubscribeEvent | backend/internal/transport/ws/client.go:142-149 | a decodable unsubscribe removes exactly that channel and touches nothing else |
| Inbound.TypingWithoutChannel | backend/internal/transport/ws/client.go:151-155 | a typing event without a channel id yields at most one error to the sender and never reaches the hub |
| Inbound.TypingWithChannel | backend/internal/transport/ws/client.go:151-156 | with a channel id, typing is the hub's `HandleTyping` for the client's user; `typing.stop` changes nothing |
| Inbound.PingPong | backend/internal/transport/ws/client.go:158-159 | a ping panics iff the client is closed and otherwise yields at most one pong, always when there is room |
| Inbound.UnknownKind | backend/internal/transport/ws/client.go:161-162 | any other kind yields at most one `UNKNOWN_EVENT` error naming the kind |
| Inbound.MessageSendIsUnknown | backend/internal/transport/ws/client.go:161-162 | `message.send` has no handler and is answered as unknown |
| Inbound.PingOnClosedClientPanics | backend/internal/transport/ws/client.go:166-172 | a ping on a client the hub has closed panics |
| Inbound.HandleEventValid | backend/internal/transport/ws/client.go:131-164 | an event from an open client on a valid hub never panics and keeps the hub valid |
| Notifier.MessageEvent | backend/internal/transport/ws/notifier.go:20 | the event is scoped to the message's channel and carries the message |
| Notifier.DeletedEvent | backend/internal/transport/ws/notifier.go:38 | the deletion event is scoped to the channel and carries only the id |
| Notifier.NotifyNewMessage | backend/internal/transport/ws/notifier.go:19-26 | one `message.new` is broadcast on the message's channel with nobody excluded, or nothing when it does not serialise |
| Notifier.NotifyEditedMessage | backend/internal/transport/ws/notifier.go:28-35 | likewise with `message.edited` |
| Notifier.NotifyDeletedMessage | backend/internal/transport/ws/notifier.go:37-44 | one `message.deleted` carrying the id is broadcast on the channel |
| Notifier.Apply | backend/internal/transport/ws/notifier.go:19-44 | a new, edited or deleted channel message is broadcast on its channel with the event `NotifyNewMessage`, `NotifyEditedMessage` or `NotifyDeletedMessage` sends, with no user excluded; an unserialisable event leaves the hub unchanged |
| Notifier.ApplyAll | backend/internal/transport/ws/notifier.go:19-44 | delivering a service call's channel-message notices never panics on a valid hub and keeps it valid |
| Notifier.ApplyValid | backend/internal/transport/ws/notifier.go:19-44 | one channel-message notice never panics on a valid hub and keeps it valid |
| Notifier.SenderSeesOwnMessage | backend/internal/transport/ws/notifier.go:25 | with no exclusion, the sender's subscribed client with room receives its own message at the tail |
| Slug.ToLower | backend/internal/service/workspace_service.go:235 | lower-casing maps each character on its own, keeping the length |
| Slug.ReplaceNonSlug | backend/internal/service/workspace_service.go:231-236 | each character outside `[a-z0-9-]` becomes one dash, the others stay |
| Slug.Collapse | backend/internal/service/workspace_service.go:232-237 | no double dash remains, nothing grows, and the first and last characters are kept |
| Slug.CollapseKeepsAlphabet | backend/internal/service/workspace_service.go:232-237 | text of slug characters stays text of slug characters |
| Slug.CollapseKeepsNonDash | backend/internal/service/workspace_service.go:232-237 | the non-dash characters are kept, in order |
| Slug.CollapseNoop | backend/internal/service/workspace_service.go:232-237 | text without a double dash is unchanged |
| Slug.TrimDashesEnds | backend/internal/service/workspace_service.go:238 | no dash remains at either end |
| Slug.SliceKeepsShape | backend/internal/service/workspace_service.go:238 | an infix keeps the slug alphabet and the absence of double dashes |
| Slug.TrimDashesInfix | backend/internal/service/workspace_service.go:238 | trimming keeps an infix of its input |
| Slug.TrimLeftDashesFilter | backend/internal/service/workspace_service.go:238 | removing leading dashes keeps every non-dash character |
| Slug.TrimRightDashesFilter | backend/internal/service/workspace_service.go:238 | removing trailing dashes keeps every non-dash character |
| Slug.TrimDashesFilter | backend/internal/service/workspace_service.go:238 | trimming removes dashes only |
| Slug.TrimDashesShape | backend/internal/service/workspace_service.go:238 | trimming keeps the slug alphabet and the absence of double dashes |
| Slug.ReplaceKeepsAlnums | backend/internal/service/workspace_service.go:236 | the replacement keeps exactly the lower-case letters and digits |
| Slug.SlugifyShape | backend/internal/service/workspace_service.go:234-240 | a slug uses `[a-z0-9-]` only, has no double dash and no dash at either end |
| Slug.SlugifyKeepsAlnums | backend/internal/service/workspace_service.go:234-240 | the slug's non-dash characters are exactly the letters and digits of the lower-cased, trimmed input |
| Slug.SlugifyEmptyIff | backend/internal/service/workspace_service.go:234-240 | the slug is empty iff the input has no letter or digit |
| Slug.ToLowerSlugNoop | backend/internal/service/workspace_service.go:235 | text in the slug alphabet is unchanged by lower-casing |
| Slug.ReplaceSlugNoop | backend/internal/service/workspace_service.go:236 | text in the slug alphabet is unchanged by the replacement |
| Slug.SlugNoop | backend/internal/service/workspace_service.go:234-240 | a string already in slug shape is its own slug |
| Slug.SlugifyIdempotent | backend/internal/service/workspace_service.go:234-240 | slugifying twice is slugifying once |
| Slug.SlugifyPassesValidator | backend/pkg/validator/validator.go:92-101 | a slug of 2 to 100 bytes passes the workspace slug validator |
| Store.Find | backend/internal/repository/postgres/workspace_repo.go:37-40 | the first row satisfying the condition, or none iff no row does |
| Store.Remove | backend/internal/repository/postgres/pulsemate_repo.go:117-120 | the kept rows are exactly the input rows failing the condition |
| Store.RemoveNone | backend/internal/repository/postgres/workspace_repo.go:73-76 | a delete that matches no row keeps every row |
| Store.RemoveOne | backend/internal/repository/postgres/workspace_repo.go:73-76 | a delete that matches only row `k` drops that row and keeps the rest in order |
| Store.Select | backend/internal/repository/postgres/message_repo.go:52-78 | the selected rows are exactly the input rows satisfying the condition |
| Store.SelectAppend | backend/internal/repository/postgres/message_repo.go:52-78 | selection distributes over appended rows |
| Store.Replace | backend/internal/repository/postgres/message_repo.go:107-111 | an update replaces one row and keeps the others |
| WorkspaceService.Lookup | backend/internal/repository/postgres/workspace_repo.go:32-35 | the found workspace has the id asked for; none iff no workspace has it |
| WorkspaceService.ChosenSlug | backend/internal/service/workspace_service.go:49-52 | the given slug's slug when it has a letter or digit, else the name's |
| WorkspaceService.Create | backend/internal/service/workspace_service.go:48-92 | fails with `ErrSlugTaken` iff the chosen slug is in use; a failing insert is wrapped as "creating workspace" and stores nothing; a failing owner membership is wrapped as "adding owner as member" and keeps the inserted workspace; otherwise appends the workspace with the fields given and makes the creator `owner`, changing nothing else |
| WorkspaceService.NewWorkspace | backend/internal/service/workspace_service.go:62-74 | the inserted row has the fields given, an empty description stored as absent |
| WorkspaceService.OwnerInsertFailureLeavesWorkspace | backend/internal/service/workspace_service.go:76-89 | when the owner membership fails, the call reports an error yet the workspace is stored and its creator has no role in it |
| WorkspaceService.CreateKeepsUnique | backend/internal/service/workspace_service.go:54-89 | whatever the writes report, the store keeps ids and slugs unique, and on success the creator is `owner` |
| WorkspaceService.AppendKeepsUnique | backend/internal/service/workspace_service.go:54-60 | appending a workspace with a new id and an unused slug keeps both unique |
| WorkspaceService.CreateSlugShape | backend/internal/service/workspace_service.go:49-52 | a created workspace's slug has slug shape |
| WorkspaceService.SlugClashIff | backend/internal/service/workspace_service.go:139-144 | with unique slugs, the first-match clash test means another workspace holds the slug |
| WorkspaceService.Update | backend/internal/service/workspace_service.go:118-153 | not found, then not owner, then slug taken, then a failing write wrapped as "updating workspace"; otherwise the given fields replace the stored ones and only that row changes |
| WorkspaceService.UpdateSlugRule | backend/internal/service/workspace_service.go:130-150 | an owner's update fails with `ErrSlugTaken` iff another workspace holds the new slug, fails at all iff that or the write fails, and success keeps the constraints |
| WorkspaceService.Delete | backend/internal/service/workspace_service.go:155-168 | `ErrWorkspaceNotFound`, then `ErrNotWorkspaceOwner` for anyone but the owner; success keeps exactly the other workspaces and changes no other table |
| WorkspaceService.DeleteKeepsUnique | backend/internal/repository/postgres/workspace_repo.go:73-76 | deleting a workspace keeps ids and slugs unique |
| WorkspaceService.DropKeepsUnique | backend/internal/repository/postgres/workspace_repo.go:73-76 | the rows left after dropping one stay pairwise distinct |
| WorkspaceService.DeleteUndoesAppend | backend/internal/service/workspace_service.go:155-168 | the owner deleting the newest workspace, with an id no older one has, restores the earlier table |
| WorkspaceService.DeleteUndoesCreate | backend/internal/service/workspace_service.go:48-168 | the creator deleting a workspace just created restores the workspace table |
| WorkspaceService.AddMember | backend/internal/service/workspace_service.go:170-205 | the errors in source order; succeeds iff the requester is owner or admin, the user exists and is not a member; the user joins as `member` |
| WorkspaceService.RemoveMember | backend/internal/service/workspace_service.go:207-217 | succeeds iff the requester is owner or admin; then only that membership is deleted |
| WorkspaceService.RemoveUndoesAdd | backend/internal/service/workspace_service.go:170-217 | removing a member just added restores the member table |
| WorkspaceService.AdminMayRemoveOwner | backend/internal/service/workspace_service.go:207-217 | an admin can remove the owner: nothing protects the owner's membership |
| ChannelService.SearchFrom | backend/internal/service/channel_service.go:289-296 | the scan from a position succeeds iff the needle occurs at or after it |
| ChannelService.Contains | backend/internal/service/channel_service.go:285-287 | `contains` holds iff the needle occurs in the haystack |
| ChannelService.SearchString | backend/internal/service/channel_service.go:289-296 | the loop finds the needle iff it occurs |
| ChannelService.EmptyNeedleMatches | backend/internal/service/channel_service.go:285-296 | the empty needle occurs in every haystack |
| ChannelService.LongNeedleFails | backend/internal/service/channel_service.go:285-287 | a needle longer than the haystack never matches |
| ChannelService.IsDuplicateError | backend/internal/service/channel_service.go:279-283 | an error is a duplicate iff its text contains `23505` |
| ChannelService.Lookup | backend/internal/repository/postgres/channel_repo.go:32-44 | the found channel has the id asked for; none iff no channel has it |
| ChannelService.WriteError | backend/internal/service/channel_service.go:75-81 | a duplicate-key failure becomes `ErrChannelNameTaken`, any other the wrapped store error |
| ChannelService.Create | backend/internal/service/channel_service.go:44-95 | not a member of the workspace, then the insert's outcome (a duplicate is `ErrChannelNameTaken`, anything else wrapped as "creating channel", storing nothing); a failing creator membership is wrapped as "adding creator as member" and keeps the inserted channel; success appends the channel with the fields given and makes the creator its `admin` |
| ChannelService.NewChannel | backend/internal/service/channel_service.go:54-73 | the inserted row: an empty type is `public`, an empty description is absent, not archived |
| ChannelService.CreatorInsertFailureLeavesChannel | backend/internal/service/channel_service.go:75-92 | when the creator membership fails, the call reports an error yet the channel is stored with no admin |
| ChannelService.CreateDuplicateName | backend/internal/service/channel_service.go:75-81 | an insert failing with SQLSTATE 23505 yields exactly `ErrChannelNameTaken` |
| ChannelService.GetByID | backend/internal/service/channel_service.go:97-127 | not found, then visibility: any workspace member for a public channel, channel members otherwise |
| ChannelService.Update | backend/internal/service/channel_service.go:142-175 | not found, then not admin or creator, then the write's outcome; only that row changes |
| ChannelService.GetAfterUpdate | backend/internal/service/channel_service.go:97-175 | after a successful update, `GetByID` returns the updated row to exactly the users who could read the channel before |
| ChannelService.LookupAfterReplace | backend/internal/repository/postgres/channel_repo.go:68-72 | replacing the row found for an id by a row with that id makes the new row the one found |
| ChannelService.Archive | backend/internal/service/channel_service.go:177-196 | not found, then the workspace owner or the creator only; the channel becomes archived and nothing else changes |
| ChannelService.ArchiveIdempotent | backend/internal/service/channel_service.go:177-196 | archiving twice is archiving once |
| ChannelService.AddMember | backend/internal/service/channel_service.go:198-243 | not found, then the requester rule (a public channel needs only a workspace member as the added user; others need a channel admin), then `ErrAlreadyMember` exactly for a user who is already a member; the user joins as `member` |
| ChannelService.PublicAddIgnoresRequester | backend/internal/service/channel_service.go:208-220 | for a public channel the outcome does not depend on the requester |
| ChannelService.RemoveMember | backend/internal/service/channel_service.go:245-255 | succeeds iff the requester is a channel admin or is removing themselves; only that membership goes |
| ChannelService.MemberMayLeave | backend/internal/service/channel_service.go:250-252 | any user may remove their own membership |
| ChannelService.RemoveUndoesAdd | backend/internal/service/channel_service.go:198-255 | removing a member just added restores the member table |
| Paging.ClampLimit | backend/internal/service/message_service.go:107-109 | the limit is kept when in 1..100 and becomes 50 otherwise |
| Paging.LastN | backend/internal/repository/postgres/message_repo.go:64-101 | the newest n rows of a chronological list, oldest first |
| Paging.OlderThan | backend/internal/repository/postgres/message_repo.go:56-67 | no cursor keeps every row; otherwise only rows in front of the cursor row, and none when no row has the cursor id |
| Paging.Window | backend/internal/service/message_service.go:117-120 | `hasMore` iff more rows were fetched than the limit; the page is the newest `limit` of them |
| Paging.WindowOfFetch | backend/internal/service/message_service.go:112-120 | fetching limit+1 and trimming gives the newest `limit` eligible rows, and `hasMore` says whether any was left out |
| Paging.LastNAppend | backend/internal/service/message_service.go:117-120 | the newest row is the last item of the page |
| Paging.LastNKeeps | backend/internal/service/message_service.go:117-120 | every row of a page satisfies what every row of the list satisfies |
| MessageService.CheckChannelAccess | backend/internal/service/message_service.go:184-214 | not found, then visibility: any workspace member for a public channel, channel members otherwise |
| MessageService.AccessAgreesWithGetByID | backend/internal/service/message_service.go:184-214 | the access check agrees with the channel service's `GetByID`, error for error |
| MessageService.AccessIgnoresMessages | backend/internal/service/message_service.go:184-214 | access does not depend on the message table |
| MessageService.Eligible | backend/internal/repository/postgres/message_repo.go:52-78 | the channel's undeleted messages older than the cursor, in order |
| MessageService.List | backend/internal/service/message_service.go:102-130 | after access, the page is the newest clamped-limit eligible messages, and `hasMore` iff more exist |
| MessageService.UnknownCursorEmptyPage | backend/internal/repository/postgres/message_repo.go:64 | a cursor naming no message gives an empty page with nothing more |
| MessageService.Compose | backend/internal/service/message_service.go:73-80 | a new `text` message from the caller with the given content and parent, neither edited nor deleted |
| MessageService.Send | backend/internal/service/message_service.go:68-100 | after access, the message is appended unless the write fails, and `NotifyNewMessage` is issued exactly once after success when a notifier is set |
| MessageService.SentMessageIsNewest | backend/internal/service/message_service.go:68-130 | a message just sent is the last item of the first page |
| MessageService.MessageIndex | backend/internal/repository/postgres/message_repo.go:33-50 | the first message with the id, deleted or not; none iff there is none |
| MessageService.Edit | backend/internal/service/message_service.go:132-159 | not found, then not owner, then a failing write wrapped as "updating message"; success changes only content and edited flag and notifies once |
| MessageService.Delete | backend/internal/service/message_service.go:161-182 | not found, then not owner, then a failing soft delete whose error is returned unchanged; success marks it deleted and notifies the channel and id once |
| MessageService.DeletedMessageLeavesHistory | backend/internal/service/message_service.go:161-182 | with unique ids, a deleted message appears on no later page |
| MessageService.PagesSkipDeleted | backend/internal/repository/postgres/message_repo.go:52-67 | when every copy of an id is deleted, no page lists it |
| MessageService.NotifyOnlyAfterSuccess | backend/internal/service/message_service.go:68-182 | a send notifies exactly when the access check and the insert succeeded and a notifier is set; an edit or delete exactly when the message exists, the caller sent it, the write succeeded and a notifier is set |
| DMService.View | backend/internal/service/dm_service.go:70-76 | the view shows the conversation with the other participant's id, username and display name |
| DMService.GetOrCreateConversation | backend/internal/service/dm_service.go:46-96 | oneself, then unknown user; otherwise the conversation for the canonical pair, unchanged store if it exists, else one appended |
| DMService.GetOrCreateKeepsInvariants | backend/internal/service/dm_service.go:60-95 | pairs stay canonical and unique |
| DMService.GetOrCreateStable | backend/internal/service/dm_service.go:60-77 | asking again, from either side, returns the same conversation and creates nothing |
| DMService.ConversationById | backend/internal/repository/postgres/dm_repo.go:46-59 | the found conversation has the id asked for; none iff there is none |
| DMService.CheckParticipant | backend/internal/service/dm_service.go:224-236 | succeeds iff the conversation exists and the caller is one of its users |
| DMService.CreatedConversationAdmitsBoth | backend/internal/service/dm_service.go:46-96 | both users of a created conversation pass the participant check |
| DMService.Eligible | backend/internal/repository/postgres/dm_repo.go:122-147 | the conversation's undeleted messages older than the cursor, in order |
| DMService.ListMessages | backend/internal/service/dm_service.go:141-168 | after the check, the newest clamped-limit eligible messages, and `hasMore` iff more exist |
| DMService.SendMessage | backend/internal/service/dm_service.go:111-138 | after the check, the message is appended unless the write fails, and `NotifyNewDM` is issued once after success when a notifier is set |
| DMService.DMIndex | backend/internal/repository/postgres/dm_repo.go:103-120 | the first direct message with the id, deleted or not |
| DMService.EditMessage | backend/internal/service/dm_service.go:171-198 | not found, then not owner, then a failing write wrapped as "updating dm message"; success changes only content and edited flag and notifies once; the conversation is not consulted |
| DMService.DeleteMessage | backend/internal/service/dm_service.go:201-222 | not found, then not owner, then a failing soft delete whose error is returned unchanged; success marks it deleted and notifies the conversation and id once |
| DMService.SentDMIsNewest | backend/internal/service/dm_service.go:111-169 | a direct message just sent is the last item of its sender's first page |
| DMService.DeletedDMLeavesHistory | backend/internal/service/dm_service.go:141-222 | with unique ids, no later page of any conversation lists a deleted direct message |
| DMService.DMPagesSkipDeleted | backend/internal/repository/postgres/dm_repo.go:122-147 | when every copy of an id is deleted, no page lists it |
| DMService.DMNotifyOnlyAfterSuccess | backend/internal/service/dm_service.go:111-222 | send, edit and delete notify exactly when their checks and write succeeded and a notifier is set |
| PulsemateService.ArePulsematesSymmetric | backend/internal/repository/postgres/pulsemate_repo.go:183-194 | being pulsemates is symmetric |
| PulsemateService.CreatePulsemate | backend/internal/service/pulsemate_service.go:201-215 | the canonical pair is stored; nothing else changes |
| PulsemateService.RemovePulsemate | backend/internal/service/pulsemate_service.go:192-198 | the canonical pair is deleted whichever side asks; nothing else changes |
| PulsemateService.RemoveUndoesCreate | backend/internal/service/pulsemate_service.go:192-215 | removing a pair just created restores the relation |
| PulsemateService.RequestByUsers | backend/internal/repository/postgres/pulsemate_repo.go:44-57 | the first request from the sender to the receiver, any status; none iff there is none |
| PulsemateService.RequestById | backend/internal/repository/postgres/pulsemate_repo.go:29-42 | the found request has the id asked for; none iff there is none |
| PulsemateService.DeleteRequest | backend/internal/repository/postgres/pulsemate_repo.go:117-120 | every request with the id goes; everything else stays |
| PulsemateService.SendRequest | backend/internal/service/pulsemate_service.go:38-101 | unknown user, then oneself, then already pulsemates, then a pending request already sent; a pending request the other way is accepted at once (pair stored, that request deleted, nothing returned); otherwise one pending request is created and returned |
| PulsemateService.AlreadyPulsematesNoChange | backend/internal/service/pulsemate_service.go:52-59 | a request to a pulsemate fails and changes nothing |
| PulsemateService.RepeatRequestRefused | backend/internal/service/pulsemate_service.go:61-68 | a second identical request is refused |
| PulsemateService.FirstRequestAlone | backend/internal/service/pulsemate_service.go:60-98 | after a first request is created it is the only request between the two users, in either direction |
| PulsemateService.MutualRequestsMakePulsemates | backend/internal/service/pulsemate_service.go:78-85 | two users asking each other end up pulsemates with no request left |
| PulsemateService.AcceptRequest | backend/internal/service/pulsemate_service.go:104-121 | not found, then not receiver; success deletes the request and makes the pair pulsemates |
| PulsemateService.RejectRequest | backend/internal/service/pulsemate_service.go:124-137 | receiver only; deletes the request and nothing else |
| PulsemateService.CancelRequest | backend/internal/service/pulsemate_service.go:140-153 | sender only; deletes the request and nothing else |
| PulsemateService.OperationsKeepInvariants | backend/internal/service/pulsemate_service.go:38-215 | every operation keeps stored pairs canonical and every request pending |

## Left out

- Socket I/O, `ReadPump`'s read errors, the ping ticker, write deadlines and `conn.Close`: these are network effects. The writer loop is modelled only as the order in which it takes mailbox items.
- Concurrency: the hub is a serial state machine over the events its `Run` loop receives. The client's `RWMutex` has no counterpart.
- JSON encoding and decoding: whether a payload serialises and what a channel payload decodes to are parameters. A serialised event is the event itself.
- Logging (`log.Printf`) has no observable effect in the model.
- `mail.ParseAddress` is a parameter `parses`.
- The ASCII character classes: Go's `unicode.IsUpper`, `IsLower` and `IsDigit` are modelled on ASCII only, so a non-ASCII letter does not count towards a password class.
- Slug.ToLower: only ASCII, U+0130 and U+212A (the only non-ASCII code points whose Go lower case is ASCII) are lowered. Other non-ASCII letters are left as they are. This cannot change a slug, because slugify's next step replaces them by dashes either way.
- ChannelService.IsDuplicateError: the `errors.Is(err, errors.New("unique_violation"))` disjunct compares with an error allocated on the spot, which nothing can wrap, so it is always false and is left out. The code searches for `23505` in bytes; the model searches in code points, which gives the same answer because the needle is ASCII.
- Repository read errors are not modelled. Every lookup returns a row or none. A failing write is a parameter wherever the code wraps its error or maps it to a service error: workspace and channel `Create` and `Update`, message and DM `Send`, `Edit` and `Delete`.
- ChannelService.Archive, ChannelService.AddMember, ChannelService.RemoveMember, WorkspaceService.Delete, WorkspaceService.AddMember and WorkspaceService.RemoveMember do not model a failing final write. The code returns that error unchanged, and the model assumes the write succeeds.
- PulsemateService.RejectRequest and PulsemateService.CancelRequest do not model a failing `DeleteRequest`, whose error the code returns unchanged.
- PulsemateService.RemovePulsemate does not model a failing `DeletePulsemate`, whose error the code returns unchanged; the model always deletes the pair.
- Notifier.Apply: the `HubNotifier` methods that deliver direct-message notices (`NotifyNewDM`, `NotifyEditedDM`, `NotifyDeletedDM`) are not part of this model. The model delivers no DM notice and claims nothing about their real-time delivery.
- DMService.GetOrCreateConversation does not model a failing `CreateConversation` insert (a read of the store never fails and inserting a fresh id is assumed to succeed).
- PulsemateService.SendRequest, PulsemateService.AcceptRequest and PulsemateService.CreatePulsemate do not model failing request or pulsemate writes; pulsemates is a set, so a duplicate insert is a no-op rather than a constraint error.
- `created_at` ties: rows are in insertion order and that order stands for time. Two rows with the same timestamp are not modelled.
- Deleting a workspace does not cascade to its channels, members or messages. Those are foreign-key cascades in the database schema, which is not part of this model.
- The read-only listings `ListByUser`, `ListMembers`, `ListByWorkspace`, `ListConversations`, `ListPulsemates`, `ListIncomingRequests` and `ListOutgoingRequests`, and workspace `GetByID`: they filter and return store rows without any rule beyond the membership checks already modelled. The rule that turns a nil list into an empty one has no counterpart on sequences.
- Authentication, HTTP handlers, invites, configuration and database setup (auth_service.go, the handlers, invite_repo.go, config.go, database.go, main.go) are outside the modelled core.
- Message and DM timestamps (`created_at`, `edited_at`, `deleted_at`) are flags or absent: edited and deleted are booleans.

## Findings

| source | as written | input that shows it | evidently intended | confidence | as-written member | corrected member |
|---|---|---|---|---|---|---|
| backend/internal/transport/ws/hub.go:46-55 | `unregister` looks up the map by user id only, then closes the given client's channels | A broadcast drops user u's client c1 for a full mailbox, which closes c1. u reconnects with c2. c1's reader then ends and sends its `unregister`: the lookup finds u's entry (for c2), deletes it and closes c1 again, which panics. The same stale unregister of a client that is still open orphans c2. | act only when the map entry for the user is the client being unregistered | not executed | Registry.DroppedThenReconnectedPanics | Registry.UnregisterOwnValid |

=== FILE: base.dfy ===
/** Shared vocabulary of the model: optional values, error-or-value results,
    identifiers, and the order Go uses when it compares two strings. */
module Base {

  /** A possibly absent value; stands for Go's nil pointers and `ok` flags. */
  datatype Option<+T> = None | Some(value: T)

  /** A value or an error; stands for Go's `(T, error)` returns. */
  datatype Result<+T, +E> = Ok(value: T) | Err(error: E)

  /** A UUID, represented by its canonical textual form (`uuid.UUID.String()`).
      Two UUIDs are equal exactly when their texts are. */
  type Uuid = string

  /** Go's `a < b` on strings: lexicographic order on the bytes, which on
      UTF-8 text coincides with lexicographic order on code points. */
  predicate Less(a: string, b: string)
    decreases |a|
  {
    if |a| == 0 then |b| > 0
    else if |b| == 0 then false
    else a[0] < b[0] || (a[0] == b[0] && Less(a[1..], b[1..]))
  }

  lemma {:induction false} LessIrreflexive(a: string)
    ensures !Less(a, a)
  {
    if |a| > 0 {
      LessIrreflexive(a[1..]);
    }
  }

  lemma {:induction false} LessAsymmetric(a: string, b: string)
    ensures Less(a, b) ==> !Less(b, a)
    decreases |a|
  {
    if |a| > 0 && |b| > 0 && a[0] == b[0] {
      LessAsymmetric(a[1..], b[1..]);
    }
  }

  /** Any two distinct strings are ordered one way or the other. */
  lemma {:induction false} LessTrichotomy(a: string, b: string)
    ensures a == b || Less(a, b) || Less(b, a)
    decreases |a|
  {
    if |a| > 0 && |b| > 0 && a[0] == b[0] {
      LessTrichotomy(a[1..], b[1..]);
      if a[1..] == b[1..] {
        assert a == [a[0]] + a[1..];
        assert b == [b[0]] + b[1..];
      }
    }
  }

  /** The canonical ordering of a user pair used for DM conversations and
      pulsemates: swap when `u1.String() > u2.String()`. */
  function Canonical(a: Uuid, b: Uuid): (r: (Uuid, Uuid))
    ensures !Less(r.1, r.0)
    ensures (r.0 == a && r.1 == b) || (r.0 == b && r.1 == a)
  {
    LessAsymmetric(b, a);
    if Less(b, a) then (b, a) else (a, b)
  }

  /** The canonical pair does not depend on which participant asks. */
  lemma {:induction false} CanonicalSymmetric(a: Uuid, b: Uuid)
    ensures Canonical(a, b) == Canonical(b, a)
  {
    LessTrichotomy(a, b);
    LessAsymmetric(a, b);
  }
}

=== FILE: channel_service.dfy ===
/** `ChannelService` (service/channel_service.go): the access rules of
    channel creation, lookup, update, archiving and membership, and the
    substring search behind `isDuplicateError`. */
module ChannelService {
  import opened Base
  import opened Domain
  import opened Store
  import opened ServiceErrors

  const PublicKind := "public"
  const AdminRole := "admin"
  const MemberRole := "member"
  const OwnerRole := "owner"

  // ---------------------------------------------------------------------
  // Substring search. Go strings are byte sequences; the search is written
  // over any sequence so that it reads the same on bytes or on code points.

  /** `sub` occurs in `s` starting at index `i`. */
  predicate OccursAt<T(==)>(s: seq<T>, sub: seq<T>, i: int) {
    0 <= i && i + |sub| <= |s| && s[i..i + |sub|] == sub
  }

  /** `sub` is a contiguous piece of `s`. */
  predicate Occurs<T(==)>(s: seq<T>, sub: seq<T>) {
    exists i :: 0 <= i <= |s| && OccursAt(s, sub, i)
  }

  /** Scan the start positions from `i` on. */
  function SearchFrom<T(==)>(s: seq<T>, sub: seq<T>, i: nat): (r: bool)
    ensures r <==> exists j :: i <= j && OccursAt(s, sub, j)
    decreases |s| - i
  {
    if i + |sub| > |s| then
      assert forall j :: i <= j ==> !OccursAt(s, sub, j);
      false
    else
      var here := s[i..i + |sub|] == sub;
      assert here ==> OccursAt(s, sub, i);
      assert !here ==> !OccursAt(s, sub, i);
      here || SearchFrom(s, sub, i + 1)
  }

  /** `contains`: a length guard, then the scan. */
  function Contains<T(==)>(s: seq<T>, sub: seq<T>): (r: bool)
    ensures r <==> Occurs(s, sub)
  {
    |s| >= |sub| && SearchFrom(s, sub, 0)
  }

  /** `searchString`: try every start position `0..len(s)-len(sub)` in
      turn and stop at the first match. */
  method SearchString<T(==)>(s: seq<T>, sub: seq<T>) returns (found: bool)
    ensures found <==> Occurs(s, sub)
  {
    var i := 0;
    while i <= |s| - |sub|
      invariant 0 <= i && (i == 0 || i <= |s| - |sub| + 1)
      invariant forall j :: 0 <= j < i ==> !OccursAt(s, sub, j)
      decreases |s| - |sub| - i
    {
      if s[i..i + |sub|] == sub {
        assert OccursAt(s, sub, i);
        return true;
      }
      i := i + 1;
    }
    assert forall j :: i <= j ==> !OccursAt(s, sub, j);
    return false;
  }

  /** The empty needle matches every haystack, the empty one included. */
  lemma {:induction false} EmptyNeedleMatches<T>(s: seq<T>)
    ensures Contains(s, [])
  {
    assert OccursAt(s, [], 0);
  }

  /** A needle longer than the haystack never matches. */
  lemma {:induction false} LongNeedleFails<T>(s: seq<T>, sub: seq<T>)
    requires |sub| > |s|
    ensures !Contains(s, sub)
  {
  }

  /** `isDuplicateError`: a non-nil error whose text contains `23505`, the
      SQLSTATE of a unique violation. The `errors.Is` disjunct compares
      against an error allocated on the spot, which nothing wraps, so it is
      always false. The needle is ASCII, and in UTF-8 an ASCII byte never
      occurs inside the encoding of another character, so matching it on
      code points is the same as matching it on bytes. */
  function IsDuplicateError(err: Option<string>): (r: bool)
    ensures r <==> err.Some? && Occurs(err.value, "23505")
  {
    err.Some? && err.value != "" && Contains(err.value, "23505")
  }

  // ---------------------------------------------------------------------
  // Rules

  predicate ChannelIdFresh(db: Db, id: Uuid) {
    forall i :: 0 <= i < |db.channels| ==> db.channels[i].id != id
  }

  /** `GetByID` of the repository. */
  function Lookup(db: Db, id: Uuid): (r: Option<Channel>)
    ensures r.Some? <==> exists i :: 0 <= i < |db.channels| && db.channels[i].id == id
    ensures r.Some? ==> r.value.id == id && r.value in db.channels
  {
    match ChannelIndex(db, id)
    case None => None
    case Some(k) => Some(db.channels[k])
  }

  /** Who may see a channel: any workspace member for a public channel,
      only its members for any other kind. */
  predicate Visible(db: Db, ch: Channel, userId: Uuid) {
    if ch.kind == PublicKind then WorkspaceRole(db, ch.workspaceId, userId).Some?
    else ChannelRole(db, ch.id, userId).Some?
  }

  /** Who may edit a channel: a channel member who is its `admin` or its
      creator. */
  predicate CanEdit(db: Db, ch: Channel, userId: Uuid) {
    ChannelRole(db, ch.id, userId).Some? && (ChannelRole(db, ch.id, userId).value == AdminRole || ch.createdBy == userId)
  }

  /** Who may archive a channel: a workspace member who is the workspace
      `owner` or the channel's creator. */
  predicate CanArchive(db: Db, ch: Channel, userId: Uuid) {
    WorkspaceRole(db, ch.workspaceId, userId).Some? &&
    (WorkspaceRole(db, ch.workspaceId, userId).value == OwnerRole || ch.createdBy == userId)
  }

  /** Who may remove `userId`: a channel member who is `admin` or is
      removing themselves. */
  predicate CanRemove(db: Db, channelId: Uuid, requesterId: Uuid, userId: Uuid) {
    ChannelRole(db, channelId, requesterId).Some? &&
    (ChannelRole(db, channelId, requesterId).value == AdminRole || requesterId == userId)
  }

  /** The error a failed write turns into. */
  function WriteError(context: string, err: string): (e: Error)
    ensures IsDuplicateError(Some(err)) ==> e == ChannelNameTaken
    ensures !IsDuplicateError(Some(err)) ==> e == StoreFailure(context + ": " + err)
  {
    if IsDuplicateError(Some(err)) then ChannelNameTaken else StoreFailure(context + ": " + err)
  }

  /** The row `Create` inserts: an empty type means `public`, an empty
      description is stored as absent, and the channel starts unarchived. */
  function NewChannel(id: Uuid, workspaceId: Uuid, name: string, description: string, kind: string,
                      createdBy: Uuid): (ch: Channel)
    ensures ch.id == id && ch.workspaceId == workspaceId && ch.name == name && ch.createdBy == createdBy
    ensures !ch.archived && (ch.kind == if kind == "" then PublicKind else kind)
    ensures (ch.description.Some? <==> description != "") && (ch.description.Some? ==> ch.description.value == description)
  {
    Channel(id, workspaceId, name, if description != "" then Some(description) else None,
            if kind == "" then PublicKind else kind, createdBy, false)
  }

  /** `Create`: only a workspace member may create (`ErrNotMember`). Then
      two writes. `insertError` is the text of the error the channel insert
      reports, if any: a unique violation becomes `ErrChannelNameTaken`, any
      other failure is wrapped as "creating channel", and both create
      nothing. `memberError` is that of the creator's `admin` membership: it
      is wrapped as "adding creator as member" (never turned into
      `ErrChannelNameTaken`) and leaves the channel row stored without it. */
  function Create(db: Db, userId: Uuid, workspaceId: Uuid, name: string, description: string, kind: string,
                  freshId: Uuid, insertError: Option<string>, memberError: Option<string>): (r: Written<Channel, Error>)
    requires ChannelIdFresh(db, freshId)
    ensures WorkspaceRole(db, workspaceId, userId).None? ==> r == Written(db, Err(NotMember))
    ensures WorkspaceRole(db, workspaceId, userId).Some? && insertError.Some? ==>
      r == Written(db, Err(WriteError("creating channel", insertError.value)))
    ensures r.answer.Ok? <==> WorkspaceRole(db, workspaceId, userId).Some? && insertError.None? && memberError.None?
    ensures WorkspaceRole(db, workspaceId, userId).Some? && insertError.None? ==>
      var ch := NewChannel(freshId, workspaceId, name, description, kind, userId);
      r.db.channels == db.channels + [ch] &&
      (memberError.Some? ==>
         r.db == db.(channels := r.db.channels) &&
         r.answer == Err(StoreFailure("adding creator as member: " + memberError.value))) &&
      (memberError.None? ==>
         r.answer == Ok(ch) &&
         r.db.channelMembers == db.channelMembers[(freshId, userId) := AdminRole] &&
         r.db.(channels := db.channels, channelMembers := db.channelMembers) == db)
  {
    if WorkspaceRole(db, workspaceId, userId).None? then Written(db, Err(NotMember))
    else
      var ch := NewChannel(freshId, workspaceId, name, description, kind, userId);
      match insertError
      case Some(e) => Written(db, Err(WriteError("creating channel", e)))
      case None =>
        var d1 := db.(channels := db.channels + [ch]);
        match memberError
        case Some(e) => Written(d1, Err(StoreFailure("adding creator as member: " + e)))
        case None => Written(d1.(channelMembers := db.channelMembers[(freshId, userId) := AdminRole]), Ok(ch))
  }

  /** A store reporting SQLSTATE 23505 on the insert yields exactly
      `ErrChannelNameTaken` and creates nothing. */
  lemma {:induction false} CreateDuplicateName(db: Db, userId: Uuid, workspaceId: Uuid, name: string, description: string, kind: string,
                            freshId: Uuid, prefix: string, suffix: string, memberError: Option<string>)
    requires ChannelIdFresh(db, freshId) && WorkspaceRole(db, workspaceId, userId).Some?
    ensures Create(db, userId, workspaceId, name, description, kind, freshId, Some(prefix + "23505" + suffix), memberError)
         == Written(db, Err(ChannelNameTaken))
  {
    var e := prefix + "23505" + suffix;
    assert e[|prefix|..|prefix| + 5] == "23505";
    assert OccursAt(e, "23505", |prefix|);
  }

  /** A failed creator membership leaves a channel behind that has no
      admin member, although the call reported an error. */
  lemma {:induction false} CreatorInsertFailureLeavesChannel(db: Db, userId: Uuid, workspaceId: Uuid, name: string,
                                                             description: string, kind: string, freshId: Uuid, e: string)
    requires ChannelIdFresh(db, freshId) && WorkspaceRole(db, workspaceId, userId).Some?
    requires forall u :: (freshId, u) !in db.channelMembers
    ensures var r := Create(db, userId, workspaceId, name, description, kind, freshId, None, Some(e));
      r.answer.Err? && Lookup(r.db, freshId).Some? &&
      forall u :: ChannelRole(r.db, freshId, u) != Some(AdminRole)
  {
    var r := Create(db, userId, workspaceId, name, description, kind, freshId, None, Some(e));
    assert r.db.channels[|db.channels|].id == freshId;
  }

  /** `GetByID`: `ErrChannelNotFound`, then the visibility rule
      (`ErrNotMember` for a public channel, `ErrNotChannelMember`
      otherwise). Archived channels are returned like any other. */
  function GetByID(db: Db, userId: Uuid, channelId: Uuid): (r: Result<Channel, Error>)
    ensures Lookup(db, channelId).None? ==> r == Err(ChannelNotFound)
    ensures r.Ok? <==> Lookup(db, channelId).Some? && Visible(db, Lookup(db, channelId).value, userId)
    ensures r.Ok? ==> r.value == Lookup(db, channelId).value
    ensures r.Err? && Lookup(db, channelId).Some? ==>
      r.error == (if Lookup(db, channelId).value.kind == PublicKind then NotMember else NotChannelMember)
  {
    match Lookup(db, channelId)
    case None => Err(ChannelNotFound)
    case Some(ch) =>
      if ch.kind == PublicKind then
        if WorkspaceRole(db, ch.workspaceId, userId).None? then Err(NotMember) else Ok(ch)
      else
        if ChannelRole(db, channelId, userId).None? then Err(NotChannelMember) else Ok(ch)
  }

  /** `Update`: `ErrChannelNotFound`, then `ErrNotChannelAdmin` unless the
      caller may edit; then name and description are replaced when given.
      `updateError` is the store's error text, if any: a unique violation
      becomes `ErrChannelNameTaken`. Only that channel's row changes. */
  function Update(db: Db, userId: Uuid, channelId: Uuid, name: Option<string>, description: Option<string>,
                  updateError: Option<string>): (r: Result<(Db, Channel), Error>)
    ensures Lookup(db, channelId).None? ==> r == Err(ChannelNotFound)
    ensures Lookup(db, channelId).Some? && !CanEdit(db, Lookup(db, channelId).value, userId) ==> r == Err(NotChannelAdmin)
    ensures (Lookup(db, channelId).Some? && CanEdit(db, Lookup(db, channelId).value, userId) && updateError.Some?) ==>
      r == Err(WriteError("updating channel", updateError.value))
    ensures r.Ok? <==> Lookup(db, channelId).Some? && CanEdit(db, Lookup(db, channelId).value, userId) && updateError.None?
    ensures r.Ok? ==>
      var (d, ch) := r.value;
      var old_ := Lookup(db, channelId).value;
      ch == old_.(name := if name.Some? then name.value else old_.name,
                  description := if description.Some? then description else old_.description) &&
      d == db.(channels := d.channels) && |d.channels| == |db.channels| && ch in d.channels &&
      forall i :: 0 <= i < |db.channels| && db.channels[i].id != channelId ==> d.channels[i] == db.channels[i]
  {
    match ChannelIndex(db, channelId)
    case None => Err(ChannelNotFound)
    case Some(k) =>
      var ch := db.channels[k];
      if !CanEdit(db, ch, userId) then Err(NotChannelAdmin)
      else
        var ch1 := ch.(name := if name.Some? then name.value else ch.name,
                       description := if description.Some? then description else ch.description);
        match updateError
        case Some(e) => Err(WriteError("updating channel", e))
        case None => Ok((db.(channels := Replace(db.channels, k, ch1)), ch1))
  }

  /** Reading a channel back after a successful update gives the updated
      row to exactly the users who could read it before. */
  lemma {:induction false} GetAfterUpdate(db: Db, userId: Uuid, channelId: Uuid, name: Option<string>,
                                          description: Option<string>, reader: Uuid)
    requires Update(db, userId, channelId, name, description, None).Ok?
    ensures var (d, ch) := Update(db, userId, channelId, name, description, None).value;
      GetByID(d, reader, channelId) == (if GetByID(db, reader, channelId).Ok? then Ok(ch) else GetByID(db, reader, channelId))
  {
    var (d, ch) := Update(db, userId, channelId, name, description, None).value;
    var k := ChannelIndex(db, channelId).value;
    LookupAfterReplace(db, d, k, ch);
    assert Visible(d, ch, reader) == Visible(db, db.channels[k], reader);
  }

  /** Replacing row `k`, the first with its id, by a row with the same id
      makes that row the one found. */
  lemma {:induction false} LookupAfterReplace(db: Db, d: Db, k: nat, ch: Channel)
    requires ChannelIndex(db, ch.id) == Some(k)
    requires |d.channels| == |db.channels| && d.channels[k] == ch
    requires forall j :: 0 <= j < |db.channels| && j != k ==> d.channels[j] == db.channels[j]
    ensures Lookup(d, ch.id) == Some(ch)
  {
    assert forall j :: 0 <= j < k ==> d.channels[j] == db.channels[j];
    assert ChannelIndex(d, ch.id) == Some(k);
  }

  /** `Archive`: `ErrChannelNotFound`, then `ErrNotChannelAdmin` unless the
      caller is the workspace owner or the channel's creator; marks the
      channel archived and changes nothing else. */
  function Archive(db: Db, userId: Uuid, channelId: Uuid): (r: Result<Db, Error>)
    ensures Lookup(db, channelId).None? ==> r == Err(ChannelNotFound)
    ensures r.Ok? <==> Lookup(db, channelId).Some? && CanArchive(db, Lookup(db, channelId).value, userId)
    ensures r.Err? && Lookup(db, channelId).Some? ==> r.error == NotChannelAdmin
    ensures r.Ok? ==>
      r.value == db.(channels := r.value.channels) && |r.value.channels| == |db.channels| &&
      Lookup(r.value, channelId) == Some(Lookup(db, channelId).value.(archived := true)) &&
      forall i :: 0 <= i < |db.channels| && db.channels[i].id != channelId ==> r.value.channels[i] == db.channels[i]
  {
    match ChannelIndex(db, channelId)
    case None => Err(ChannelNotFound)
    case Some(k) =>
      var ch := db.channels[k];
      if !CanArchive(db, ch, userId) then Err(NotChannelAdmin)
      else
        var d := db.(channels := Replace(db.channels, k, ch.(archived := true)));
        assert ChannelIndex(d, channelId) == Some(k);
        Ok(d)
  }

  /** Archiving twice is the same as archiving once. */
  lemma {:induction false} ArchiveIdempotent(db: Db, userId: Uuid, channelId: Uuid)
    requires Archive(db, userId, channelId).Ok?
    ensures Archive(Archive(db, userId, channelId).value, userId, channelId) == Archive(db, userId, channelId)
  {
    var d := Archive(db, userId, channelId).value;
    var k := ChannelIndex(db, channelId).value;
    assert ChannelIndex(d, channelId) == Some(k);
    assert d.channels[k].(archived := true) == d.channels[k];
    assert Replace(d.channels, k, d.channels[k]) == d.channels;
  }

  /** `AddMember`: `ErrChannelNotFound`; for a public channel the user to be
      added must be a workspace member (`ErrNotMember`), for any other kind
      the requester must be the channel's `admin` (`ErrNotChannelAdmin`);
      then `ErrAlreadyMember`; the user joins as `member`. */
  function AddMember(db: Db, requesterId: Uuid, channelId: Uuid, userId: Uuid): (r: Result<Db, Error>)
    ensures Lookup(db, channelId).None? ==> r == Err(ChannelNotFound)
    ensures (Lookup(db, channelId).Some? && Lookup(db, channelId).value.kind == PublicKind &&
             WorkspaceRole(db, Lookup(db, channelId).value.workspaceId, userId).None?) ==> r == Err(NotMember)
    ensures (Lookup(db, channelId).Some? && Lookup(db, channelId).value.kind != PublicKind &&
             ChannelRole(db, channelId, requesterId) != Some(AdminRole)) ==> r == Err(NotChannelAdmin)
    ensures r.Ok? <==>
      Lookup(db, channelId).Some? &&
      (if Lookup(db, channelId).value.kind == PublicKind
       then WorkspaceRole(db, Lookup(db, channelId).value.workspaceId, userId).Some?
       else ChannelRole(db, channelId, requesterId) == Some(AdminRole)) &&
      ChannelRole(db, channelId, userId).None?
    ensures (Lookup(db, channelId).Some? &&
             (if Lookup(db, channelId).value.kind == PublicKind
              then WorkspaceRole(db, Lookup(db, channelId).value.workspaceId, userId).Some?
              else ChannelRole(db, channelId, requesterId) == Some(AdminRole)) &&
             ChannelRole(db, channelId, userId).Some?) ==> r == Err(AlreadyMember)
    ensures r.Err? && r.error == AlreadyMember ==> ChannelRole(db, channelId, userId).Some?
    ensures r.Ok? ==>
      r.value == db.(channelMembers := r.value.channelMembers) &&
      r.value.channelMembers.Keys == db.channelMembers.Keys + {(channelId, userId)} &&
      ChannelRole(r.value, channelId, userId) == Some(MemberRole) &&
      forall key :: key in db.channelMembers ==> r.value.channelMembers[key] == db.channelMembers[key]
  {
    match Lookup(db, channelId)
    case None => Err(ChannelNotFound)
    case Some(ch) =>
      if ch.kind == PublicKind && WorkspaceRole(db, ch.workspaceId, userId).None? then Err(NotMember)
      else if ch.kind != PublicKind && ChannelRole(db, channelId, requesterId) != Some(AdminRole) then Err(NotChannelAdmin)
      else if ChannelRole(db, channelId, userId).Some? then Err(AlreadyMember)
      else Ok(db.(channelMembers := db.channelMembers[(channelId, userId) := MemberRole]))
  }

  /** For a public channel the requester is never checked: anyone at all
      can add a workspace member to it. */
  lemma {:induction false} PublicAddIgnoresRequester(db: Db, r1: Uuid, r2: Uuid, channelId: Uuid, userId: Uuid)
    requires Lookup(db, channelId).Some? && Lookup(db, channelId).value.kind == PublicKind
    ensures AddMember(db, r1, channelId, userId) == AddMember(db, r2, channelId, userId)
  {
  }

  /** `RemoveMember`: `ErrNotChannelAdmin` unless the requester is a channel
      member who is `admin` or is removing themselves; the membership, if
      any, is deleted and nothing else changes. The channel itself is not
      looked up. */
  function RemoveMember(db: Db, requesterId: Uuid, channelId: Uuid, userId: Uuid): (r: Result<Db, Error>)
    ensures r.Ok? <==> CanRemove(db, channelId, requesterId, userId)
    ensures r.Err? ==> r.error == NotChannelAdmin
    ensures r.Ok? ==>
      r.value == db.(channelMembers := r.value.channelMembers) &&
      r.value.channelMembers.Keys == db.channelMembers.Keys - {(channelId, userId)} &&
      forall key :: key in r.value.channelMembers ==> r.value.channelMembers[key] == db.channelMembers[key]
  {
    if !CanRemove(db, channelId, requesterId, userId) then Err(NotChannelAdmin)
    else Ok(db.(channelMembers := db.channelMembers - {(channelId, userId)}))
  }

  /** Any member can leave. */
  lemma {:induction false} MemberMayLeave(db: Db, channelId: Uuid, userId: Uuid)
    requires ChannelRole(db, channelId, userId).Some?
    ensures RemoveMember(db, userId, channelId, userId).Ok?
    ensures ChannelRole(RemoveMember(db, userId, channelId, userId).value, channelId, userId).None?
  {
  }

  /** A channel admin removing a member they just added restores the
      member table. */
  lemma {:induction false} RemoveUndoesAdd(db: Db, requesterId: Uuid, channelId: Uuid, userId: Uuid)
    requires AddMember(db, requesterId, channelId, userId).Ok?
    requires ChannelRole(db, channelId, requesterId) == Some(AdminRole)
    ensures RemoveMember(AddMember(db, requesterId, channelId, userId).value, requesterId, channelId, userId) == Ok(db)
  {
    var d := AddMember(db, requesterId, channelId, userId).value;
    assert (channelId, requesterId) != (channelId, userId);
    assert CanRemove(d, channelId, requesterId, userId);
    assert d.channelMembers - {(channelId, userId)} == db.channelMembers;
  }
}

=== FILE: connection.dfy ===
/** One WebSocket client (transport/ws/client.go): its subscription set, its
    bounded outbound mailbox (the buffered `send` channel) and whether that
    mailbox has been closed. Socket I/O is not modelled; the writer loop is
    modelled only as the order in which it takes mailbox items. */
module Connection {
  import opened Base
  import opened Envelope

  /** `sendBufSize`: capacity of the mailbox. */
  const SendBufSize: nat := 256

  /** Identity of a `*Client` value: distinct clients have distinct ids even
      when they belong to the same user. */
  type ConnId = nat

  /** `closed` records that both `send` and `done` have been closed (the hub
      always closes them together). */
  datatype Client = Client(
    id: ConnId, userId: Uuid, subscriptions: set<Uuid>, mailbox: seq<Event>, closed: bool)

  /** A Go run-time panic. */
  datatype Fault = CloseOfClosedChannel | SendOnClosedChannel

  /** `NewClient`: no subscriptions, an empty open mailbox. */
  function NewClient(id: ConnId, userId: Uuid): (c: Client)
    ensures c.id == id && c.userId == userId
    ensures c.subscriptions == {} && c.mailbox == [] && !c.closed
  {
    Client(id, userId, {}, [], false)
  }

  predicate IsSubscribed(c: Client, channelId: Uuid) {
    channelId in c.subscriptions
  }

  /** `Subscribe`: afterwards the client is subscribed to `channelId`; every
      other channel and every other field are as before. */
  function Subscribe(c: Client, channelId: Uuid): (r: Client)
    ensures IsSubscribed(r, channelId)
    ensures forall other :: other != channelId ==> (IsSubscribed(r, other) <==> IsSubscribed(c, other))
    ensures r.(subscriptions := c.subscriptions) == c
  {
    c.(subscriptions := c.subscriptions + {channelId})
  }

  /** `Unsubscribe`: afterwards the client is not subscribed to `channelId`;
      every other channel and every other field are as before. */
  function Unsubscribe(c: Client, channelId: Uuid): (r: Client)
    ensures !IsSubscribed(r, channelId)
    ensures forall other :: other != channelId ==> (IsSubscribed(r, other) <==> IsSubscribed(c, other))
    ensures r.(subscriptions := c.subscriptions) == c
  {
    c.(subscriptions := c.subscriptions - {channelId})
  }

  lemma {:induction false} SubscribeIdempotent(c: Client, channelId: Uuid)
    ensures Subscribe(Subscribe(c, channelId), channelId) == Subscribe(c, channelId)
  {
  }

  lemma {:induction false} UnsubscribeIdempotent(c: Client, channelId: Uuid)
    ensures Unsubscribe(Unsubscribe(c, channelId), channelId) == Unsubscribe(c, channelId)
  {
  }

  /** Unsubscribing undoes a subscription that was not there before. */
  lemma {:induction false} UnsubscribeUndoesSubscribe(c: Client, channelId: Uuid)
    requires !IsSubscribed(c, channelId)
    ensures Unsubscribe(Subscribe(c, channelId), channelId) == c
  {
    assert (c.subscriptions + {channelId}) - {channelId} == c.subscriptions;
  }

  /** `close(c.send); close(c.done)`; closing a closed channel panics. */
  function Close(c: Client): (r: Result<Client, Fault>)
    ensures r.Err? <==> c.closed
    ensures r.Ok? ==> r.value.closed && r.value.(closed := false) == c
  {
    if c.closed then Err(CloseOfClosedChannel) else Ok(c.(closed := true))
  }

  /** The result of `select { case c.send <- e: ... default: ... }`. */
  datatype Offer = Enqueued(client: Client) | Full | OnClosed

  /** A non-blocking send: appends at the tail when there is room, reports a
      full mailbox, and panics on a closed one. */
  function TryEnqueue(c: Client, e: Event): (r: Offer)
    ensures r.OnClosed? <==> c.closed
    ensures r.Full? <==> !c.closed && |c.mailbox| >= SendBufSize
    ensures r.Enqueued? ==> r.client == c.(mailbox := c.mailbox + [e])
    ensures r.Enqueued? && |c.mailbox| <= SendBufSize ==> |r.client.mailbox| <= SendBufSize
  {
    if c.closed then OnClosed
    else if |c.mailbox| >= SendBufSize then Full
    else Enqueued(c.(mailbox := c.mailbox + [e]))
  }

  /** A non-blocking send whose full case is a silent drop, as in `sendPong`,
      `sendError`, `broadcastPresence` and `BroadcastToUser`. */
  function SendOrDrop(c: Client, e: Event): (r: Result<Client, Fault>)
    ensures r.Err? <==> c.closed
    ensures r.Ok? && |c.mailbox| < SendBufSize ==> r.value == c.(mailbox := c.mailbox + [e])
    ensures r.Ok? && |c.mailbox| >= SendBufSize ==> r.value == c
  {
    match TryEnqueue(c, e)
    case Enqueued(c') => Ok(c')
    case Full => Ok(c)
    case OnClosed => Err(SendOnClosedChannel)
  }

  /** The envelope `sendPong` serialises: `Event{Type: pong}` built directly,
      so it has neither scope, payload nor timestamp. */
  const PongEvent := Event(Pong, None, NoPayload, 0)

  /** `sendPong`: at most one pong, appended at the tail; a full mailbox drops
      it and leaves the client as it was. */
  function SendPong(c: Client): (r: Result<Client, Fault>)
    ensures r.Err? <==> c.closed
    ensures r.Ok? ==> r.value.(mailbox := c.mailbox) == c
    ensures r.Ok? ==> r.value.mailbox == c.mailbox || r.value.mailbox == c.mailbox + [PongEvent]
    ensures r.Ok? && |c.mailbox| < SendBufSize ==> r.value.mailbox == c.mailbox + [PongEvent]
    ensures r.Ok? && |c.mailbox| <= SendBufSize ==> |r.value.mailbox| <= SendBufSize
  {
    SendOrDrop(c, PongEvent)
  }

  /** The envelope `sendError` serialises. */
  function ErrorEvent(code: string, message: string, now: int): (e: Event)
    ensures e.kind == Error && e.channelId.None? && e.payload == ErrorBody(code, message)
  {
    Event(Error, None, ErrorBody(code, message), now)
  }

  /** `sendError`: builds an `error` envelope (`encodes` is whether it
      serialises) and sends it without blocking; a full mailbox drops it. */
  function SendError(c: Client, code: string, message: string,
                     encodes: bool, now: int): (r: Result<Client, Fault>)
    ensures r.Err? <==> encodes && c.closed
    ensures r.Ok? ==> r.value.(mailbox := c.mailbox) == c
    ensures r.Ok? ==> r.value.mailbox == c.mailbox || r.value.mailbox == c.mailbox + [ErrorEvent(code, message, now)]
    ensures r.Ok? && encodes && |c.mailbox| < SendBufSize ==>
      r.value.mailbox == c.mailbox + [ErrorEvent(code, message, now)]
    ensures r.Ok? && |c.mailbox| <= SendBufSize ==> |r.value.mailbox| <= SendBufSize
  {
    match NewEvent(Error, None, ErrorBody(code, message), encodes, now)
    case Err(_) => Ok(c)
    case Ok(e) => SendOrDrop(c, e)
  }

  /** How the writer loop of `WritePump` ended for now. */
  datatype WriterState = Waiting | Exited

  /** The mailbox side of `WritePump`, with every socket write succeeding and
      the ping ticker left out. While the mailbox is open, the hub has not
      closed `done` either, so only the mailbox case can fire and every item
      is written in order, after which the writer waits. Once both are
      closed, Go's `select` picks at random between a buffered item and the
      closed `done`; `picks[k]` resolves the k-th such choice (true takes the
      item), and a missing choice counts as taking `done`. */
  method WriterDrain(c: Client, picks: seq<bool>)
    returns (written: seq<Event>, rest: Client, state: WriterState)
    ensures written + rest.mailbox == c.mailbox
    ensures rest == c.(mailbox := rest.mailbox)
    ensures !c.closed ==> state == Waiting && written == c.mailbox
    ensures c.closed ==> state == Exited
    ensures c.closed && |picks| >= |c.mailbox| && (forall k :: 0 <= k < |c.mailbox| ==> picks[k]) ==>
      written == c.mailbox
  {
    written := [];
    var pending := c.mailbox;
    var k := 0;
    while |pending| > 0 && (!c.closed || (k < |picks| && picks[k]))
      invariant written + pending == c.mailbox
      invariant k == |written|
      invariant c.closed ==> k <= |picks| && forall j :: 0 <= j < k ==> picks[j]
      decreases |pending|
    {
      written := written + [pending[0]];
      pending := pending[1..];
      k := k + 1;
    }
    rest := c.(mailbox := pending);
    state := if c.closed then Exited else Waiting;
  }
}

=== FILE: dm_service.dfy ===
/** `DMService` (service/dm_service.go): one conversation per canonically
    ordered user pair, the participant check, the paginated history, and
    sender-only edit and delete, each reporting the notifier calls it makes. */
module DMService {
  import opened Base
  import opened Domain
  import opened Store
  import opened ServiceErrors
  import opened Paging

  /** Every stored pair is in canonical order (the table's CHECK). */
  predicate ConversationsCanonical(db: Db) {
    forall i :: 0 <= i < |db.conversations| ==> !Less(db.conversations[i].user2, db.conversations[i].user1)
  }

  /** At most one conversation per pair. */
  predicate ConversationPairsUnique(db: Db) {
    forall i, j :: 0 <= i < j < |db.conversations| ==>
      (db.conversations[i].user1, db.conversations[i].user2) != (db.conversations[j].user1, db.conversations[j].user2)
  }

  predicate ConversationIdFresh(db: Db, id: Uuid) {
    forall i :: 0 <= i < |db.conversations| ==> db.conversations[i].id != id
  }

  /** `GetConversationByUsers(u1, u2)`. */
  function ByUsers(db: Db, u1: Uuid, u2: Uuid): Option<nat> {
    Find(db.conversations, (c: Conversation) => c.user1 == u1 && c.user2 == u2)
  }

  /** The conversation as shown to the caller: the other participant filled in. */
  function View(c: Conversation, other: User): (v: ConversationView)
    ensures v.conversation == c && v.otherUserId == other.id
  {
    ConversationView(c, other.id, other.username, other.displayName)
  }

  /** `GetOrCreateConversation`: `ErrCannotDMSelf` for oneself,
      `ErrUserNotFound` for an unknown user; then the conversation of the
      canonical pair is returned if it exists, and otherwise created. */
  function GetOrCreateConversation(db: Db, userId: Uuid, otherUserId: Uuid, freshId: Uuid)
    : (r: Result<(Db, ConversationView), Error>)
    requires ConversationIdFresh(db, freshId)
    ensures userId == otherUserId ==> r == Err(CannotDMSelf)
    ensures userId != otherUserId && UserById(db, otherUserId).None? ==> r == Err(UserNotFound)
    ensures r.Ok? <==> userId != otherUserId && UserById(db, otherUserId).Some?
    ensures r.Ok? ==>
      var (d, v) := r.value;
      v.otherUserId == otherUserId && v.conversation in d.conversations &&
      ((v.conversation.user1 == userId && v.conversation.user2 == otherUserId) ||
       (v.conversation.user1 == otherUserId && v.conversation.user2 == userId)) &&
      !Less(v.conversation.user2, v.conversation.user1)
    ensures r.Ok? ==>
      var (d, v) := r.value;
      var (u1, u2) := Canonical(userId, otherUserId);
      if ByUsers(db, u1, u2).Some? then d == db && v.conversation == db.conversations[ByUsers(db, u1, u2).value]
      else d == db.(conversations := db.conversations + [Conversation(freshId, u1, u2)])
  {
    if userId == otherUserId then Err(CannotDMSelf)
    else match UserById(db, otherUserId)
      case None => Err(UserNotFound)
      case Some(other) =>
        var (u1, u2) := Canonical(userId, otherUserId);
        match ByUsers(db, u1, u2)
        case Some(k) => Ok((db, View(db.conversations[k], other)))
        case None =>
          var c := Conversation(freshId, u1, u2);
          Ok((db.(conversations := db.conversations + [c]), View(c, other)))
  }

  /** Creating a conversation keeps pairs canonical and unique. */
  lemma {:induction false} GetOrCreateKeepsInvariants(db: Db, userId: Uuid, otherUserId: Uuid, freshId: Uuid)
    requires ConversationIdFresh(db, freshId)
    requires ConversationsCanonical(db) && ConversationPairsUnique(db)
    ensures var r := GetOrCreateConversation(db, userId, otherUserId, freshId);
      r.Ok? ==> ConversationsCanonical(r.value.0) && ConversationPairsUnique(r.value.0)
  {
    var r := GetOrCreateConversation(db, userId, otherUserId, freshId);
    if r.Ok? {
      var (u1, u2) := Canonical(userId, otherUserId);
      if ByUsers(db, u1, u2).None? {
        var cs := r.value.0.conversations;
        assert cs == db.conversations + [Conversation(freshId, u1, u2)];
        forall i, j | 0 <= i < j < |cs|
          ensures (cs[i].user1, cs[i].user2) != (cs[j].user1, cs[j].user2)
        {
          assert cs[i] == db.conversations[i];
          if j < |db.conversations| {
            assert cs[j] == db.conversations[j];
          }
        }
      }
    }
  }

  /** Asking again, from either side, returns the same conversation and
      creates nothing. */
  lemma {:induction false} GetOrCreateStable(db: Db, userId: Uuid, otherUserId: Uuid, freshId: Uuid, freshId2: Uuid)
    requires ConversationIdFresh(db, freshId)
    requires GetOrCreateConversation(db, userId, otherUserId, freshId).Ok?
    requires UserById(db, userId).Some?
    ensures var (d, v) := GetOrCreateConversation(db, userId, otherUserId, freshId).value;
      ConversationIdFresh(d, freshId2) ==>
        var again := GetOrCreateConversation(d, otherUserId, userId, freshId2);
        again.Ok? && again.value.0 == d && again.value.1.conversation == v.conversation &&
        again.value.1.otherUserId == userId
  {
    var (d, v) := GetOrCreateConversation(db, userId, otherUserId, freshId).value;
    CanonicalSymmetric(userId, otherUserId);
    var (u1, u2) := Canonical(userId, otherUserId);
    assert UserById(d, userId) == UserById(db, userId);
    if ByUsers(db, u1, u2).None? {
      var n := |db.conversations|;
      assert d.conversations[n] == Conversation(freshId, u1, u2);
      assert forall i :: 0 <= i < n ==> d.conversations[i] == db.conversations[i];
      assert ByUsers(d, u1, u2) == Some(n);
    }
  }

  /** `GetConversationByID`. */
  function ConversationById(db: Db, id: Uuid): (r: Option<Conversation>)
    ensures r.Some? ==> r.value.id == id && r.value in db.conversations
    ensures r.None? <==> forall i :: 0 <= i < |db.conversations| ==> db.conversations[i].id != id
  {
    match Find(db.conversations, (c: Conversation) => c.id == id)
    case None => None
    case Some(k) => Some(db.conversations[k])
  }

  predicate IsParticipant(c: Conversation, userId: Uuid) {
    c.user1 == userId || c.user2 == userId
  }

  /** `checkParticipant`: succeeds exactly for either user of an existing
      conversation. */
  function CheckParticipant(db: Db, userId: Uuid, conversationId: Uuid): (r: Result<(), Error>)
    ensures ConversationById(db, conversationId).None? ==> r == Err(DMConversationNotFound)
    ensures r.Ok? <==> ConversationById(db, conversationId).Some? && IsParticipant(ConversationById(db, conversationId).value, userId)
    ensures r.Err? && ConversationById(db, conversationId).Some? ==> r.error == DMNotParticipant
  {
    match ConversationById(db, conversationId)
    case None => Err(DMConversationNotFound)
    case Some(c) => if c.user1 != userId && c.user2 != userId then Err(DMNotParticipant) else Ok(())
  }

  /** Both users of a conversation created for them pass the check. */
  lemma {:induction false} CreatedConversationAdmitsBoth(db: Db, userId: Uuid, otherUserId: Uuid, freshId: Uuid)
    requires ConversationIdFresh(db, freshId)
    requires GetOrCreateConversation(db, userId, otherUserId, freshId).Ok?
    requires ByUsers(db, Canonical(userId, otherUserId).0, Canonical(userId, otherUserId).1).None?
    ensures var d := GetOrCreateConversation(db, userId, otherUserId, freshId).value.0;
      CheckParticipant(d, userId, freshId).Ok? && CheckParticipant(d, otherUserId, freshId).Ok?
  {
    var d := GetOrCreateConversation(db, userId, otherUserId, freshId).value.0;
    var n := |db.conversations|;
    assert d.conversations[n].id == freshId;
    assert forall i :: 0 <= i < n ==> d.conversations[i] == db.conversations[i];
    assert ConversationById(d, freshId) == Some(d.conversations[n]);
  }

  predicate DMIdsUnique(db: Db) {
    forall i, j :: 0 <= i < j < |db.dmMessages| ==> db.dmMessages[i].id != db.dmMessages[j].id
  }

  predicate DMIdFresh(db: Db, id: Uuid) {
    forall i :: 0 <= i < |db.dmMessages| ==> db.dmMessages[i].id != id
  }

  predicate InConversation(conversationId: Uuid, m: DMMessage) {
    m.conversationId == conversationId && !m.deleted
  }

  /** The rows `ListMessages` of the repository may return, oldest first. */
  function Eligible(db: Db, conversationId: Uuid, before: Option<Uuid>): (r: seq<DMMessage>)
    ensures forall i :: 0 <= i < |r| ==> r[i].conversationId == conversationId && !r[i].deleted && r[i] in db.dmMessages
  {
    Select(OlderThan(db.dmMessages, (m: DMMessage) => m.id, before), (m: DMMessage) => InConversation(conversationId, m))
  }

  /** `ListMessages`: after the participant check, the same window as the
      channel history: the newest `limit` eligible messages (the limit
      clamped into `1..100`, 50 by default) and whether older ones exist. */
  function ListMessages(db: Db, userId: Uuid, conversationId: Uuid, before: Option<Uuid>, limit: int)
    : (r: Result<Page<DMMessage>, Error>)
    ensures CheckParticipant(db, userId, conversationId).Err? ==> r == Err(CheckParticipant(db, userId, conversationId).error)
    ensures r.Ok? <==> CheckParticipant(db, userId, conversationId).Ok?
    ensures r.Ok? ==> r.value.items == LastN(Eligible(db, conversationId, before), ClampLimit(limit))
    ensures r.Ok? ==> (r.value.hasMore <==> |Eligible(db, conversationId, before)| > ClampLimit(limit))
    ensures r.Ok? ==> |r.value.items| <= ClampLimit(limit)
  {
    match CheckParticipant(db, userId, conversationId)
    case Err(e) => Err(e)
    case Ok(_) =>
      var n := ClampLimit(limit);
      WindowOfFetch(Eligible(db, conversationId, before), n);
      Ok(Window(LastN(Eligible(db, conversationId, before), n + 1), n))
  }

  /** `SendMessage`: after the participant check, a message from the
      caller is appended; a failed insert stores and notifies nothing; a
      successful one notifies `NotifyNewDM` once when a notifier is set. */
  function SendMessage(db: Db, userId: Uuid, conversationId: Uuid, content: string, freshId: Uuid,
                       writeError: Option<string>, hasNotifier: bool): (r: Result<Effect<DMMessage>, Error>)
    requires DMIdFresh(db, freshId)
    ensures CheckParticipant(db, userId, conversationId).Err? ==> r == Err(CheckParticipant(db, userId, conversationId).error)
    ensures (CheckParticipant(db, userId, conversationId).Ok? && writeError.Some?) ==>
      r == Err(StoreFailure("creating dm message: " + writeError.value))
    ensures r.Ok? <==> CheckParticipant(db, userId, conversationId).Ok? && writeError.None?
    ensures r.Ok? ==>
      var m := r.value.value;
      m.id == freshId && m.conversationId == conversationId && m.senderId == userId &&
      m.content == Some(content) && !m.edited && !m.deleted &&
      r.value.db == db.(dmMessages := db.dmMessages + [m]) &&
      r.value.notices == (if hasNotifier then [NewDM(m)] else [])
  {
    match CheckParticipant(db, userId, conversationId)
    case Err(e) => Err(e)
    case Ok(_) =>
      var m := DMMessage(freshId, conversationId, userId, Some(content), false, false);
      match writeError
      case Some(e) => Err(StoreFailure("creating dm message: " + e))
      case None => Ok(Effect(db.(dmMessages := db.dmMessages + [m]), m, if hasNotifier then [NewDM(m)] else []))
  }

  /** `GetMessageByID`: the first direct message with the id, deleted or not. */
  function DMIndex(db: Db, id: Uuid): (r: Option<nat>)
    ensures r.Some? ==> r.value < |db.dmMessages| && db.dmMessages[r.value].id == id
    ensures r.None? <==> forall i :: 0 <= i < |db.dmMessages| ==> db.dmMessages[i].id != id
  {
    Find(db.dmMessages, (m: DMMessage) => m.id == id)
  }

  /** `EditMessage`: `ErrDMMessageNotFound`, then `ErrNotDMMessageOwner`
      unless the caller sent it; the content is replaced and the message
      marked edited; notifies `NotifyEditedDM` only after a successful
      update. The conversation is not consulted. */
  function EditMessage(db: Db, userId: Uuid, messageId: Uuid, content: string, writeError: Option<string>,
                       hasNotifier: bool): (r: Result<Effect<DMMessage>, Error>)
    ensures DMIndex(db, messageId).None? ==> r == Err(DMMessageNotFound)
    ensures (DMIndex(db, messageId).Some? && db.dmMessages[DMIndex(db, messageId).value].senderId != userId) ==>
      r == Err(NotDMMessageOwner)
    ensures r.Ok? <==> DMIndex(db, messageId).Some? && db.dmMessages[DMIndex(db, messageId).value].senderId == userId
                       && writeError.None?
    ensures (DMIndex(db, messageId).Some? && db.dmMessages[DMIndex(db, messageId).value].senderId == userId &&
             writeError.Some?) ==> r == Err(StoreFailure("updating dm message: " + writeError.value))
    ensures r.Ok? ==>
      var k := DMIndex(db, messageId).value;
      r.value.value == db.dmMessages[k].(content := Some(content), edited := true) &&
      r.value.db == db.(dmMessages := db.dmMessages[k := r.value.value]) &&
      r.value.notices == (if hasNotifier then [EditedDM(r.value.value)] else [])
  {
    match DMIndex(db, messageId)
    case None => Err(DMMessageNotFound)
    case Some(k) =>
      var m := db.dmMessages[k];
      if m.senderId != userId then Err(NotDMMessageOwner)
      else
        var updated := m.(content := Some(content), edited := true);
        match writeError
        case Some(e) => Err(StoreFailure("updating dm message: " + e))
        case None => Ok(Effect(db.(dmMessages := Replace(db.dmMessages, k, updated)), updated,
                               if hasNotifier then [EditedDM(updated)] else []))
  }

  /** `DeleteMessage`: the same two checks; the message is marked deleted;
      notifies `NotifyDeletedDM` with its conversation and id only after a
      successful soft delete. */
  function DeleteMessage(db: Db, userId: Uuid, messageId: Uuid, writeError: Option<string>, hasNotifier: bool)
    : (r: Result<Effect<()>, Error>)
    ensures DMIndex(db, messageId).None? ==> r == Err(DMMessageNotFound)
    ensures (DMIndex(db, messageId).Some? && db.dmMessages[DMIndex(db, messageId).value].senderId != userId) ==>
      r == Err(NotDMMessageOwner)
    ensures r.Ok? <==> DMIndex(db, messageId).Some? && db.dmMessages[DMIndex(db, messageId).value].senderId == userId
                       && writeError.None?
    ensures (DMIndex(db, messageId).Some? && db.dmMessages[DMIndex(db, messageId).value].senderId == userId &&
             writeError.Some?) ==> r == Err(StoreFailure(writeError.value))
    ensures r.Ok? ==>
      var k := DMIndex(db, messageId).value;
      r.value.db == db.(dmMessages := db.dmMessages[k := db.dmMessages[k].(deleted := true)]) &&
      r.value.notices == (if hasNotifier then [DeletedDM(db.dmMessages[k].conversationId, messageId)] else [])
  {
    match DMIndex(db, messageId)
    case None => Err(DMMessageNotFound)
    case Some(k) =>
      var m := db.dmMessages[k];
      if m.senderId != userId then Err(NotDMMessageOwner)
      else
        match writeError
        case Some(e) => Err(StoreFailure(e))
        case None => Ok(Effect(db.(dmMessages := Replace(db.dmMessages, k, m.(deleted := true))), (),
                               if hasNotifier then [DeletedDM(m.conversationId, messageId)] else []))
  }

  /** A direct message just sent is the newest entry of its sender's first
      page of the conversation. */
  lemma {:induction false} SentDMIsNewest(db: Db, userId: Uuid, conversationId: Uuid, content: string, freshId: Uuid,
                                          hasNotifier: bool, limit: int)
    requires DMIdFresh(db, freshId)
    requires SendMessage(db, userId, conversationId, content, freshId, None, hasNotifier).Ok?
    ensures var e := SendMessage(db, userId, conversationId, content, freshId, None, hasNotifier).value;
      var page := ListMessages(e.db, userId, conversationId, None, limit);
      page.Ok? && |page.value.items| > 0 && page.value.items[|page.value.items| - 1] == e.value
  {
    var e := SendMessage(db, userId, conversationId, content, freshId, None, hasNotifier).value;
    assert e.db.conversations == db.conversations;
    assert CheckParticipant(e.db, userId, conversationId) == CheckParticipant(db, userId, conversationId);
    SelectAppend(db.dmMessages, [e.value], (m: DMMessage) => InConversation(conversationId, m));
    assert Select([e.value], (m: DMMessage) => InConversation(conversationId, m)) == [e.value];
    LastNAppend(Eligible(db, conversationId, None), e.value, ClampLimit(limit));
  }

  /** With unique ids, a deleted direct message drops out of every page of
      every conversation. */
  lemma {:induction false} DeletedDMLeavesHistory(db: Db, userId: Uuid, messageId: Uuid, hasNotifier: bool,
                                                  reader: Uuid, conversationId: Uuid, before: Option<Uuid>, limit: int)
    requires DMIdsUnique(db)
    requires DeleteMessage(db, userId, messageId, None, hasNotifier).Ok?
    ensures var d := DeleteMessage(db, userId, messageId, None, hasNotifier).value.db;
      var page := ListMessages(d, reader, conversationId, before, limit);
      page.Ok? ==> forall i :: 0 <= i < |page.value.items| ==> page.value.items[i].id != messageId
  {
    var d := DeleteMessage(db, userId, messageId, None, hasNotifier).value.db;
    var k := DMIndex(db, messageId).value;
    assert d.dmMessages == db.dmMessages[k := db.dmMessages[k].(deleted := true)];
    forall m | m in d.dmMessages && m.id == messageId
      ensures m.deleted
    {
      var i :| 0 <= i < |d.dmMessages| && d.dmMessages[i] == m;
      assert i == k;
    }
    DMPagesSkipDeleted(d, reader, conversationId, before, limit, messageId);
  }

  /** When every stored copy of `id` is deleted, no page shows `id`. */
  lemma {:induction false} DMPagesSkipDeleted(d: Db, reader: Uuid, conversationId: Uuid, before: Option<Uuid>,
                                              limit: int, id: Uuid)
    requires forall m :: m in d.dmMessages && m.id == id ==> m.deleted
    ensures var page := ListMessages(d, reader, conversationId, before, limit);
      page.Ok? ==> forall i :: 0 <= i < |page.value.items| ==> page.value.items[i].id != id
  {
    var e := Eligible(d, conversationId, before);
    forall j | 0 <= j < |e|
      ensures e[j].id != id
    {
      assert e[j] in d.dmMessages && !e[j].deleted;
    }
    var page := ListMessages(d, reader, conversationId, before, limit);
    if page.Ok? {
      LastNKeeps(e, ClampLimit(limit), (m: DMMessage) => m.id != id);
    }
  }

  /** The notifier hears of a send, an edit or a delete exactly when the
      call's checks and its write succeeded and a notifier is set. */
  lemma {:induction false} DMNotifyOnlyAfterSuccess(db: Db, userId: Uuid, conversationId: Uuid, messageId: Uuid,
                                                    content: string, freshId: Uuid, writeError: Option<string>,
                                                    hasNotifier: bool)
    requires DMIdFresh(db, freshId)
    ensures var r := SendMessage(db, userId, conversationId, content, freshId, writeError, hasNotifier);
      (r.Ok? && r.value.notices != []) <==>
        (CheckParticipant(db, userId, conversationId).Ok? && writeError.None? && hasNotifier)
    ensures var r := EditMessage(db, userId, messageId, content, writeError, hasNotifier);
      (r.Ok? && r.value.notices != []) <==>
        (DMIndex(db, messageId).Some? && db.dmMessages[DMIndex(db, messageId).value].senderId == userId &&
         writeError.None? && hasNotifier)
    ensures var r := DeleteMessage(db, userId, messageId, writeError, hasNotifier);
      (r.Ok? && r.value.notices != []) <==>
        (DMIndex(db, messageId).Some? && db.dmMessages[DMIndex(db, messageId).value].senderId == userId &&
         writeError.None? && hasNotifier)
  {
  }
}

=== FILE: domain.dfy ===
/** The records of backend/internal/domain that the services and the relay
    pass around, reduced to the fields the modelled logic reads or writes.
    Timestamps are reduced to flags (`edited`, `deleted`, `archived`). */
module Domain {
  import opened Base

  datatype User = User(id: Uuid, username: string, displayName: string)

  datatype Workspace = Workspace(
    id: Uuid, name: string, slug: string, description: Option<string>, ownerId: Uuid)

  datatype Channel = Channel(
    id: Uuid, workspaceId: Uuid, name: string, description: Option<string>,
    kind: string, createdBy: Uuid, archived: bool)

  datatype Message = Message(
    id: Uuid, channelId: Uuid, senderId: Uuid, content: Option<string>,
    kind: string, parentId: Option<Uuid>, edited: bool, deleted: bool)

  datatype Conversation = Conversation(id: Uuid, user1: Uuid, user2: Uuid)

  /** A conversation as returned to one participant, with the other filled in. */
  datatype ConversationView = ConversationView(
    conversation: Conversation, otherUserId: Uuid, otherUsername: string, otherDisplayName: string)

  datatype DMMessage = DMMessage(
    id: Uuid, conversationId: Uuid, senderId: Uuid, content: Option<string>,
    edited: bool, deleted: bool)

  datatype PulsemateRequest = PulsemateRequest(
    id: Uuid, senderId: Uuid, receiverId: Uuid, status: string)

  /** The calls a service makes on its optional `Notifier` after a
      successful write (service/message_service.go, the `Notifier`
      interface), recorded as values in call order. */
  datatype Notice =
    | NewMessage(msg: Message)
    | EditedMessage(msg: Message)
    | DeletedMessage(channelId: Uuid, messageId: Uuid)
    | NewDM(dm: DMMessage)
    | EditedDM(dm: DMMessage)
    | DeletedDM(conversationId: Uuid, messageId: Uuid)
}

=== FILE: envelope.dfy ===
/** The wire envelope of the relay (transport/ws/events.go): event kinds,
    payload shapes and `NewEvent`. JSON encoding is abstract: whether a
    payload serialises is an input, and a serialised event is represented by
    the event itself. */
module Envelope {
  import opened Base
  import Domain

  // Client → server kinds.
  const MessageSend := "message.send"
  const TypingStart := "typing.start"
  const TypingStop := "typing.stop"
  const ChannelSubscribe := "channel.subscribe"
  const ChannelUnsubscribe := "channel.unsubscribe"
  const Ping := "ping"

  // Server → client kinds.
  const MessageNew := "message.new"
  const MessageEdited := "message.edited"
  const MessageDeleted := "message.deleted"
  const Typing := "typing"
  const Presence := "presence"
  const Pong := "pong"
  const Error := "error"

  const ClientKinds: seq<string> :=
    [MessageSend, TypingStart, TypingStop, ChannelSubscribe, ChannelUnsubscribe, Ping]
  const ServerKinds: seq<string> :=
    [MessageNew, MessageEdited, MessageDeleted, Typing, Presence, Pong, Error]

  predicate Distinct(s: seq<string>) {
    forall i, j :: 0 <= i < j < |s| ==> s[i] != s[j]
  }

  /** The thirteen kind constants are pairwise distinct strings, so the
      dispatch on `Type` is unambiguous. */
  lemma {:induction false} KindsDistinct()
    ensures Distinct(ClientKinds + ServerKinds)
  {
  }

  /** The payload of an envelope. `Raw` is what a client sent, still
      undecoded; the others are the server's payload structs. */
  datatype Payload =
    | NoPayload
    | Raw(json: string)
    | MessageBody(msg: Domain.Message)
    | DeletedBody(messageId: Uuid)
    | TypingBody(userId: Uuid, username: string, displayName: string)
    | PresenceBody(userId: Uuid, status: string)
    | ErrorBody(code: string, text: string)

  /** `Event`: `channelId` is the optional scope; `timestamp` is Unix seconds,
      0 when omitted. */
  datatype Event = Event(kind: string, channelId: Option<Uuid>, payload: Payload, timestamp: int)

  /** The payload could not be serialised. */
  datatype EncodeError = EncodeError

  /** `NewEvent`: `encodes` is whether `json.Marshal(payload)` succeeds and
      `now` stands for `time.Now().Unix()`. */
  function NewEvent(kind: string, channelId: Option<Uuid>, payload: Payload,
                    encodes: bool, now: int): (r: Result<Event, EncodeError>)
    ensures r.Err? <==> !encodes
    ensures r.Ok? ==> r.value.kind == kind && r.value.channelId == channelId
    ensures r.Ok? ==> r.value.payload == payload && r.value.timestamp == now
  {
    if !encodes then Err(EncodeError)
    else Ok(Event(kind, channelId, payload, now))
  }
}

=== FILE: inbound.dfy ===
/** `handleEvent` (transport/ws/client.go): the dispatch a client's reader
    loop applies to each decoded envelope. It acts on the hub state because
    typing events go through the hub and because the client's own mailbox
    and subscriptions live in the hub's client table. */
module Inbound {
  import opened Base
  import opened Envelope
  import opened Connection
  import opened Registry

  const InvalidPayload := "INVALID_PAYLOAD"
  const UnknownEvent := "UNKNOWN_EVENT"
  const BadSubscribe := "invalid channel_subscribe payload"
  const BadUnsubscribe := "invalid channel_unsubscribe payload"
  const TypingNeedsChannel := "channel_id required for typing events"

  /** Store the outcome of a client-level step back into the table. */
  function WithClient(h: Hub, id: ConnId, r: Result<Client, Fault>): (out: Result<Hub, Fault>)
    ensures r.Err? ==> out == Err(r.error)
    ensures r.Ok? ==> out == Ok(h.(conns := h.conns[id := r.value]))
  {
    match r
    case Err(f) => Err(f)
    case Ok(c) => Ok(h.(conns := h.conns[id := c]))
  }

  /** `handleEvent` for client `id`. `decoded` is the result of unmarshalling
      the payload into a channel payload (`None` when that fails); `encodes`
      is whether outgoing payloads serialise; `now` is the clock. */
  function HandleEvent(h: Hub, id: ConnId, ev: Event, decoded: Option<Uuid>,
                       encodes: bool, now: int): (r: Result<Hub, Fault>)
    requires Consistent(h) && id in h.conns
  {
    var c := h.conns[id];
    if ev.kind == ChannelSubscribe then
      if decoded.None? then WithClient(h, id, SendError(c, InvalidPayload, BadSubscribe, encodes, now))
      else Ok(h.(conns := h.conns[id := Subscribe(c, decoded.value)]))
    else if ev.kind == ChannelUnsubscribe then
      if decoded.None? then WithClient(h, id, SendError(c, InvalidPayload, BadUnsubscribe, encodes, now))
      else Ok(h.(conns := h.conns[id := Unsubscribe(c, decoded.value)]))
    else if ev.kind == TypingStart || ev.kind == TypingStop then
      if ev.channelId.None? then WithClient(h, id, SendError(c, InvalidPayload, TypingNeedsChannel, encodes, now))
      else HandleTyping(h, c.userId, ev, encodes, now)
    else if ev.kind == Ping then WithClient(h, id, SendPong(c))
    else WithClient(h, id, SendError(c, UnknownEvent, "unknown event type: " + ev.kind, encodes, now))
  }

  /** Only client `id` changed, and only its mailbox, by at most the one
      event `e` appended at the tail. */
  predicate RepliedAtMost(h: Hub, r: Hub, id: ConnId, e: Event)
    requires id in h.conns
  {
    r.clients == h.clients && r.conns.Keys == h.conns.Keys
    && (forall k :: k in h.conns && k != id ==> r.conns[k] == h.conns[k])
    && r.conns[id].(mailbox := h.conns[id].mailbox) == h.conns[id]
    && (r.conns[id].mailbox == h.conns[id].mailbox || r.conns[id].mailbox == h.conns[id].mailbox + [e])
  }

  /** A (un)subscribe with a payload that does not decode: one
      `INVALID_PAYLOAD` error at most (dropped when the mailbox is full or
      the error does not serialise), subscriptions unchanged. */
  lemma {:induction false} BadChannelPayload(h: Hub, id: ConnId, ev: Event, encodes: bool, now: int)
    requires Consistent(h) && id in h.conns
    requires ev.kind == ChannelSubscribe || ev.kind == ChannelUnsubscribe
    ensures var r := HandleEvent(h, id, ev, None, encodes, now);
      (r.Err? <==> encodes && h.conns[id].closed) &&
      (r.Ok? ==> RepliedAtMost(h, r.value, id,
        ErrorEvent(InvalidPayload, if ev.kind == ChannelSubscribe then BadSubscribe else BadUnsubscribe, now)))
  {
  }

  /** A decodable subscribe adds exactly that channel to the client's set. */
  lemma {:induction false} SubscribeEvent(h: Hub, id: ConnId, ev: Event, channelId: Uuid, encodes: bool, now: int)
    requires Consistent(h) && id in h.conns && ev.kind == ChannelSubscribe
    ensures var r := HandleEvent(h, id, ev, Some(channelId), encodes, now);
      r.Ok? && r.value.clients == h.clients && r.value.conns.Keys == h.conns.Keys &&
      r.value.conns[id].subscriptions == h.conns[id].subscriptions + {channelId} &&
      r.value.conns[id].mailbox == h.conns[id].mailbox &&
      forall k :: k in h.conns && k != id ==> r.value.conns[k] == h.conns[k]
  {
  }

  /** A decodable unsubscribe removes exactly that channel. */
  lemma {:induction false} UnsubscribeEvent(h: Hub, id: ConnId, ev: Event, channelId: Uuid, encodes: bool, now: int)
    requires Consistent(h) && id in h.conns && ev.kind == ChannelUnsubscribe
    ensures var r := HandleEvent(h, id, ev, Some(channelId), encodes, now);
      r.Ok? && r.value.clients == h.clients && r.value.conns.Keys == h.conns.Keys &&
      r.value.conns[id].subscriptions == h.conns[id].subscriptions - {channelId} &&
      r.value.conns[id].mailbox == h.conns[id].mailbox &&
      forall k :: k in h.conns && k != id ==> r.value.conns[k] == h.conns[k]
  {
  }

  /** A typing event without a channel id never reaches the hub: the only
      effect is at most one `INVALID_PAYLOAD` error to the sender. */
  lemma {:induction false} TypingWithoutChannel(h: Hub, id: ConnId, ev: Event, decoded: Option<Uuid>, encodes: bool, now: int)
    requires Consistent(h) && id in h.conns
    requires (ev.kind == TypingStart || ev.kind == TypingStop) && ev.channelId.None?
    ensures var r := HandleEvent(h, id, ev, decoded, encodes, now);
      (r.Err? <==> encodes && h.conns[id].closed) &&
      (r.Ok? ==> RepliedAtMost(h, r.value, id, ErrorEvent(InvalidPayload, TypingNeedsChannel, now)))
  {
  }

  /** A typing event with a channel id is exactly the hub's `HandleTyping`
      on behalf of the client's user. */
  lemma {:induction false} TypingWithChannel(h: Hub, id: ConnId, ev: Event, decoded: Option<Uuid>, encodes: bool, now: int)
    requires Consistent(h) && id in h.conns
    requires (ev.kind == TypingStart || ev.kind == TypingStop) && ev.channelId.Some?
    ensures HandleEvent(h, id, ev, decoded, encodes, now) == HandleTyping(h, h.conns[id].userId, ev, encodes, now)
    ensures ev.kind == TypingStop ==> HandleEvent(h, id, ev, decoded, encodes, now) == Ok(h)
  {
  }

  /** `ping` enqueues at most one `pong` and touches neither the map, the
      other clients nor the subscriptions. */
  lemma {:induction false} PingPong(h: Hub, id: ConnId, ev: Event, decoded: Option<Uuid>, encodes: bool, now: int)
    requires Consistent(h) && id in h.conns && ev.kind == Ping
    ensures var r := HandleEvent(h, id, ev, decoded, encodes, now);
      (r.Err? <==> h.conns[id].closed) && (r.Ok? ==> RepliedAtMost(h, r.value, id, PongEvent))
    ensures var r := HandleEvent(h, id, ev, decoded, encodes, now);
      r.Ok? && |h.conns[id].mailbox| < SendBufSize ==> r.value.conns[id].mailbox == h.conns[id].mailbox + [PongEvent]
  {
  }

  /** Every other kind, `message.send` included, gets `UNKNOWN_EVENT`. */
  lemma {:induction false} UnknownKind(h: Hub, id: ConnId, ev: Event, decoded: Option<Uuid>, encodes: bool, now: int)
    requires Consistent(h) && id in h.conns
    requires ev.kind !in {ChannelSubscribe, ChannelUnsubscribe, TypingStart, TypingStop, Ping}
    ensures var r := HandleEvent(h, id, ev, decoded, encodes, now);
      (r.Err? <==> encodes && h.conns[id].closed) &&
      (r.Ok? ==> RepliedAtMost(h, r.value, id, ErrorEvent(UnknownEvent, "unknown event type: " + ev.kind, now)))
  {
  }

  /** `message.send` is a declared kind with no handler. */
  lemma {:induction false} MessageSendIsUnknown(h: Hub, id: ConnId, ev: Event, decoded: Option<Uuid>, encodes: bool, now: int)
    requires Consistent(h) && id in h.conns && ev.kind == MessageSend
    ensures var r := HandleEvent(h, id, ev, decoded, encodes, now);
      r.Ok? ==> RepliedAtMost(h, r.value, id, ErrorEvent(UnknownEvent, "unknown event type: message.send", now))
  {
    assert MessageSend[0] == 'm' && MessageSend[1] == 'e';
    assert ChannelSubscribe[0] == 'c' && ChannelUnsubscribe[0] == 'c' && Ping[0] == 'p';
    assert TypingStart[0] == 't' && TypingStop[0] == 't';
    UnknownKind(h, id, ev, decoded, encodes, now);
    assert "unknown event type: " + ev.kind == "unknown event type: message.send";
  }

  /** A reader still running on a client the hub has already closed (dropped
      for a full mailbox) panics on its next `ping`. */
  lemma {:induction false} PingOnClosedClientPanics(h: Hub, id: ConnId, ev: Event, decoded: Option<Uuid>, encodes: bool, now: int)
    requires Consistent(h) && id in h.conns && h.conns[id].closed && ev.kind == Ping
    ensures HandleEvent(h, id, ev, decoded, encodes, now) == Err(SendOnClosedChannel)
  {
  }

  /** On a valid hub, an event from an open client never panics and keeps
      the hub valid. */
  lemma {:induction false} HandleEventValid(h: Hub, id: ConnId, ev: Event, decoded: Option<Uuid>, encodes: bool, now: int)
    requires Valid(h) && id in h.conns && !h.conns[id].closed
    ensures HandleEvent(h, id, ev, decoded, encodes, now).Ok?
    ensures Valid(HandleEvent(h, id, ev, decoded, encodes, now).value)
  {
    var c := h.conns[id];
    if ev.kind == ChannelSubscribe {
      if decoded.Some? {
        ReplaceValid(h, id, Subscribe(c, decoded.value));
      } else {
        ReplaceValid(h, id, SendError(c, InvalidPayload, BadSubscribe, encodes, now).value);
      }
    } else if ev.kind == ChannelUnsubscribe {
      if decoded.Some? {
        ReplaceValid(h, id, Unsubscribe(c, decoded.value));
      } else {
        ReplaceValid(h, id, SendError(c, InvalidPayload, BadUnsubscribe, encodes, now).value);
      }
    } else if ev.kind == TypingStart || ev.kind == TypingStop {
      if ev.channelId.None? {
        ReplaceValid(h, id, SendError(c, InvalidPayload, TypingNeedsChannel, encodes, now).value);
      } else if ev.kind == TypingStart && encodes {
        DeliverValid(h, Targets(h, ev.channelId.value, Some(c.userId)),
                     Event(Typing, ev.channelId, TypingBody(c.userId, "", ""), now), true);
      }
    } else if ev.kind == Ping {
      ReplaceValid(h, id, SendPong(c).value);
    } else {
      ReplaceValid(h, id, SendError(c, UnknownEvent, "unknown event type: " + ev.kind, encodes, now).value);
    }
  }

  /** Putting back an open client under its own id, for the same user and
      with its mailbox within capacity, keeps the hub valid. */
  lemma {:induction false} ReplaceValid(h: Hub, id: ConnId, c: Client)
    requires Valid(h) && id in h.conns
    requires c.id == id && c.userId == h.conns[id].userId && c.closed == h.conns[id].closed
    requires |c.mailbox| <= SendBufSize
    ensures Valid(h.(conns := h.conns[id := c]))
  {
  }
}

=== FILE: message_service.dfy ===
/** `MessageService` (service/message_service.go): channel access, sending,
    the paginated history, and sender-only edit and delete, each reporting
    the notifier calls it makes. */
module MessageService {
  import opened Base
  import opened Domain
  import opened Store
  import opened ServiceErrors
  import opened Paging
  import ChannelService

  const TextKind := "text"

  /** `checkChannelAccess`: `ErrChannelNotFound`; a public channel needs
      workspace membership (`ErrNotMember`), any other kind channel
      membership (`ErrNotChannelMember`). */
  function CheckChannelAccess(db: Db, userId: Uuid, channelId: Uuid): (r: Result<(), Error>)
    ensures ChannelService.Lookup(db, channelId).None? ==> r == Err(ChannelNotFound)
    ensures (ChannelService.Lookup(db, channelId).Some? && ChannelService.Lookup(db, channelId).value.kind == ChannelService.PublicKind) ==>
      r == (if WorkspaceRole(db, ChannelService.Lookup(db, channelId).value.workspaceId, userId).Some? then Ok(()) else Err(NotMember))
    ensures (ChannelService.Lookup(db, channelId).Some? && ChannelService.Lookup(db, channelId).value.kind != ChannelService.PublicKind) ==>
      r == (if ChannelRole(db, channelId, userId).Some? then Ok(()) else Err(NotChannelMember))
  {
    match ChannelService.Lookup(db, channelId)
    case None => Err(ChannelNotFound)
    case Some(ch) =>
      if ch.kind == ChannelService.PublicKind then
        if WorkspaceRole(db, ch.workspaceId, userId).None? then Err(NotMember) else Ok(())
      else if ChannelRole(db, channelId, userId).None? then Err(NotChannelMember)
      else Ok(())
  }

  /** The message service and the channel service agree on who may see a
      channel, error for error. */
  lemma {:induction false} AccessAgreesWithGetByID(db: Db, userId: Uuid, channelId: Uuid)
    ensures CheckChannelAccess(db, userId, channelId).Ok? <==> ChannelService.GetByID(db, userId, channelId).Ok?
    ensures CheckChannelAccess(db, userId, channelId).Err? ==>
      CheckChannelAccess(db, userId, channelId).error == ChannelService.GetByID(db, userId, channelId).error
  {
  }

  /** Access does not depend on the message table. */
  lemma {:induction false} AccessIgnoresMessages(db: Db, msgs: seq<Message>, userId: Uuid, channelId: Uuid)
    ensures CheckChannelAccess(db.(messages := msgs), userId, channelId) == CheckChannelAccess(db, userId, channelId)
  {
    assert ChannelService.Lookup(db.(messages := msgs), channelId) == ChannelService.Lookup(db, channelId);
  }

  predicate MessageIdsUnique(db: Db) {
    forall i, j :: 0 <= i < j < |db.messages| ==> db.messages[i].id != db.messages[j].id
  }

  predicate MessageIdFresh(db: Db, id: Uuid) {
    forall i :: 0 <= i < |db.messages| ==> db.messages[i].id != id
  }

  predicate InChannel(channelId: Uuid, m: Message) {
    m.channelId == channelId && !m.deleted
  }

  /** The rows `ListByChannel` may return, oldest first: the channel's
      messages that are not deleted and are older than the cursor. */
  function Eligible(db: Db, channelId: Uuid, before: Option<Uuid>): (r: seq<Message>)
    ensures forall i :: 0 <= i < |r| ==> r[i].channelId == channelId && !r[i].deleted && r[i] in db.messages
  {
    Select(OlderThan(db.messages, (m: Message) => m.id, before), (m: Message) => InChannel(channelId, m))
  }

  /** `ListByChannel(channelID, before, n)`: the newest `n` eligible rows,
      oldest first. */
  function ListByChannel(db: Db, channelId: Uuid, before: Option<Uuid>, n: nat): seq<Message> {
    LastN(Eligible(db, channelId, before), n)
  }

  /** `List`: after the access check, the page holds exactly the newest
      `limit` eligible messages (the limit clamped into `1..100`, 50 by
      default), oldest first, and `hasMore` says whether older eligible
      messages were left out. */
  function List(db: Db, userId: Uuid, channelId: Uuid, before: Option<Uuid>, limit: int): (r: Result<Page<Message>, Error>)
    ensures CheckChannelAccess(db, userId, channelId).Err? ==> r == Err(CheckChannelAccess(db, userId, channelId).error)
    ensures r.Ok? <==> CheckChannelAccess(db, userId, channelId).Ok?
    ensures r.Ok? ==> r.value.items == LastN(Eligible(db, channelId, before), ClampLimit(limit))
    ensures r.Ok? ==> (r.value.hasMore <==> |Eligible(db, channelId, before)| > ClampLimit(limit))
    ensures r.Ok? ==> |r.value.items| <= ClampLimit(limit)
  {
    match CheckChannelAccess(db, userId, channelId)
    case Err(e) => Err(e)
    case Ok(_) =>
      var n := ClampLimit(limit);
      WindowOfFetch(Eligible(db, channelId, before), n);
      Ok(Window(ListByChannel(db, channelId, before, n + 1), n))
  }

  /** A cursor naming no message yields an empty page with nothing more. */
  lemma {:induction false} UnknownCursorEmptyPage(db: Db, userId: Uuid, channelId: Uuid, before: Uuid, limit: int)
    requires CheckChannelAccess(db, userId, channelId).Ok?
    requires forall i :: 0 <= i < |db.messages| ==> db.messages[i].id != before
    ensures List(db, userId, channelId, Some(before), limit) == Ok(Page([], false))
  {
    assert OlderThan(db.messages, (m: Message) => m.id, Some(before)) == [];
  }

  /** The message `Send` creates. */
  function Compose(id: Uuid, channelId: Uuid, userId: Uuid, content: string, parentId: Option<Uuid>): (m: Message)
    ensures m.id == id && m.channelId == channelId && m.senderId == userId && m.content == Some(content)
    ensures m.kind == TextKind && m.parentId == parentId && !m.edited && !m.deleted
  {
    Message(id, channelId, userId, Some(content), TextKind, parentId, false, false)
  }

  /** `Send`: after the access check, a `text` message from the caller is
      appended. `writeError` is the insert's error text, if any; then
      nothing is stored and nothing is notified. A successful send notifies
      `NotifyNewMessage` once when a notifier is set. */
  function Send(db: Db, userId: Uuid, channelId: Uuid, content: string, parentId: Option<Uuid>,
                freshId: Uuid, writeError: Option<string>, hasNotifier: bool): (r: Result<Effect<Message>, Error>)
    requires MessageIdFresh(db, freshId)
    ensures CheckChannelAccess(db, userId, channelId).Err? ==> r == Err(CheckChannelAccess(db, userId, channelId).error)
    ensures (CheckChannelAccess(db, userId, channelId).Ok? && writeError.Some?) ==>
      r == Err(StoreFailure("creating message: " + writeError.value))
    ensures r.Ok? <==> CheckChannelAccess(db, userId, channelId).Ok? && writeError.None?
    ensures r.Ok? ==>
      r.value.value == Compose(freshId, channelId, userId, content, parentId) &&
      r.value.db == db.(messages := db.messages + [r.value.value]) &&
      r.value.notices == (if hasNotifier then [Notice.NewMessage(r.value.value)] else [])
  {
    match CheckChannelAccess(db, userId, channelId)
    case Err(e) => Err(e)
    case Ok(_) =>
      var m := Compose(freshId, channelId, userId, content, parentId);
      match writeError
      case Some(e) => Err(StoreFailure("creating message: " + e))
      case None => Ok(Effect(db.(messages := db.messages + [m]), m, if hasNotifier then [Notice.NewMessage(m)] else []))
  }

  /** A message just sent is the newest entry of its sender's first page. */
  lemma {:induction false} SentMessageIsNewest(db: Db, userId: Uuid, channelId: Uuid, content: string, parentId: Option<Uuid>,
                            freshId: Uuid, hasNotifier: bool, limit: int)
    requires MessageIdFresh(db, freshId)
    requires Send(db, userId, channelId, content, parentId, freshId, None, hasNotifier).Ok?
    ensures var e := Send(db, userId, channelId, content, parentId, freshId, None, hasNotifier).value;
      var page := List(e.db, userId, channelId, None, limit);
      page.Ok? && |page.value.items| > 0 && page.value.items[|page.value.items| - 1] == e.value
  {
    var e := Send(db, userId, channelId, content, parentId, freshId, None, hasNotifier).value;
    AccessIgnoresMessages(db, e.db.messages, userId, channelId);
    assert e.db == db.(messages := e.db.messages);
    SelectAppend(db.messages, [e.value], (m: Message) => InChannel(channelId, m));
    assert Select([e.value], (m: Message) => InChannel(channelId, m)) == [e.value];
    LastNAppend(Eligible(db, channelId, None), e.value, ClampLimit(limit));
  }

  /** `GetByID` of the repository: the first message with the id, deleted
      or not. */
  function MessageIndex(db: Db, id: Uuid): (r: Option<nat>)
    ensures r.Some? ==> r.value < |db.messages| && db.messages[r.value].id == id
    ensures r.None? <==> forall i :: 0 <= i < |db.messages| ==> db.messages[i].id != id
  {
    Find(db.messages, (m: Message) => m.id == id)
  }

  /** `Edit`: `ErrMessageNotFound` for an unknown id, `ErrNotMessageOwner`
      unless the caller sent it; then the content is replaced and the
      message marked edited. A failed update stores and notifies nothing;
      a successful one notifies `NotifyEditedMessage` once when a notifier
      is set. Only that row changes. */
  function Edit(db: Db, userId: Uuid, messageId: Uuid, content: string, writeError: Option<string>,
                hasNotifier: bool): (r: Result<Effect<Message>, Error>)
    ensures MessageIndex(db, messageId).None? ==> r == Err(MessageNotFound)
    ensures (MessageIndex(db, messageId).Some? && db.messages[MessageIndex(db, messageId).value].senderId != userId) ==>
      r == Err(NotMessageOwner)
    ensures r.Ok? <==> MessageIndex(db, messageId).Some? && db.messages[MessageIndex(db, messageId).value].senderId == userId
                       && writeError.None?
    ensures (MessageIndex(db, messageId).Some? && db.messages[MessageIndex(db, messageId).value].senderId == userId &&
             writeError.Some?) ==> r == Err(StoreFailure("updating message: " + writeError.value))
    ensures r.Ok? ==>
      var k := MessageIndex(db, messageId).value;
      r.value.value == db.messages[k].(content := Some(content), edited := true) &&
      r.value.db == db.(messages := db.messages[k := r.value.value]) &&
      r.value.notices == (if hasNotifier then [EditedMessage(r.value.value)] else [])
  {
    match MessageIndex(db, messageId)
    case None => Err(MessageNotFound)
    case Some(k) =>
      var m := db.messages[k];
      if m.senderId != userId then Err(NotMessageOwner)
      else
        var updated := m.(content := Some(content), edited := true);
        match writeError
        case Some(e) => Err(StoreFailure("updating message: " + e))
        case None => Ok(Effect(db.(messages := Replace(db.messages, k, updated)), updated,
                               if hasNotifier then [EditedMessage(updated)] else []))
  }

  /** `Delete`: the same two checks as `Edit`; then the message is marked
      deleted. A failed soft delete is returned as is and notifies nothing;
      a successful one notifies `NotifyDeletedMessage` with the message's
      channel and id once when a notifier is set. */
  function Delete(db: Db, userId: Uuid, messageId: Uuid, writeError: Option<string>, hasNotifier: bool)
    : (r: Result<Effect<()>, Error>)
    ensures MessageIndex(db, messageId).None? ==> r == Err(MessageNotFound)
    ensures (MessageIndex(db, messageId).Some? && db.messages[MessageIndex(db, messageId).value].senderId != userId) ==>
      r == Err(NotMessageOwner)
    ensures r.Ok? <==> MessageIndex(db, messageId).Some? && db.messages[MessageIndex(db, messageId).value].senderId == userId
                       && writeError.None?
    ensures (MessageIndex(db, messageId).Some? && db.messages[MessageIndex(db, messageId).value].senderId == userId &&
             writeError.Some?) ==> r == Err(StoreFailure(writeError.value))
    ensures r.Ok? ==>
      var k := MessageIndex(db, messageId).value;
      r.value.db == db.(messages := db.messages[k := db.messages[k].(deleted := true)]) &&
      r.value.notices == (if hasNotifier then [DeletedMessage(db.messages[k].channelId, messageId)] else [])
  {
    match MessageIndex(db, messageId)
    case None => Err(MessageNotFound)
    case Some(k) =>
      var m := db.messages[k];
      if m.senderId != userId then Err(NotMessageOwner)
      else
        match writeError
        case Some(e) => Err(StoreFailure(e))
        case None => Ok(Effect(db.(messages := Replace(db.messages, k, m.(deleted := true))), (),
                               if hasNotifier then [DeletedMessage(m.channelId, messageId)] else []))
  }

  /** With unique message ids, a deleted message drops out of every page of
      every channel. */
  lemma {:induction false} DeletedMessageLeavesHistory(db: Db, userId: Uuid, messageId: Uuid, hasNotifier: bool,
                                    reader: Uuid, channelId: Uuid, before: Option<Uuid>, limit: int)
    requires MessageIdsUnique(db)
    requires Delete(db, userId, messageId, None, hasNotifier).Ok?
    ensures var d := Delete(db, userId, messageId, None, hasNotifier).value.db;
      var page := List(d, reader, channelId, before, limit);
      page.Ok? ==> forall i :: 0 <= i < |page.value.items| ==> page.value.items[i].id != messageId
  {
    var d := Delete(db, userId, messageId, None, hasNotifier).value.db;
    var k := MessageIndex(db, messageId).value;
    assert d.messages == db.messages[k := db.messages[k].(deleted := true)];
    forall m | m in d.messages && m.id == messageId
      ensures m.deleted
    {
      var i :| 0 <= i < |d.messages| && d.messages[i] == m;
      assert i == k;
    }
    PagesSkipDeleted(d, reader, channelId, before, limit, messageId);
  }

  /** When every stored copy of `id` is deleted, no page shows `id`. */
  lemma {:induction false} PagesSkipDeleted(d: Db, reader: Uuid, channelId: Uuid, before: Option<Uuid>,
                                            limit: int, id: Uuid)
    requires forall m :: m in d.messages && m.id == id ==> m.deleted
    ensures var page := List(d, reader, channelId, before, limit);
      page.Ok? ==> forall i :: 0 <= i < |page.value.items| ==> page.value.items[i].id != id
  {
    var e := Eligible(d, channelId, before);
    forall j | 0 <= j < |e|
      ensures e[j].id != id
    {
      assert e[j] in d.messages && !e[j].deleted;
    }
    var page := List(d, reader, channelId, before, limit);
    if page.Ok? {
      LastNKeeps(e, ClampLimit(limit), (m: Message) => m.id != id);
    }
  }

  /** The notifier hears of a send, an edit or a delete exactly when the
      call's checks and its write succeeded and a notifier is set. */
  lemma {:induction false} NotifyOnlyAfterSuccess(db: Db, userId: Uuid, channelId: Uuid, messageId: Uuid,
                               content: string, parentId: Option<Uuid>, freshId: Uuid,
                               writeError: Option<string>, hasNotifier: bool)
    requires MessageIdFresh(db, freshId)
    ensures var r := Send(db, userId, channelId, content, parentId, freshId, writeError, hasNotifier);
      (r.Ok? && r.value.notices != []) <==>
        (CheckChannelAccess(db, userId, channelId).Ok? && writeError.None? && hasNotifier)
    ensures var r := Edit(db, userId, messageId, content, writeError, hasNotifier);
      (r.Ok? && r.value.notices != []) <==>
        (MessageIndex(db, messageId).Some? && db.messages[MessageIndex(db, messageId).value].senderId == userId &&
         writeError.None? && hasNotifier)
    ensures var r := Delete(db, userId, messageId, writeError, hasNotifier);
      (r.Ok? && r.value.notices != []) <==>
        (MessageIndex(db, messageId).Some? && db.messages[MessageIndex(db, messageId).value].senderId == userId &&
         writeError.None? && hasNotifier)
  {
  }
}

=== FILE: notifier.dfy ===
/** `HubNotifier` (transport/ws/notifier.go): turns the services' message
    notices into channel broadcasts. Every broadcast goes to the message's
    channel with no user excluded. */
module Notifier {
  import opened Base
  import opened Domain
  import opened Envelope
  import opened Connection
  import opened Registry

  /** The envelope announcing a new or edited message. */
  function MessageEvent(kind: string, msg: Message, now: int): (e: Event)
    ensures e.kind == kind && e.channelId == Some(msg.channelId) && e.payload == MessageBody(msg)
  {
    Event(kind, Some(msg.channelId), MessageBody(msg), now)
  }

  /** The envelope announcing a deletion: it carries only the message id. */
  function DeletedEvent(channelId: Uuid, messageId: Uuid, now: int): (e: Event)
    ensures e.kind == MessageDeleted && e.channelId == Some(channelId) && e.payload == DeletedBody(messageId)
  {
    Event(MessageDeleted, Some(channelId), DeletedBody(messageId), now)
  }

  /** `NotifyNewMessage`: one `message.new` event scoped to and broadcast on
      the message's channel; nothing when the payload does not serialise. */
  function NotifyNewMessage(h: Hub, msg: Message, encodes: bool, now: int): (r: Result<Hub, Fault>)
    requires Consistent(h)
    ensures !encodes ==> r == Ok(h)
    ensures encodes ==> r == ChannelBroadcast(h, msg.channelId, MessageEvent(MessageNew, msg, now), None)
  {
    match NewEvent(MessageNew, Some(msg.channelId), MessageBody(msg), encodes, now)
    case Err(_) => Ok(h)
    case Ok(e) => BroadcastToChannel(h, msg.channelId, e, None, encodes)
  }

  /** `NotifyEditedMessage`: as `NotifyNewMessage`, with `message.edited`. */
  function NotifyEditedMessage(h: Hub, msg: Message, encodes: bool, now: int): (r: Result<Hub, Fault>)
    requires Consistent(h)
    ensures !encodes ==> r == Ok(h)
    ensures encodes ==> r == ChannelBroadcast(h, msg.channelId, MessageEvent(MessageEdited, msg, now), None)
  {
    match NewEvent(MessageEdited, Some(msg.channelId), MessageBody(msg), encodes, now)
    case Err(_) => Ok(h)
    case Ok(e) => BroadcastToChannel(h, msg.channelId, e, None, encodes)
  }

  /** `NotifyDeletedMessage`: one `message.deleted` event carrying only the
      message id, broadcast on the given channel. */
  function NotifyDeletedMessage(h: Hub, channelId: Uuid, messageId: Uuid, encodes: bool, now: int): (r: Result<Hub, Fault>)
    requires Consistent(h)
    ensures !encodes ==> r == Ok(h)
    ensures encodes ==> r == ChannelBroadcast(h, channelId, DeletedEvent(channelId, messageId, now), None)
  {
    match NewEvent(MessageDeleted, Some(channelId), DeletedBody(messageId), encodes, now)
    case Err(_) => Ok(h)
    case Ok(e) => BroadcastToChannel(h, channelId, e, None, encodes)
  }

  /** Deliver one channel-message notice as a broadcast on its channel with
      no user excluded. The DM notices are outside this model: the methods
      of `HubNotifier` that deliver them are not part of it, so they are
      passed over here and nothing is claimed about their delivery. */
  function Apply(h: Hub, n: Notice, encodes: bool, now: int): (r: Result<Hub, Fault>)
    requires Consistent(h)
    ensures !encodes ==> r == Ok(h)
    ensures (n.NewMessage? && encodes) ==>
      r == ChannelBroadcast(h, n.msg.channelId, MessageEvent(MessageNew, n.msg, now), None)
    ensures (n.EditedMessage? && encodes) ==>
      r == ChannelBroadcast(h, n.msg.channelId, MessageEvent(MessageEdited, n.msg, now), None)
    ensures (n.DeletedMessage? && encodes) ==>
      r == ChannelBroadcast(h, n.channelId, DeletedEvent(n.channelId, n.messageId, now), None)
  {
    match n
    case NewMessage(msg) => NotifyNewMessage(h, msg, encodes, now)
    case EditedMessage(msg) => NotifyEditedMessage(h, msg, encodes, now)
    case DeletedMessage(channelId, messageId) => NotifyDeletedMessage(h, channelId, messageId, encodes, now)
    case _ => Ok(h)
  }

  /** Deliver the notices of one service call, in order. */
  function ApplyAll(h: Hub, ns: seq<Notice>, encodes: bool, now: int): (r: Result<Hub, Fault>)
    requires Valid(h)
    ensures r.Ok? && Valid(r.value)
    decreases |ns|
  {
    if |ns| == 0 then Ok(h)
    else
      ApplyValid(h, ns[0], encodes, now);
      ApplyAll(Apply(h, ns[0], encodes, now).value, ns[1..], encodes, now)
  }

  /** A notice never panics on a valid hub and keeps it valid. */
  lemma {:induction false} ApplyValid(h: Hub, n: Notice, encodes: bool, now: int)
    requires Valid(h)
    ensures Apply(h, n, encodes, now).Ok? && Valid(Apply(h, n, encodes, now).value)
  {
    if encodes {
      match n
      case NewMessage(msg) =>
        DeliverValid(h, Targets(h, msg.channelId, None), MessageEvent(MessageNew, msg, now), true);
      case EditedMessage(msg) =>
        DeliverValid(h, Targets(h, msg.channelId, None), MessageEvent(MessageEdited, msg, now), true);
      case DeletedMessage(channelId, messageId) =>
        DeliverValid(h, Targets(h, channelId, None), DeletedEvent(channelId, messageId, now), true);
      case _ =>
    }
  }

  /** No exclusion: the sender's own registered client, when subscribed to
      the channel and not full, receives its own new message. */
  lemma {:induction false} SenderSeesOwnMessage(h: Hub, msg: Message, id: ConnId, now: int)
    requires Valid(h) && Holds(h, id) && h.conns[id].userId == msg.senderId
    requires IsSubscribed(h.conns[id], msg.channelId) && |h.conns[id].mailbox| < SendBufSize
    ensures NotifyNewMessage(h, msg, true, now).Ok?
    ensures NotifyNewMessage(h, msg, true, now).value.conns[id].mailbox
         == h.conns[id].mailbox + [MessageEvent(MessageNew, msg, now)]
  {
    DeliverValid(h, Targets(h, msg.channelId, None), MessageEvent(MessageNew, msg, now), true);
  }
}

=== FILE: paging.dfy ===
/** The cursor pagination shared by channel messages and direct messages
    (service/message_service.go `List`, service/dm_service.go
    `ListMessages`): clamp the limit, fetch one row more than asked, report
    whether there is more, and keep the newest `limit` rows. */
module Paging {
  import opened Base
  import opened Store

  const DefaultLimit := 50
  const MaxLimit := 100

  /** A limit outside `1..100` becomes 50. */
  function ClampLimit(limit: int): (r: nat)
    ensures 1 <= r <= MaxLimit
    ensures 1 <= limit <= MaxLimit ==> r == limit
    ensures !(1 <= limit <= MaxLimit) ==> r == DefaultLimit
  {
    if limit <= 0 || limit > MaxLimit then DefaultLimit else limit
  }

  /** The last `n` elements (all of them when there are fewer): the
      newest `n` rows of a chronological list, as `ORDER BY created_at DESC
      LIMIT n` followed by a reversal returns them. */
  function LastN<T>(s: seq<T>, n: nat): (r: seq<T>)
    ensures |r| == if |s| < n then |s| else n
    ensures r == s[|s| - |r|..]
  {
    if |s| <= n then s else s[|s| - n..]
  }

  /** The messages older than the cursor. Rows are in creation order, so
      `created_at < (SELECT created_at ... WHERE id = before)` keeps the
      rows in front of the cursor row; when no row has that id the subquery
      is NULL, the comparison is never true, and nothing qualifies. */
  function OlderThan<T>(rows: seq<T>, id: T -> Uuid, before: Option<Uuid>): (r: seq<T>)
    ensures before.None? ==> r == rows
    ensures r == [] || before.None? || exists k :: 0 <= k < |rows| && id(rows[k]) == before.value && r == rows[..k]
  {
    match before
    case None => rows
    case Some(b) =>
      match Find(rows, (x: T) => id(x) == b)
      case None => []
      case Some(k) => rows[..k]
  }

  /** A page of results, oldest first. */
  datatype Page<T> = Page(items: seq<T>, hasMore: bool)

  /** The trimming step applied to the fetched rows. */
  function Window<T>(rows: seq<T>, limit: nat): (p: Page<T>)
    ensures p.hasMore <==> |rows| > limit
    ensures p.items == LastN(rows, limit)
  {
    var hasMore := |rows| > limit;
    Page(if hasMore then rows[|rows| - limit..] else rows, hasMore)
  }

  /** Fetching the newest `limit + 1` rows and trimming gives exactly the
      newest `limit` rows, and `hasMore` says whether any row was left out. */
  lemma {:induction false} WindowOfFetch<T>(eligible: seq<T>, limit: nat)
    ensures Window(LastN(eligible, limit + 1), limit) == Page(LastN(eligible, limit), |eligible| > limit)
  {
    var rows := LastN(eligible, limit + 1);
    if |eligible| > limit {
      assert rows[|rows| - limit..] == eligible[|eligible| - limit..];
    }
  }

  /** A page of the newest rows holds only rows of the list, so whatever
      every row satisfies, every row of the page does. */
  lemma {:induction false} LastNKeeps<T>(e: seq<T>, n: nat, p: T -> bool)
    requires forall j :: 0 <= j < |e| ==> p(e[j])
    ensures forall i :: 0 <= i < |LastN(e, n)| ==> p(LastN(e, n)[i])
  {
    var items := LastN(e, n);
    forall i | 0 <= i < |items|
      ensures p(items[i])
    {
      assert items[i] == e[|e| - |items| + i];
    }
  }

  /** The newest row is last on the page. */
  lemma {:induction false} LastNAppend<T>(s: seq<T>, x: T, n: nat)
    requires n >= 1
    ensures var r := LastN(s + [x], n); |r| > 0 && r[|r| - 1] == x
  {
  }
}

=== FILE: pulsemate_service.dfy ===
/** `PulsemateService` (service/pulsemate_service.go): the request
    lifecycle between two users, with auto-accept when both ask, and the
    canonically ordered pulsemate pairs. */
module PulsemateService {
  import opened Base
  import opened Domain
  import opened Store
  import opened ServiceErrors

  const Pending := "pending"

  /** `ArePulsemates`: the canonical pair is stored. */
  predicate ArePulsemates(db: Db, a: Uuid, b: Uuid) {
    Canonical(a, b) in db.pulsemates
  }

  /** Pulsemate is a symmetric relation. */
  lemma {:induction false} ArePulsematesSymmetric(db: Db, a: Uuid, b: Uuid)
    ensures ArePulsemates(db, a, b) <==> ArePulsemates(db, b, a)
  {
    CanonicalSymmetric(a, b);
  }

  /** Every stored pair is in canonical order. */
  predicate PairsCanonical(db: Db) {
    forall p :: p in db.pulsemates ==> !Less(p.1, p.0)
  }

  /** The service never stores a request in any other status. */
  predicate AllPending(db: Db) {
    forall i :: 0 <= i < |db.requests| ==> db.requests[i].status == Pending
  }

  predicate RequestIdFresh(db: Db, id: Uuid) {
    forall i :: 0 <= i < |db.requests| ==> db.requests[i].id != id
  }

  /** `createPulsemate`: store the canonical pair; nothing else changes. */
  function CreatePulsemate(db: Db, a: Uuid, b: Uuid): (r: Db)
    ensures r.pulsemates == db.pulsemates + {Canonical(a, b)} && r.(pulsemates := db.pulsemates) == db
    ensures ArePulsemates(r, a, b) && ArePulsemates(r, b, a)
    ensures PairsCanonical(db) ==> PairsCanonical(r)
  {
    CanonicalSymmetric(a, b);
    db.(pulsemates := db.pulsemates + {Canonical(a, b)})
  }

  /** `RemovePulsemate`: delete the canonical pair, whichever side asks. */
  function RemovePulsemate(db: Db, userId: Uuid, otherUserId: Uuid): (r: Db)
    ensures r.pulsemates == db.pulsemates - {Canonical(userId, otherUserId)} && r.(pulsemates := db.pulsemates) == db
    ensures !ArePulsemates(r, userId, otherUserId) && !ArePulsemates(r, otherUserId, userId)
    ensures PairsCanonical(db) ==> PairsCanonical(r)
  {
    CanonicalSymmetric(userId, otherUserId);
    db.(pulsemates := db.pulsemates - {Canonical(userId, otherUserId)})
  }

  /** Removing a pair just created restores the relation. */
  lemma {:induction false} RemoveUndoesCreate(db: Db, a: Uuid, b: Uuid)
    requires !ArePulsemates(db, a, b)
    ensures RemovePulsemate(CreatePulsemate(db, a, b), b, a) == db
  {
    CanonicalSymmetric(a, b);
    assert db.pulsemates + {Canonical(a, b)} - {Canonical(a, b)} == db.pulsemates;
  }

  /** `GetRequestByUsers(sender, receiver)`: the first request from
      `sender` to `receiver`, whatever its status. */
  function RequestByUsers(db: Db, senderId: Uuid, receiverId: Uuid): (r: Option<PulsemateRequest>)
    ensures r.Some? ==> r.value in db.requests && r.value.senderId == senderId && r.value.receiverId == receiverId
    ensures r.None? <==> forall i :: 0 <= i < |db.requests| ==>
      !(db.requests[i].senderId == senderId && db.requests[i].receiverId == receiverId)
  {
    match Find(db.requests, (q: PulsemateRequest) => q.senderId == senderId && q.receiverId == receiverId)
    case None => None
    case Some(k) => Some(db.requests[k])
  }

  /** `GetRequestByID`. */
  function RequestById(db: Db, id: Uuid): (r: Option<PulsemateRequest>)
    ensures r.Some? ==> r.value in db.requests && r.value.id == id
    ensures r.None? <==> forall i :: 0 <= i < |db.requests| ==> db.requests[i].id != id
  {
    match Find(db.requests, (q: PulsemateRequest) => q.id == id)
    case None => None
    case Some(k) => Some(db.requests[k])
  }

  /** `DeleteRequest(id)`: every request with that id goes; every other
      request and every other table stays. */
  function DeleteRequest(db: Db, id: Uuid): (r: Db)
    ensures r == db.(requests := r.requests)
    ensures forall i :: 0 <= i < |r.requests| ==> r.requests[i].id != id
    ensures forall q :: q in db.requests && q.id != id ==> q in r.requests
    ensures forall q :: q in r.requests ==> q in db.requests
    ensures AllPending(db) ==> AllPending(r)
  {
    db.(requests := Remove(db.requests, (q: PulsemateRequest) => q.id == id))
  }

  /** `SendRequest` to `targetUsername`. The checks run in this order:
      unknown user (`ErrUserNotFoundForRequest`), oneself
      (`ErrCannotRequestSelf`), already pulsemates (`ErrAlreadyPulsemates`),
      a pending request from sender to target (`ErrRequestAlreadyExists`).
      A pending request the other way is auto-accepted: the pair is stored,
      that request deleted, and no request returned (`None`). Otherwise one
      pending request from sender to target is created and returned. */
  function SendRequest(db: Db, senderId: Uuid, targetUsername: string, freshId: Uuid)
    : (r: Result<(Db, Option<PulsemateRequest>), Error>)
    requires RequestIdFresh(db, freshId)
    ensures UserByUsername(db, targetUsername).None? ==> r == Err(UserNotFoundForRequest)
    ensures UserByUsername(db, targetUsername).Some? ==>
      var t := UserByUsername(db, targetUsername).value.id;
      var mine := RequestByUsers(db, senderId, t);
      var theirs := RequestByUsers(db, t, senderId);
      (t == senderId ==> r == Err(CannotRequestSelf)) &&
      (t != senderId && ArePulsemates(db, senderId, t) ==> r == Err(AlreadyPulsemates)) &&
      (t != senderId && !ArePulsemates(db, senderId, t) && mine.Some? && mine.value.status == Pending ==>
         r == Err(RequestAlreadyExists)) &&
      (r.Ok? ==> t != senderId && !ArePulsemates(db, senderId, t) && !(mine.Some? && mine.value.status == Pending)) &&
      (r.Ok? && theirs.Some? && theirs.value.status == Pending ==>
         r.value == (DeleteRequest(CreatePulsemate(db, senderId, t), theirs.value.id), None)) &&
      (r.Ok? && !(theirs.Some? && theirs.value.status == Pending) ==>
         var q := PulsemateRequest(freshId, senderId, t, Pending);
         r.value == (db.(requests := db.requests + [q]), Some(q)))
    ensures r.Err? ==> r.error in {UserNotFoundForRequest, CannotRequestSelf, AlreadyPulsemates, RequestAlreadyExists}
  {
    match UserByUsername(db, targetUsername)
    case None => Err(UserNotFoundForRequest)
    case Some(target) =>
      if senderId == target.id then Err(CannotRequestSelf)
      else if ArePulsemates(db, senderId, target.id) then Err(AlreadyPulsemates)
      else
        var mine := RequestByUsers(db, senderId, target.id);
        if mine.Some? && mine.value.status == Pending then Err(RequestAlreadyExists)
        else
          var theirs := RequestByUsers(db, target.id, senderId);
          if theirs.Some? && theirs.value.status == Pending then
            Ok((DeleteRequest(CreatePulsemate(db, senderId, target.id), theirs.value.id), None))
          else
            var q := PulsemateRequest(freshId, senderId, target.id, Pending);
            Ok((db.(requests := db.requests + [q]), Some(q)))
  }

  /** An already-pulsemate target changes nothing. */
  lemma {:induction false} AlreadyPulsematesNoChange(db: Db, senderId: Uuid, targetUsername: string, freshId: Uuid)
    requires RequestIdFresh(db, freshId)
    requires UserByUsername(db, targetUsername).Some? && UserByUsername(db, targetUsername).value.id != senderId
    requires ArePulsemates(db, UserByUsername(db, targetUsername).value.id, senderId)
    ensures SendRequest(db, senderId, targetUsername, freshId) == Err(AlreadyPulsemates)
  {
    ArePulsematesSymmetric(db, UserByUsername(db, targetUsername).value.id, senderId);
  }

  /** Asking twice is refused the second time. */
  lemma {:induction false} RepeatRequestRefused(db: Db, senderId: Uuid, targetUsername: string, freshId: Uuid, freshId2: Uuid)
    requires RequestIdFresh(db, freshId) && AllPending(db)
    requires SendRequest(db, senderId, targetUsername, freshId).Ok?
    requires SendRequest(db, senderId, targetUsername, freshId).value.1.Some?
    ensures var d := SendRequest(db, senderId, targetUsername, freshId).value.0;
      RequestIdFresh(d, freshId2) ==> SendRequest(d, senderId, targetUsername, freshId2) == Err(RequestAlreadyExists)
  {
    var d := SendRequest(db, senderId, targetUsername, freshId).value.0;
    var t := UserByUsername(db, targetUsername).value.id;
    assert UserByUsername(d, targetUsername) == UserByUsername(db, targetUsername);
    assert d.requests[|db.requests|].senderId == senderId && d.requests[|db.requests|].receiverId == t;
    assert RequestByUsers(d, senderId, t).Some?;
    assert AllPending(d);
  }

  /** After a first request from `a` to `b` is created, it is the only
      request between them, in either direction. */
  lemma {:induction false} FirstRequestAlone(db: Db, a: User, nameA: string, b: User, nameB: string, f1: Uuid)
    requires RequestIdFresh(db, f1) && AllPending(db)
    requires UserByUsername(db, nameA) == Some(a) && UserByUsername(db, nameB) == Some(b)
    requires SendRequest(db, a.id, nameB, f1).Ok? && SendRequest(db, a.id, nameB, f1).value.1.Some?
    ensures var d := SendRequest(db, a.id, nameB, f1).value.0;
      d.users == db.users && d.pulsemates == db.pulsemates &&
      b.id != a.id && !ArePulsemates(d, b.id, a.id) &&
      RequestByUsers(d, b.id, a.id).None? &&
      RequestByUsers(d, a.id, b.id) == Some(PulsemateRequest(f1, a.id, b.id, Pending))
  {
    var d := SendRequest(db, a.id, nameB, f1).value.0;
    var q := PulsemateRequest(f1, a.id, b.id, Pending);
    assert d == db.(requests := db.requests + [q]);
    ArePulsematesSymmetric(db, a.id, b.id);
    // b had no request to a: it would have been pending, and auto-accepted.
    assert RequestByUsers(db, b.id, a.id).None?;
    assert forall i :: 0 <= i < |d.requests| ==> !(d.requests[i].senderId == b.id && d.requests[i].receiverId == a.id);
    // a's only request to b is the new one.
    assert RequestByUsers(db, a.id, b.id).None?;
    var n := |db.requests|;
    assert forall i :: 0 <= i < n ==> d.requests[i] == db.requests[i];
    assert d.requests[n] == q;
  }

  /** Two users asking each other end up pulsemates, with neither request
      left behind. */
  lemma {:induction false} MutualRequestsMakePulsemates(db: Db, a: User, nameA: string, b: User, nameB: string, f1: Uuid, f2: Uuid)
    requires RequestIdFresh(db, f1) && RequestIdFresh(db, f2) && f1 != f2 && AllPending(db)
    requires UserByUsername(db, nameA) == Some(a) && UserByUsername(db, nameB) == Some(b)
    requires SendRequest(db, a.id, nameB, f1).Ok? && SendRequest(db, a.id, nameB, f1).value.1.Some?
    ensures var d := SendRequest(db, a.id, nameB, f1).value.0;
      var r := SendRequest(d, b.id, nameA, f2);
      r.Ok? && r.value.1.None? && ArePulsemates(r.value.0, a.id, b.id) &&
      forall i :: 0 <= i < |r.value.0.requests| ==> r.value.0.requests[i].id != f1
  {
    var d := SendRequest(db, a.id, nameB, f1).value.0;
    FirstRequestAlone(db, a, nameA, b, nameB, f1);
    assert UserByUsername(d, nameA) == Some(a);
    assert RequestIdFresh(d, f2);
    ArePulsematesSymmetric(CreatePulsemate(d, b.id, a.id), a.id, b.id);
  }

  /** `AcceptRequest`: `ErrRequestNotFound`, then `ErrNotRequestReceiver`
      unless the caller is the receiver; stores the pair and deletes the
      request. */
  function AcceptRequest(db: Db, userId: Uuid, requestId: Uuid): (r: Result<Db, Error>)
    ensures RequestById(db, requestId).None? ==> r == Err(RequestNotFound)
    ensures r.Ok? <==> RequestById(db, requestId).Some? && RequestById(db, requestId).value.receiverId == userId
    ensures r.Err? && RequestById(db, requestId).Some? ==> r.error == NotRequestReceiver
    ensures r.Ok? ==>
      var q := RequestById(db, requestId).value;
      r.value == DeleteRequest(CreatePulsemate(db, q.senderId, q.receiverId), requestId) &&
      ArePulsemates(r.value, q.senderId, userId)
  {
    match RequestById(db, requestId)
    case None => Err(RequestNotFound)
    case Some(q) =>
      if q.receiverId != userId then Err(NotRequestReceiver)
      else Ok(DeleteRequest(CreatePulsemate(db, q.senderId, q.receiverId), requestId))
  }

  /** `RejectRequest`: receiver only; deletes the request and nothing else. */
  function RejectRequest(db: Db, userId: Uuid, requestId: Uuid): (r: Result<Db, Error>)
    ensures RequestById(db, requestId).None? ==> r == Err(RequestNotFound)
    ensures r.Ok? <==> RequestById(db, requestId).Some? && RequestById(db, requestId).value.receiverId == userId
    ensures r.Err? && RequestById(db, requestId).Some? ==> r.error == NotRequestReceiver
    ensures r.Ok? ==> r.value == DeleteRequest(db, requestId) && r.value.pulsemates == db.pulsemates
  {
    match RequestById(db, requestId)
    case None => Err(RequestNotFound)
    case Some(q) => if q.receiverId != userId then Err(NotRequestReceiver) else Ok(DeleteRequest(db, requestId))
  }

  /** `CancelRequest`: sender only; deletes the request and nothing else. */
  function CancelRequest(db: Db, userId: Uuid, requestId: Uuid): (r: Result<Db, Error>)
    ensures RequestById(db, requestId).None? ==> r == Err(RequestNotFound)
    ensures r.Ok? <==> RequestById(db, requestId).Some? && RequestById(db, requestId).value.senderId == userId
    ensures r.Err? && RequestById(db, requestId).Some? ==> r.error == NotRequestSender
    ensures r.Ok? ==> r.value == DeleteRequest(db, requestId) && r.value.pulsemates == db.pulsemates
  {
    match RequestById(db, requestId)
    case None => Err(RequestNotFound)
    case Some(q) => if q.senderId != userId then Err(NotRequestSender) else Ok(DeleteRequest(db, requestId))
  }

  /** Every operation keeps the stored pairs canonical and every request
      pending. */
  lemma {:induction false} OperationsKeepInvariants(db: Db, userId: Uuid, other: Uuid, name: string, requestId: Uuid, freshId: Uuid)
    requires PairsCanonical(db) && AllPending(db) && RequestIdFresh(db, freshId)
    ensures var r := SendRequest(db, userId, name, freshId); r.Ok? ==> PairsCanonical(r.value.0) && AllPending(r.value.0)
    ensures var r := AcceptRequest(db, userId, requestId); r.Ok? ==> PairsCanonical(r.value) && AllPending(r.value)
    ensures var r := RejectRequest(db, userId, requestId); r.Ok? ==> PairsCanonical(r.value) && AllPending(r.value)
    ensures var r := CancelRequest(db, userId, requestId); r.Ok? ==> PairsCanonical(r.value) && AllPending(r.value)
    ensures PairsCanonical(RemovePulsemate(db, userId, other)) && AllPending(RemovePulsemate(db, userId, other))
  {
  }
}

=== FILE: registry.dfy ===
/** The hub of the relay (transport/ws/hub.go) as a serial state machine: each
    case of the `Run` loop, and each of the hub's send helpers, is one step
    from a `Hub` to a new `Hub`, or to a `Fault` where Go would panic. */
module Registry {
  import opened Base
  import opened Envelope
  import opened Connection

  /** `clients` is the hub's map from user id to (the id of) one client.
      `conns` holds every client ever created, registered or not, so that a
      client's mailbox exists independently of the map, as in Go. */
  datatype Hub = Hub(clients: map<Uuid, ConnId>, conns: map<ConnId, Client>)

  const EmptyHub := Hub(map[], map[])

  /** Every registered user id names a known client of that very user. */
  predicate Consistent(h: Hub) {
    forall u :: u in h.clients ==> h.clients[u] in h.conns && h.conns[h.clients[u]].userId == u
  }

  /** The hub invariant: consistent, no registered client is closed, every
      client is stored under its own id and no mailbox is over capacity. */
  predicate Valid(h: Hub) {
    (forall u :: u in h.clients ==>
      h.clients[u] in h.conns && h.conns[h.clients[u]].userId == u && !h.conns[h.clients[u]].closed)
    && (forall id :: id in h.conns ==> h.conns[id].id == id && |h.conns[id].mailbox| <= SendBufSize)
  }

  /** Client `id` is the one its user's map entry points at. */
  predicate Holds(h: Hub, id: ConnId) {
    id in h.conns && h.conns[id].userId in h.clients && h.clients[h.conns[id].userId] == id
  }

  lemma {:induction false} EmptyHubValid()
    ensures Valid(EmptyHub) && EmptyHub.clients == map[]
  {
  }

  /** The registered users whose clients a fan-out reaches. */
  predicate Hit(h: Hub, targets: set<Uuid>, id: ConnId) {
    Holds(h, id) && h.conns[id].userId in targets
  }

  /** What one non-blocking send does to an open client: append when there is
      room; when full, close it (`dropFull`) or leave it alone. */
  function Offered(c: Client, e: Event, dropFull: bool): (r: Client)
    ensures r.id == c.id && r.userId == c.userId && r.subscriptions == c.subscriptions
    ensures |c.mailbox| < SendBufSize ==> r == c.(mailbox := c.mailbox + [e])
    ensures |c.mailbox| >= SendBufSize && dropFull ==> r == c.(closed := true)
    ensures |c.mailbox| >= SendBufSize && !dropFull ==> r == c
  {
    if |c.mailbox| < SendBufSize then c.(mailbox := c.mailbox + [e])
    else if dropFull then c.(closed := true)
    else c
  }

  predicate IsFull(h: Hub, u: Uuid)
    requires Consistent(h) && u in h.clients
  {
    |h.conns[h.clients[u]].mailbox| >= SendBufSize
  }

  /** Some target of a fan-out is closed. */
  predicate ClosedTarget(h: Hub, targets: set<Uuid>)
    requires Consistent(h) && targets <= h.clients.Keys
  {
    exists u :: u in targets && h.conns[h.clients[u]].closed
  }

  /** The map entries a fan-out keeps: all but the full targets of a
      dropping fan-out. */
  function Kept(h: Hub, targets: set<Uuid>, dropFull: bool): map<Uuid, ConnId>
    requires Consistent(h)
  {
    map u | u in h.clients && !(dropFull && u in targets && IsFull(h, u)) :: h.clients[u]
  }

  /** The clients after a fan-out: each hit client offered the event. */
  function Fanned(h: Hub, targets: set<Uuid>, e: Event, dropFull: bool): map<ConnId, Client> {
    map id | id in h.conns :: if Hit(h, targets, id) then Offered(h.conns[id], e, dropFull) else h.conns[id]
  }

  /** A fan-out to the clients of `targets` from inside the hub loop. Each
      target's effect depends only on that target's client, so the order in
      which Go's map range visits them does not matter (`RunBroadcast`). A
      send on a closed target panics. */
  function Deliver(h: Hub, targets: set<Uuid>, e: Event, dropFull: bool): Result<Hub, Fault>
    requires Consistent(h) && targets <= h.clients.Keys
  {
    if ClosedTarget(h, targets) then Err(SendOnClosedChannel)
    else Ok(Hub(Kept(h, targets, dropFull), Fanned(h, targets, e, dropFull)))
  }

  /** What a fan-out does, client by client: a panic iff some target is
      closed; otherwise each target's client is offered the event (appended
      at the tail when there is room), every other client is untouched, and
      only full targets of a dropping fan-out lose their map entry. */
  lemma {:induction false} DeliverEffect(h: Hub, targets: set<Uuid>, e: Event, dropFull: bool)
    requires Consistent(h) && targets <= h.clients.Keys
    ensures Deliver(h, targets, e, dropFull).Err? <==>
      exists u :: u in targets && h.conns[h.clients[u]].closed
    ensures var r := Deliver(h, targets, e, dropFull);
      r.Ok? ==> r.value.conns.Keys == h.conns.Keys
    ensures var r := Deliver(h, targets, e, dropFull);
      r.Ok? ==> forall id :: id in h.conns && !Hit(h, targets, id) ==> r.value.conns[id] == h.conns[id]
    ensures var r := Deliver(h, targets, e, dropFull);
      r.Ok? ==> forall id :: id in h.conns && Hit(h, targets, id) ==>
        r.value.conns[id] == Offered(h.conns[id], e, dropFull)
    ensures var r := Deliver(h, targets, e, dropFull);
      r.Ok? ==> forall u :: u in r.value.clients <==>
        (u in h.clients && !(dropFull && u in targets && IsFull(h, u)))
    ensures var r := Deliver(h, targets, e, dropFull);
      r.Ok? ==> forall u :: u in r.value.clients ==> r.value.clients[u] == h.clients[u]
  {
  }

  lemma {:induction false} DeliverConsistent(h: Hub, targets: set<Uuid>, e: Event, dropFull: bool)
    requires Consistent(h) && targets <= h.clients.Keys
    ensures Deliver(h, targets, e, dropFull).Ok? ==> Consistent(Deliver(h, targets, e, dropFull).value)
  {
  }

  /** A fan-out keeps the hub invariant and cannot panic on a valid hub. */
  lemma {:induction false} DeliverValid(h: Hub, targets: set<Uuid>, e: Event, dropFull: bool)
    requires Valid(h) && targets <= h.clients.Keys
    ensures Deliver(h, targets, e, dropFull).Ok?
    ensures Valid(Deliver(h, targets, e, dropFull).value)
  {
    DeliverEffect(h, targets, e, dropFull);
    var r := Deliver(h, targets, e, dropFull).value;
    forall id | id in r.conns
      ensures r.conns[id].id == id && |r.conns[id].mailbox| <= SendBufSize
    {
      if Hit(h, targets, id) {
        assert r.conns[id] == Offered(h.conns[id], e, dropFull);
      }
    }
    forall u | u in r.clients
      ensures r.clients[u] in r.conns && r.conns[r.clients[u]].userId == u && !r.conns[r.clients[u]].closed
    {
      var id := h.clients[u];
      if Hit(h, targets, id) {
        assert r.conns[id] == Offered(h.conns[id], e, dropFull);
      }
    }
  }

  /** The users a channel broadcast reaches: registered, not excluded, and
      whose client is subscribed to the channel. */
  function Targets(h: Hub, channelId: Uuid, exclude: Option<Uuid>): (t: set<Uuid>)
    ensures t <= h.clients.Keys
    ensures forall u :: u in t <==> (u in h.clients && exclude != Some(u)
      && h.clients[u] in h.conns && IsSubscribed(h.conns[h.clients[u]], channelId))
  {
    set u | u in h.clients && exclude != Some(u)
      && h.clients[u] in h.conns && IsSubscribed(h.conns[h.clients[u]], channelId)
  }

  /** The `broadcast` case of `Run`: every registered client subscribed to
      the channel whose user is not excluded gets the event at the tail of
      its mailbox; a target whose mailbox is full is removed from the map and
      closed, and nothing else (no presence) happens; all other clients and
      map entries are untouched. */
  function ChannelBroadcast(h: Hub, channelId: Uuid, e: Event, exclude: Option<Uuid>): (r: Result<Hub, Fault>)
    requires Consistent(h)
    ensures r.Ok? ==> r.value.conns.Keys == h.conns.Keys
    ensures r.Ok? ==> forall id :: id in h.conns ==>
      (if Holds(h, id) && exclude != Some(h.conns[id].userId) && IsSubscribed(h.conns[id], channelId)
       then r.value.conns[id] == Offered(h.conns[id], e, true)
       else r.value.conns[id] == h.conns[id])
    ensures r.Ok? ==> forall u :: u in r.value.clients <==>
      u in h.clients && !(u in Targets(h, channelId, exclude) && IsFull(h, u))
    ensures r.Ok? ==> forall u :: u in r.value.clients ==> r.value.clients[u] == h.clients[u]
    ensures r.Ok? ==> Consistent(r.value)
  {
    DeliverEffect(h, Targets(h, channelId, exclude), e, true);
    DeliverConsistent(h, Targets(h, channelId, exclude), e, true);
    Deliver(h, Targets(h, channelId, exclude), e, true)
  }

  /** `BroadcastToChannel`: `encodes` is whether `json.Marshal(event)`
      succeeds; when it does not, nothing happens. */
  function BroadcastToChannel(h: Hub, channelId: Uuid, e: Event, exclude: Option<Uuid>,
                              encodes: bool): (r: Result<Hub, Fault>)
    requires Consistent(h)
    ensures !encodes ==> r == Ok(h)
    ensures encodes ==> r == ChannelBroadcast(h, channelId, e, exclude)
  {
    if !encodes then Ok(h) else ChannelBroadcast(h, channelId, e, exclude)
  }

  /** One iteration of the `broadcast` loop body for the entry of user `u`. */
  function BroadcastStep(s: Hub, u: Uuid, channelId: Uuid, e: Event, exclude: Option<Uuid>): (r: Result<Hub, Fault>)
    requires Consistent(s)
  {
    if u !in s.clients || exclude == Some(u) || !IsSubscribed(s.conns[s.clients[u]], channelId) then Ok(s)
    else
      var id := s.clients[u];
      match TryEnqueue(s.conns[id], e)
      case Enqueued(c') => Ok(s.(conns := s.conns[id := c']))
      case Full => Ok(Hub(s.clients - {u}, s.conns[id := s.conns[id].(closed := true)]))
      case OnClosed => Err(SendOnClosedChannel)
  }

  predicate DistinctIds(order: seq<Uuid>) {
    forall i, j :: 0 <= i < j < |order| ==> order[i] != order[j]
  }

  function Prefix(order: seq<Uuid>, n: nat): (d: set<Uuid>)
    requires n <= |order|
    ensures forall u :: u in d <==> exists j :: 0 <= j < n && order[j] == u
  {
    set j | 0 <= j < n :: order[j]
  }

  /** Adding an open target with room to a fan-out's audience appends the
      event to that target's mailbox and changes nothing else. */
  lemma {:induction false} DeliverAddRoom(h: Hub, d: set<Uuid>, u: Uuid, e: Event)
    requires Consistent(h) && d <= h.clients.Keys && u in h.clients && u !in d
    requires !h.conns[h.clients[u]].closed && |h.conns[h.clients[u]].mailbox| < SendBufSize
    ensures ClosedTarget(h, d + {u}) <==> ClosedTarget(h, d)
    ensures Kept(h, d + {u}, true) == Kept(h, d, true)
    ensures var id := h.clients[u];
      Fanned(h, d + {u}, e, true)
        == Fanned(h, d, e, true)[id := h.conns[id].(mailbox := h.conns[id].mailbox + [e])]
  {
    var id := h.clients[u];
    var c := h.conns[id];
    var d1 := d + {u};
    var f0 := Fanned(h, d, e, true);
    var f1 := Fanned(h, d1, e, true);
    forall k | k in h.conns
      ensures f1[k] == f0[id := c.(mailbox := c.mailbox + [e])][k]
    {
      if k == id {
        assert Hit(h, d1, k);
      } else {
        assert Hit(h, d1, k) <==> Hit(h, d, k);
      }
    }
    assert f1 == f0[id := c.(mailbox := c.mailbox + [e])];
  }

  /** Adding an open target with a full mailbox to a dropping fan-out's
      audience closes that client and deletes its user's entry. */
  lemma {:induction false} DeliverAddFull(h: Hub, d: set<Uuid>, u: Uuid, e: Event)
    requires Consistent(h) && d <= h.clients.Keys && u in h.clients && u !in d
    requires !h.conns[h.clients[u]].closed && |h.conns[h.clients[u]].mailbox| >= SendBufSize
    ensures ClosedTarget(h, d + {u}) <==> ClosedTarget(h, d)
    ensures Kept(h, d + {u}, true) == Kept(h, d, true) - {u}
    ensures var id := h.clients[u];
      Fanned(h, d + {u}, e, true) == Fanned(h, d, e, true)[id := h.conns[id].(closed := true)]
  {
    var id := h.clients[u];
    var c := h.conns[id];
    var d1 := d + {u};
    var f0 := Fanned(h, d, e, true);
    var f1 := Fanned(h, d1, e, true);
    forall k | k in h.conns
      ensures f1[k] == f0[id := c.(closed := true)][k]
    {
      if k == id {
        assert Hit(h, d1, k);
      } else {
        assert Hit(h, d1, k) <==> Hit(h, d, k);
      }
    }
    assert f1 == f0[id := c.(closed := true)];
    assert Kept(h, d1, true).Keys == (Kept(h, d, true) - {u}).Keys;
  }

  /** Adding a target that is closed makes the fan-out panic. */
  lemma {:induction false} DeliverAddClosed(h: Hub, d: set<Uuid>, u: Uuid)
    requires Consistent(h) && d <= h.clients.Keys && u in h.clients && h.conns[h.clients[u]].closed
    ensures ClosedTarget(h, d + {u})
  {
  }

  /** Having handled the users in `done`, handling `u` next gives the same
      hub as handling `done + {u}` at once. */
  lemma {:induction false} StepExtends(h: Hub, channelId: Uuid, e: Event, exclude: Option<Uuid>,
                                       done: set<Uuid>, u: Uuid)
    requires Consistent(h) && done <= h.clients.Keys && u in h.clients && u !in done
    requires Deliver(h, Targets(h, channelId, exclude) * done, e, true).Ok?
    ensures Consistent(Deliver(h, Targets(h, channelId, exclude) * done, e, true).value)
    ensures BroadcastStep(Deliver(h, Targets(h, channelId, exclude) * done, e, true).value,
                          u, channelId, e, exclude)
         == Deliver(h, Targets(h, channelId, exclude) * (done + {u}), e, true)
  {
    var t := Targets(h, channelId, exclude);
    var d0 := t * done;
    DeliverConsistent(h, d0, e, true);
    var s := Deliver(h, d0, e, true).value;
    var id := h.clients[u];
    var c := h.conns[id];
    assert !Hit(h, d0, id);
    assert s.conns[id] == c;
    assert u in s.clients && s.clients[u] == id;
    if u !in t {
      assert t * (done + {u}) == d0;
    } else {
      assert t * (done + {u}) == d0 + {u};
      if c.closed {
        DeliverAddClosed(h, d0, u);
      } else if |c.mailbox| < SendBufSize {
        DeliverAddRoom(h, d0, u, e);
      } else {
        DeliverAddFull(h, d0, u, e);
      }
    }
  }

  /** Taking one more user of a duplicate-free `order` adds exactly that
      user to the prefix. */
  lemma {:induction false} PrefixGrows(order: seq<Uuid>, i: nat)
    requires DistinctIds(order) && i < |order|
    ensures order[i] !in Prefix(order, i)
    ensures Prefix(order, i + 1) == Prefix(order, i) + {order[i]}
  {
  }

  /** A fan-out that panics on part of an audience panics on all of it. */
  lemma {:induction false} DeliverErrGrows(h: Hub, d: set<Uuid>, t: set<Uuid>, e: Event)
    requires Consistent(h) && d <= t <= h.clients.Keys
    requires Deliver(h, d, e, true).Err?
    ensures Deliver(h, t, e, true).Err?
  {
    DeliverEffect(h, d, e, true);
    DeliverEffect(h, t, e, true);
  }

  /** A fan-out to nobody changes nothing. */
  lemma {:induction false} DeliverNone(h: Hub, e: Event)
    requires Consistent(h)
    ensures Deliver(h, {}, e, true) == Ok(h)
  {
    var d := Deliver(h, {}, e, true).value;
    assert d.clients == h.clients;
    assert d.conns == h.conns;
  }

  /** One turn of the `broadcast` loop: having handled the first `i` users
      of `order`, handling the next one gives the fan-out to the first
      `i + 1`, or a panic that the whole fan-out also has. */
  lemma {:induction false} LoopStep(h: Hub, channelId: Uuid, e: Event, exclude: Option<Uuid>,
                                    order: seq<Uuid>, i: nat, s: Hub)
    requires Consistent(h) && DistinctIds(order) && i < |order|
    requires Prefix(order, i) <= h.clients.Keys && order[i] in h.clients
    requires Deliver(h, Targets(h, channelId, exclude) * Prefix(order, i), e, true) == Ok(s)
    ensures Consistent(s) && Prefix(order, i + 1) <= h.clients.Keys
    ensures var next := BroadcastStep(s, order[i], channelId, e, exclude);
      (next.Ok? ==> Deliver(h, Targets(h, channelId, exclude) * Prefix(order, i + 1), e, true) == next) &&
      (next.Err? ==> Deliver(h, Targets(h, channelId, exclude), e, true).Err?)
  {
    var t := Targets(h, channelId, exclude);
    PrefixGrows(order, i);
    StepExtends(h, channelId, e, exclude, Prefix(order, i), order[i]);
    if BroadcastStep(s, order[i], channelId, e, exclude).Err? {
      DeliverErrGrows(h, t * Prefix(order, i + 1), t, e);
    }
  }

  /** The `broadcast` case exactly as Go runs it: a `range` over the map in
      some order `order` (each registered user once, order unspecified),
      skipping excluded and unsubscribed entries and deleting-and-closing a
      client whose mailbox is full. Whatever the order, the outcome is
      `ChannelBroadcast`. */
  method RunBroadcast(h: Hub, channelId: Uuid, e: Event, exclude: Option<Uuid>, order: seq<Uuid>)
    returns (r: Result<Hub, Fault>)
    requires Consistent(h)
    requires DistinctIds(order) && forall u :: u in h.clients <==> u in order
    ensures r == ChannelBroadcast(h, channelId, e, exclude)
  {
    var t := Targets(h, channelId, exclude);
    assert Prefix(order, 0) == {};
    assert t * {} == {};
    DeliverNone(h, e);
    var s := h;
    var i := 0;
    while i < |order|
      invariant i <= |order|
      invariant Prefix(order, i) <= h.clients.Keys
      invariant Deliver(h, t * Prefix(order, i), e, true) == Ok(s)
    {
      LoopStep(h, channelId, e, exclude, order, i, s);
      var next := BroadcastStep(s, order[i], channelId, e, exclude);
      if next.Err? {
        return next;
      }
      s := next.value;
      i := i + 1;
    }
    PrefixWhole(order, h.clients.Keys, t);
    r := Ok(s);
  }

  /** The whole of `order` is every key it lists. */
  lemma {:induction false} PrefixWhole(order: seq<Uuid>, keys: set<Uuid>, t: set<Uuid>)
    requires forall u :: u in keys <==> u in order
    requires t <= keys
    ensures Prefix(order, |order|) == keys && t * Prefix(order, |order|) == t
  {
    forall u | u in keys
      ensures u in Prefix(order, |order|)
    {
      var j :| 0 <= j < |order| && order[j] == u;
    }
  }

  /** Every registered user except `u`: the audience of a presence event. */
  function Others(h: Hub, u: Uuid): (t: set<Uuid>)
    ensures t <= h.clients.Keys
    ensures forall v :: v in t <==> v in h.clients && v != u
  {
    h.clients.Keys - {u}
  }

  /** The envelope of `broadcastPresence`. */
  function PresenceEvent(u: Uuid, status: string, now: int): (e: Event)
    ensures e.kind == Presence && e.channelId.None? && e.payload == PresenceBody(u, status)
  {
    Event(Presence, None, PresenceBody(u, status), now)
  }

  /** `broadcastPresence`: one presence event offered to every registered
      client of another user; a full mailbox silently drops it, so the map
      never changes. `encodes` is whether the payload serialises. */
  function BroadcastPresence(h: Hub, u: Uuid, status: string, encodes: bool, now: int): (r: Result<Hub, Fault>)
    requires Consistent(h)
    ensures !encodes ==> r == Ok(h)
    ensures encodes ==> r == Deliver(h, Others(h, u), PresenceEvent(u, status, now), false)
    ensures r.Ok? ==> r.value.clients == h.clients
    ensures r.Ok? ==> Consistent(r.value)
  {
    match NewEvent(Presence, None, PresenceBody(u, status), encodes, now)
    case Err(_) => Ok(h)
    case Ok(e) =>
      DeliverEffect(h, Others(h, u), e, false);
      DeliverConsistent(h, Others(h, u), e, false);
      var r := Deliver(h, Others(h, u), e, false);
      assert r.Ok? ==> r.value.clients.Keys == h.clients.Keys;
      r
  }

  /** The hub right after the `register` case has stored the new client. */
  function Joined(h: Hub, id: ConnId, userId: Uuid): Hub {
    Hub(h.clients[userId := id], h.conns[id := NewClient(id, userId)])
  }

  /** The `online` announcement after a registration keeps the new entry
      and leaves the old clients alone when it does not serialise. */
  lemma {:induction false} RegisterEffect(h: Hub, id: ConnId, userId: Uuid, encodes: bool, now: int)
    requires Consistent(h) && id !in h.conns
    ensures Consistent(Joined(h, id, userId))
    ensures var r := BroadcastPresence(Joined(h, id, userId), userId, "online", encodes, now);
      r.Ok? ==> (r.value.clients == h.clients[userId := id] &&
                 r.value.conns.Keys == h.conns.Keys + {id} && r.value.conns[id] == NewClient(id, userId))
    ensures var r := BroadcastPresence(Joined(h, id, userId), userId, "online", encodes, now);
      r.Ok? && !encodes ==> forall k :: k in h.conns ==> r.value.conns[k] == h.conns[k]
  {
    var h1 := Joined(h, id, userId);
    var e := PresenceEvent(userId, "online", now);
    var t := Others(h1, userId);
    DeliverEffect(h1, t, e, false);
    var r := BroadcastPresence(h1, userId, "online", encodes, now);
    if r.Ok? && encodes {
      assert r == Deliver(h1, t, e, false);
      assert !Hit(h1, t, id);
    }
  }

  /** What the serialised `online` announcement does to each old client:
      it is offered to the registered clients of every other user. */
  lemma {:induction false} RegisterOffers(h: Hub, id: ConnId, userId: Uuid, now: int)
    requires Consistent(h) && id !in h.conns
    ensures Consistent(Joined(h, id, userId))
    ensures var r := BroadcastPresence(Joined(h, id, userId), userId, "online", true, now);
      r.Ok? ==> forall k :: k in h.conns ==>
        r.value.conns[k] == (if Holds(h, k) && h.conns[k].userId != userId
                             then Offered(h.conns[k], PresenceEvent(userId, "online", now), false)
                             else h.conns[k])
  {
    var h1 := Joined(h, id, userId);
    var e := PresenceEvent(userId, "online", now);
    var t := Others(h1, userId);
    DeliverEffect(h1, t, e, false);
    var r := BroadcastPresence(h1, userId, "online", true, now);
    if r.Ok? {
      assert r == Deliver(h1, t, e, false);
      forall k | k in h.conns
        ensures r.value.conns[k] == (if Holds(h, k) && h.conns[k].userId != userId
                                     then Offered(h.conns[k], e, false) else h.conns[k])
      {
        assert k != id && h1.conns[k] == h.conns[k];
        assert Hit(h1, t, k) <==> Holds(h, k) && h.conns[k].userId != userId;
      }
    }
  }

  /** The `register` case of `Run` for a freshly made client `id` of user
      `userId`: the user's entry now points at `id`, replacing any earlier
      client of that user (which stays open but unregistered); every other
      entry is unchanged, and every other user's client is offered `online`. */
  function Register(h: Hub, id: ConnId, userId: Uuid, encodes: bool, now: int): (r: Result<Hub, Fault>)
    requires Consistent(h) && id !in h.conns
    ensures r.Ok? ==> r.value.clients == h.clients[userId := id]
    ensures r.Ok? ==> r.value.conns.Keys == h.conns.Keys + {id} && r.value.conns[id] == NewClient(id, userId)
    ensures r.Ok? ==> Consistent(r.value)
    ensures r.Ok? && encodes ==> forall k :: k in h.conns ==>
      r.value.conns[k] == (if Holds(h, k) && h.conns[k].userId != userId
                           then Offered(h.conns[k], PresenceEvent(userId, "online", now), false)
                           else h.conns[k])
    ensures r.Ok? && !encodes ==> forall k :: k in h.conns ==> r.value.conns[k] == h.conns[k]
  {
    RegisterEffect(h, id, userId, encodes, now);
    if encodes then
      RegisterOffers(h, id, userId, now);
      BroadcastPresence(Joined(h, id, userId), userId, "online", true, now)
    else BroadcastPresence(Joined(h, id, userId), userId, "online", false, now)
  }

  lemma {:induction false} RegisterValid(h: Hub, id: ConnId, userId: Uuid, encodes: bool, now: int)
    requires Valid(h) && id !in h.conns
    ensures Register(h, id, userId, encodes, now).Ok?
    ensures Valid(Register(h, id, userId, encodes, now).value)
  {
    var h1 := Joined(h, id, userId);
    assert Valid(h1);
    if encodes {
      DeliverValid(h1, Others(h1, userId), PresenceEvent(userId, "online", now), false);
    }
  }

  /** The `unregister` case of `Run` as written: the entry is looked up by
      user id only. No entry: nothing happens. Otherwise that entry is
      deleted, whichever client it points at; the given client is closed
      (a panic if it already was); and `offline` is offered to every other
      registered user. */
  function Unregister(h: Hub, id: ConnId, encodes: bool, now: int): (r: Result<Hub, Fault>)
    requires Consistent(h) && id in h.conns
    ensures h.conns[id].userId !in h.clients ==> r == Ok(h)
    ensures h.conns[id].userId in h.clients && h.conns[id].closed ==> r == Err(CloseOfClosedChannel)
    ensures r.Ok? ==> r.value.conns.Keys == h.conns.Keys
    ensures r.Ok? && h.conns[id].userId in h.clients ==>
      r.value.clients == h.clients - {h.conns[id].userId} && r.value.conns[id].closed
    ensures r.Ok? && h.conns[id].userId in h.clients ==>
      forall k :: k in h.conns && k != id && !Holds(h, k) ==> r.value.conns[k] == h.conns[k]
  {
    var c := h.conns[id];
    if c.userId !in h.clients then Ok(h)
    else match Close(c)
      case Err(f) => Err(f)
      case Ok(c') =>
        var h1 := Hub(h.clients - {c.userId}, h.conns[id := c']);
        assert forall k :: k in h.conns && k != id && Holds(h1, k) ==> Holds(h, k);
        BroadcastPresence(h1, c.userId, "offline", encodes, now)
  }

  /** When the given client is the one registered, `Unregister` removes it,
      closes it and offers `offline` to every other registered client. */
  lemma {:induction false} UnregisterCurrent(h: Hub, id: ConnId, encodes: bool, now: int)
    requires Valid(h) && Holds(h, id)
    ensures Unregister(h, id, encodes, now).Ok?
    ensures Valid(Unregister(h, id, encodes, now).value)
    ensures var r := Unregister(h, id, encodes, now).value;
      !Holds(r, id) && r.conns[id].closed && r.conns[id].(closed := false) == h.conns[id] &&
      forall k :: k in h.conns && k != id ==>
        r.conns[k] == (if Holds(h, k) && encodes
                       then Offered(h.conns[k], PresenceEvent(h.conns[id].userId, "offline", now), false)
                       else h.conns[k])
  {
    var c := h.conns[id];
    var h1 := Hub(h.clients - {c.userId}, h.conns[id := c.(closed := true)]);
    assert Valid(h1);
    assert forall k :: k in h.conns && k != id ==> (Holds(h1, k) <==> Holds(h, k));
    if encodes {
      DeliverValid(h1, Others(h1, c.userId), PresenceEvent(c.userId, "offline", now), false);
    }
  }

  /** A stale client (its user's entry points at a newer client `cur`):
      unregistering it deletes the entry of `cur`, which stays open but can
      no longer be reached by any broadcast. */
  lemma {:induction false} StaleUnregisterOrphans(h: Hub, stale: ConnId, cur: ConnId, encodes: bool, now: int)
    requires Valid(h) && Holds(h, cur) && stale in h.conns && stale != cur
    requires h.conns[stale].userId == h.conns[cur].userId && !h.conns[stale].closed
    ensures Unregister(h, stale, encodes, now).Ok?
    ensures var r := Unregister(h, stale, encodes, now).value;
      !r.conns[cur].closed && !Holds(r, cur) && r.conns[stale].closed
  {
    var c := h.conns[stale];
    var h1 := Hub(h.clients - {c.userId}, h.conns[stale := c.(closed := true)]);
    assert Valid(h1);
    if encodes {
      DeliverValid(h1, Others(h1, c.userId), PresenceEvent(c.userId, "offline", now), false);
      assert !Hit(h1, Others(h1, c.userId), cur);
    }
  }

  /** Whichever client is unregistered, as long as its user has an entry
      and it is still open: the call succeeds, and `offline` is offered to
      every registered client of another user. On the stale path the
      user's newer client is not among them, although it is still live. */
  lemma {:induction false} UnregisterOffersOffline(h: Hub, id: ConnId, encodes: bool, now: int)
    requires Valid(h) && id in h.conns && h.conns[id].userId in h.clients && !h.conns[id].closed
    ensures Unregister(h, id, encodes, now).Ok?
    ensures var r := Unregister(h, id, encodes, now).value;
      forall k :: k in h.conns && k != id ==>
        r.conns[k] == (if Holds(h, k) && h.conns[k].userId != h.conns[id].userId && encodes
                       then Offered(h.conns[k], PresenceEvent(h.conns[id].userId, "offline", now), false)
                       else h.conns[k])
  {
    var c := h.conns[id];
    var h1 := Hub(h.clients - {c.userId}, h.conns[id := c.(closed := true)]);
    assert Valid(h1);
    assert forall k :: k in h.conns && k != id ==>
      (Holds(h1, k) <==> Holds(h, k) && h.conns[k].userId != c.userId);
    if encodes {
      DeliverValid(h1, Others(h1, c.userId), PresenceEvent(c.userId, "offline", now), false);
    }
  }

  /** The double close: a client dropped by a broadcast for a full mailbox
      is already closed; if its user reconnects before the dropped client's
      own `unregister` is processed, that `unregister` finds the user's
      (new) entry and closes the dropped client a second time. */
  lemma {:induction false} DroppedThenReconnectedPanics(
    h: Hub, dropped: ConnId, again: ConnId, channelId: Uuid, e: Event, encodes: bool, now: int)
    requires Valid(h) && Holds(h, dropped) && again !in h.conns
    requires IsSubscribed(h.conns[dropped], channelId) && |h.conns[dropped].mailbox| == SendBufSize
    ensures ChannelBroadcast(h, channelId, e, None).Ok?
    ensures var h2 := ChannelBroadcast(h, channelId, e, None).value;
      Consistent(h2) && again !in h2.conns &&
      Register(h2, again, h.conns[dropped].userId, encodes, now).Ok? &&
      Unregister(Register(h2, again, h.conns[dropped].userId, encodes, now).value, dropped, encodes, now)
        == Err(CloseOfClosedChannel)
  {
    var u := h.conns[dropped].userId;
    var t := Targets(h, channelId, None);
    DeliverValid(h, t, e, true);
    var h2 := ChannelBroadcast(h, channelId, e, None).value;
    assert u in t && IsFull(h, u);
    assert h2.conns[dropped].closed;
    RegisterValid(h2, again, u, encodes, now);
    var h3 := Register(h2, again, u, encodes, now).value;
    assert dropped != again;
    assert h3.conns[dropped] == h2.conns[dropped] by {
      assert !Holds(h2, dropped);
    }
    assert u in h3.clients;
  }

  /** `unregister` as evidently intended: act only when the given client is
      the one its user's entry points at. */
  function UnregisterOwn(h: Hub, id: ConnId, encodes: bool, now: int): (r: Result<Hub, Fault>)
    requires Consistent(h) && id in h.conns
    ensures !Holds(h, id) ==> r == Ok(h)
    ensures Holds(h, id) ==> r == Unregister(h, id, encodes, now)
  {
    if !Holds(h, id) then Ok(h) else Unregister(h, id, encodes, now)
  }

  /** The intended `unregister` never panics on a valid hub, keeps it valid
      and never touches another client's registration. */
  lemma {:induction false} UnregisterOwnValid(h: Hub, id: ConnId, encodes: bool, now: int)
    requires Valid(h) && id in h.conns
    ensures UnregisterOwn(h, id, encodes, now).Ok?
    ensures Valid(UnregisterOwn(h, id, encodes, now).value)
    ensures UnregisterOwn(h, id, encodes, now).value.clients ==
      if Holds(h, id) then h.clients - {h.conns[id].userId} else h.clients
  {
    if Holds(h, id) {
      UnregisterCurrent(h, id, encodes, now);
    }
  }

  /** Unregistering twice with nothing in between: the second is a no-op. */
  lemma {:induction false} UnregisterTwice(h: Hub, id: ConnId, encodes: bool, now: int)
    requires Valid(h) && id in h.conns && Unregister(h, id, encodes, now).Ok?
    ensures Consistent(Unregister(h, id, encodes, now).value)
    ensures id in Unregister(h, id, encodes, now).value.conns
    ensures Unregister(Unregister(h, id, encodes, now).value, id, encodes, now)
         == Unregister(h, id, encodes, now)
  {
    var r := Unregister(h, id, encodes, now);
    var u := h.conns[id].userId;
    if u in h.clients {
      var c' := h.conns[id].(closed := true);
      var h1 := Hub(h.clients - {u}, h.conns[id := c']);
      assert Consistent(h1);
      DeliverConsistent(h1, Others(h1, u), PresenceEvent(u, "offline", now), false);
    }
  }

  /** `BroadcastToUser`: the event is offered to the user's registered
      client, a full mailbox silently dropping it; an unregistered user or a
      payload that does not serialise leaves the hub unchanged. */
  function BroadcastToUser(h: Hub, userId: Uuid, e: Event, encodes: bool): (r: Result<Hub, Fault>)
    requires Consistent(h)
    ensures !encodes || userId !in h.clients ==> r == Ok(h)
    ensures r.Ok? ==> r.value.clients == h.clients
  {
    if !encodes || userId !in h.clients then Ok(h)
    else
      var id := h.clients[userId];
      match SendOrDrop(h.conns[id], e)
      case Err(f) => Err(f)
      case Ok(c) => Ok(h.(conns := h.conns[id := c]))
  }

  /** `BroadcastToUser` is the fan-out to the one-user audience. */
  lemma {:induction false} BroadcastToUserIsDeliver(h: Hub, userId: Uuid, e: Event)
    requires Consistent(h) && userId in h.clients
    ensures BroadcastToUser(h, userId, e, true) == Deliver(h, {userId}, e, false)
  {
    var id := h.clients[userId];
    var d := Deliver(h, {userId}, e, false);
    if d.Ok? {
      var want := BroadcastToUser(h, userId, e, true).value;
      assert forall k :: Hit(h, {userId}, k) <==> k == id;
      assert d.value.clients == want.clients;
      assert d.value.conns == want.conns;
    }
  }

  /** `HandleTyping` for an event that carries a channel id: `typing.stop`
      does nothing; `typing.start` broadcasts one `typing` event scoped to
      that channel, naming the sender, to everyone but the sender's user. */
  function HandleTyping(h: Hub, senderId: Uuid, ev: Event, encodes: bool, now: int): (r: Result<Hub, Fault>)
    requires Consistent(h) && ev.channelId.Some?
    ensures ev.kind != TypingStart || !encodes ==> r == Ok(h)
    ensures ev.kind == TypingStart && encodes ==>
      r == ChannelBroadcast(h, ev.channelId.value,
                            Event(Typing, ev.channelId, TypingBody(senderId, "", ""), now), Some(senderId))
  {
    var channelId := ev.channelId.value;
    if ev.kind != TypingStart then Ok(h)
    else match NewEvent(Typing, Some(channelId), TypingBody(senderId, "", ""), encodes, now)
      case Err(_) => Ok(h)
      case Ok(t) => BroadcastToChannel(h, channelId, t, Some(senderId), encodes)
  }

  /** The writer of client `id` has written the first `n` mailbox items. */
  function Consume(h: Hub, id: ConnId, n: nat): (r: Hub)
    requires id in h.conns && n <= |h.conns[id].mailbox|
    ensures r.clients == h.clients && r.conns.Keys == h.conns.Keys
    ensures r.conns[id] == h.conns[id].(mailbox := h.conns[id].mailbox[n..])
    ensures forall k :: k in h.conns && k != id ==> r.conns[k] == h.conns[k]
  {
    h.(conns := h.conns[id := h.conns[id].(mailbox := h.conns[id].mailbox[n..])])
  }

  lemma {:induction false} ConsumeValid(h: Hub, id: ConnId, n: nat)
    requires Valid(h) && id in h.conns && n <= |h.conns[id].mailbox|
    ensures Valid(Consume(h, id, n))
  {
  }
}

=== FILE: service_errors.dfy ===
/** The sentinel errors of the service layer (the `Err...` variables of each
    service file), plus the two kinds of error that are not sentinels: the
    ad-hoc `errors.New("user not found")` of workspace `AddMember`, and a
    failed repository write wrapped with context. */
module ServiceErrors {

  datatype Error =
    // workspace_service.go
    | WorkspaceNotFound | SlugTaken | NotWorkspaceOwner | NotMember | AlreadyMember
    | AdHocUserNotFound
    // channel_service.go
    | ChannelNotFound | ChannelNameTaken | NotChannelAdmin | NotChannelMember
    // message_service.go
    | MessageNotFound | NotMessageOwner
    // dm_service.go
    | DMConversationNotFound | DMNotParticipant | DMMessageNotFound | NotDMMessageOwner
    | CannotDMSelf | UserNotFound
    // pulsemate_service.go
    | CannotRequestSelf | UserNotFoundForRequest | RequestAlreadyExists | AlreadyPulsemates
    | RequestNotFound | NotRequestReceiver | NotRequestSender
    // a repository write that failed, with the context the service adds
    | StoreFailure(context: string)

  /** The text of each error. Several distinct sentinels share a text; they
      stay distinct values, as `errors.Is` tells them apart. */
  function Text(e: Error): string {
    match e
    case WorkspaceNotFound => "workspace not found"
    case SlugTaken => "workspace slug already taken"
    case NotWorkspaceOwner => "only workspace owner can perform this action"
    case NotMember => "user is not a member of this workspace"
    case AlreadyMember => "user is already a member"
    case AdHocUserNotFound => "user not found"
    case ChannelNotFound => "channel not found"
    case ChannelNameTaken => "channel name already exists in this workspace"
    case NotChannelAdmin => "only channel admin can perform this action"
    case NotChannelMember => "user is not a member of this channel"
    case MessageNotFound => "message not found"
    case NotMessageOwner => "only the message sender can perform this action"
    case DMConversationNotFound => "dm conversation not found"
    case DMNotParticipant => "you are not a participant of this conversation"
    case DMMessageNotFound => "dm message not found"
    case NotDMMessageOwner => "only the message sender can perform this action"
    case CannotDMSelf => "cannot start a conversation with yourself"
    case UserNotFound => "user not found"
    case CannotRequestSelf => "cannot send a pulsemate request to yourself"
    case UserNotFoundForRequest => "user not found"
    case RequestAlreadyExists => "a pending request already exists"
    case AlreadyPulsemates => "you are already pulsemates"
    case RequestNotFound => "pulsemate request not found"
    case NotRequestReceiver => "only the request receiver can perform this action"
    case NotRequestSender => "only the request sender can cancel"
    case StoreFailure(context) => context
  }
}

=== FILE: slug.dfy ===
/** `slugify` (service/workspace_service.go): lower-case the trimmed text,
    turn every character outside `[a-z0-9-]` into a dash, collapse runs of
    dashes into one, and strip dashes from both ends. */
module Slug {
  import opened Text
  import Validator

  /** Go's `unicode.ToLower` as far as `slugify` can observe it: ASCII
      capitals, plus the two non-ASCII code points whose lower case is an
      ASCII letter (U+0130 and U+212A); any other code point either is
      already in `[a-z0-9-]` or lower-cases to something outside it, which
      the next step replaces by a dash either way. */
  function LowerChar(c: char): char {
    if IsAsciiUpper(c) then (c as int + 32) as char
    else if c as int == 0x130 then 'i'
    else if c as int == 0x212A then 'k'
    else c
  }

  /** Go's `strings.ToLower`, one code point at a time. */
  function ToLower(s: string): (r: string)
    ensures |r| == |s| && forall i :: 0 <= i < |s| ==> r[i] == LowerChar(s[i])
  {
    seq(|s|, i requires 0 <= i < |s| => LowerChar(s[i]))
  }

  predicate IsDash(c: char) { c == '-' }
  predicate NotDash(c: char) { c != '-' }

  /** A letter or digit of the slug alphabet. */
  predicate SlugAlnum(c: char) { IsAsciiLower(c) || IsAsciiDigit(c) }

  /** `nonAlphanumeric.ReplaceAllString(s, "-")`: one dash per character
      outside `[a-z0-9-]`. */
  function ReplaceNonSlug(s: string): (r: string)
    ensures |r| == |s| && Validator.AllSlugChars(r)
    ensures forall i :: 0 <= i < |s| ==> (Validator.SlugChar(s[i]) ==> r[i] == s[i])
    ensures forall i :: 0 <= i < |s| ==> (!Validator.SlugChar(s[i]) ==> r[i] == '-')
  {
    seq(|s|, i requires 0 <= i < |s| => if Validator.SlugChar(s[i]) then s[i] else '-')
  }

  predicate NoDoubleDash(s: string) {
    forall i :: 0 <= i < |s| - 1 ==> !(s[i] == '-' && s[i + 1] == '-')
  }

  /** `multiDash.ReplaceAllString(s, "-")`: every run of two or more dashes
      becomes one. The result keeps the end characters and has no double
      dash; `CollapseKeepsAlphabet`, `CollapseKeepsNonDash` and
      `CollapseNoop` state what else it keeps. */
  function Collapse(s: string): (r: string)
    ensures |r| <= |s|
    ensures NoDoubleDash(r)
    ensures |s| > 0 ==> |r| > 0 && r[0] == s[0] && r[|r| - 1] == s[|s| - 1]
    decreases |s|
  {
    if |s| <= 1 then s
    else
      var rest := Collapse(s[1..]);
      if s[0] == '-' && s[1] == '-' then rest
      else
        var r := [s[0]] + rest;
        assert r[1..] == rest && r[1] == s[1];
        r
  }

  /** Collapsing adds no character outside the slug alphabet. */
  lemma {:induction false} CollapseKeepsAlphabet(s: string)
    requires Validator.AllSlugChars(s)
    ensures Validator.AllSlugChars(Collapse(s))
    decreases |s|
  {
    if |s| > 1 {
      assert Validator.AllSlugChars(s[1..]) by {
        assert forall i :: 0 <= i < |s[1..]| ==> s[1..][i] == s[i + 1];
      }
      CollapseKeepsAlphabet(s[1..]);
    }
  }

  /** Collapsing removes dashes only. */
  lemma {:induction false} CollapseKeepsNonDash(s: string)
    ensures Filter(Collapse(s), NotDash) == Filter(s, NotDash)
    decreases |s|
  {
    if |s| > 1 {
      CollapseKeepsNonDash(s[1..]);
      var rest := Collapse(s[1..]);
      if !(s[0] == '-' && s[1] == '-') {
        assert ([s[0]] + rest)[1..] == rest;
      }
    }
  }

  /** Text with no double dash is left as it is. */
  lemma {:induction false} CollapseNoop(s: string)
    requires NoDoubleDash(s)
    ensures Collapse(s) == s
    decreases |s|
  {
    if |s| > 1 {
      assert NoDoubleDash(s[1..]) by {
        assert forall i :: 0 <= i < |s[1..]| ==> s[1..][i] == s[i + 1];
      }
      CollapseNoop(s[1..]);
      assert !(s[0] == '-' && s[1] == '-');
      assert [s[0]] + s[1..] == s;
    }
  }

  /** `strings.Trim(s, "-")`. */
  function TrimDashes(s: string): string {
    TrimFunc(s, IsDash)
  }

  /** Trimming dashes leaves no dash at either end. */
  lemma {:induction false} TrimDashesEnds(s: string)
    ensures var r := TrimDashes(s); |r| > 0 ==> r[0] != '-' && r[|r| - 1] != '-'
  {
    var l := TrimLeftFunc(s, IsDash);
    var r := TrimRightFunc(l, IsDash);
    assert TrimDashes(s) == r;
    if |r| > 0 {
      assert r == l[..|r|];
      assert r[0] == l[0] && !IsDash(l[0]);
      assert !IsDash(r[|r| - 1]);
    }
  }

  lemma {:induction false} SliceKeepsShape(t: string, k: nat, n: nat)
    requires k + n <= |t|
    ensures Validator.AllSlugChars(t) ==> Validator.AllSlugChars(t[k..k + n])
    ensures NoDoubleDash(t) ==> NoDoubleDash(t[k..k + n])
  {
    var r := t[k..k + n];
    assert forall i :: 0 <= i < n ==> r[i] == t[k + i];
  }

  /** Trimming dashes keeps an infix of its input, so it adds no characters
      and no double dashes. */
  lemma {:induction false} TrimDashesInfix(s: string)
    ensures var r := TrimDashes(s);
      (Validator.AllSlugChars(s) ==> Validator.AllSlugChars(r)) && (NoDoubleDash(s) ==> NoDoubleDash(r))
  {
    var l := TrimLeftFunc(s, IsDash);
    var r := TrimRightFunc(l, IsDash);
    var k := |s| - |l|;
    assert l == s[k..];
    assert r == l[..|r|];
    assert r == s[k..k + |r|];
    SliceKeepsShape(s, k, |r|);
  }

  /** Trimming leading dashes removes only dashes. */
  lemma {:induction false} TrimLeftDashesFilter(s: string)
    ensures Filter(TrimLeftFunc(s, IsDash), NotDash) == Filter(s, NotDash)
    decreases |s|
  {
    if |s| > 0 && IsDash(s[0]) {
      TrimLeftDashesFilter(s[1..]);
    }
  }

  /** Trimming trailing dashes removes only dashes. */
  lemma {:induction false} TrimRightDashesFilter(s: string)
    ensures Filter(TrimRightFunc(s, IsDash), NotDash) == Filter(s, NotDash)
    decreases |s|
  {
    if |s| > 0 && IsDash(s[|s| - 1]) {
      var init := s[..|s| - 1];
      TrimRightDashesFilter(init);
      assert s == init + [s[|s| - 1]];
      FilterAppend(init, [s[|s| - 1]], NotDash);
      assert Filter([s[|s| - 1]], NotDash) == "";
    }
  }

  /** Trimming dashes removes only dashes. */
  lemma {:induction false} TrimDashesFilter(s: string)
    ensures Filter(TrimDashes(s), NotDash) == Filter(s, NotDash)
  {
    TrimLeftDashesFilter(s);
    TrimRightDashesFilter(TrimLeftFunc(s, IsDash));
  }

  lemma {:induction false} TrimDashesShape(s: string)
    ensures var r := TrimDashes(s);
      (Validator.AllSlugChars(s) ==> Validator.AllSlugChars(r)) &&
      (NoDoubleDash(s) ==> NoDoubleDash(r)) &&
      (|r| > 0 ==> r[0] != '-' && r[|r| - 1] != '-') &&
      Filter(r, NotDash) == Filter(s, NotDash)
  {
    TrimDashesEnds(s);
    TrimDashesInfix(s);
    TrimDashesFilter(s);
  }

  /** `slugify`. */
  function Slugify(s: string): string {
    TrimDashes(Collapse(ReplaceNonSlug(ToLower(TrimSpace(s)))))
  }

  /** The letters and digits of the lower-cased, trimmed input, in order. */
  function Alnums(s: string): string {
    Filter(ToLower(TrimSpace(s)), SlugAlnum)
  }

  lemma {:induction false} ReplaceKeepsAlnums(s: string)
    ensures Filter(ReplaceNonSlug(s), NotDash) == Filter(s, SlugAlnum)
    decreases |s|
  {
    if |s| > 0 {
      ReplaceKeepsAlnums(s[1..]);
      assert ReplaceNonSlug(s)[1..] == ReplaceNonSlug(s[1..]);
    }
  }

  /** The output uses only `[a-z0-9-]`, never has two dashes in a row and
      neither starts nor ends with a dash. */
  lemma {:induction false} SlugifyShape(s: string)
    ensures var r := Slugify(s);
      Validator.AllSlugChars(r) && NoDoubleDash(r) && (|r| > 0 ==> r[0] != '-' && r[|r| - 1] != '-')
  {
    var x := ReplaceNonSlug(ToLower(TrimSpace(s)));
    CollapseKeepsAlphabet(x);
    TrimDashesShape(Collapse(x));
  }

  /** Nothing but dashes is added or removed: the non-dash characters of the
      slug are exactly the letters and digits of the lower-cased input. */
  lemma {:induction false} SlugifyKeepsAlnums(s: string)
    ensures Filter(Slugify(s), NotDash) == Alnums(s)
  {
    var x := ToLower(TrimSpace(s));
    TrimDashesShape(Collapse(ReplaceNonSlug(x)));
    CollapseKeepsNonDash(ReplaceNonSlug(x));
    ReplaceKeepsAlnums(x);
  }

  /** The slug is empty exactly when the input has no letter or digit. */
  lemma {:induction false} SlugifyEmptyIff(s: string)
    ensures Slugify(s) == "" <==> Alnums(s) == ""
  {
    SlugifyShape(s);
    SlugifyKeepsAlnums(s);
    var r := Slugify(s);
    if r != "" {
      FilterSome(r, NotDash, 0);
    }
  }

  lemma {:induction false} ToLowerSlugNoop(r: string)
    requires Validator.AllSlugChars(r)
    ensures ToLower(r) == r
  {
  }

  lemma {:induction false} ReplaceSlugNoop(r: string)
    requires Validator.AllSlugChars(r)
    ensures ReplaceNonSlug(r) == r
  {
  }

  /** A string already in slug shape is its own slug. */
  lemma {:induction false} SlugNoop(r: string)
    requires Validator.AllSlugChars(r) && NoDoubleDash(r)
    requires |r| > 0 ==> r[0] != '-' && r[|r| - 1] != '-'
    ensures Slugify(r) == r
  {
    TrimFuncNoop(r, IsSpace);
    assert TrimSpace(r) == r;
    ToLowerSlugNoop(r);
    ReplaceSlugNoop(r);
    CollapseNoop(r);
    TrimFuncNoop(r, IsDash);
  }

  /** A slug is a fixed point of `slugify`. */
  lemma {:induction false} SlugifyIdempotent(s: string)
    ensures Slugify(Slugify(s)) == Slugify(s)
  {
    SlugifyShape(s);
    SlugNoop(Slugify(s));
  }

  /** Slugs of 2 to 100 bytes pass the slug validator. */
  lemma {:induction false} SlugifyPassesValidator(s: string)
    requires 2 <= ByteLen(Slugify(s)) <= 100
    ensures Validator.SlugOk(Slugify(s))
  {
    var r := Slugify(s);
    SlugifyShape(s);
    TrimFuncNoop(r, IsSpace);
  }
}

=== FILE: store.dfy ===
/** The in-memory stand-in for the postgres repositories the services use.
    Tables searched by a column other than the key (a slug, a user pair, a
    username) are sequences in insertion order, and a lookup returns the
    first matching row, as `QueryRow` returns one row. Membership tables are
    maps from (container id, user id) to the member's role. */
module Store {
  import opened Base
  import opened Domain

  datatype Db = Db(
    users: seq<User>,
    workspaces: seq<Workspace>,
    workspaceMembers: map<(Uuid, Uuid), string>,
    channels: seq<Channel>,
    channelMembers: map<(Uuid, Uuid), string>,
    messages: seq<Message>,
    conversations: seq<Conversation>,
    dmMessages: seq<DMMessage>,
    requests: seq<PulsemateRequest>,
    pulsemates: set<(Uuid, Uuid)>)

  const EmptyDb := Db([], [], map[], [], map[], [], [], [], [], {})

  /** The first row satisfying `p`. */
  function Find<T>(rows: seq<T>, p: T -> bool): (r: Option<nat>)
    ensures r.Some? ==> r.value < |rows| && p(rows[r.value])
    ensures r.Some? ==> forall j :: 0 <= j < r.value ==> !p(rows[j])
    ensures r.None? ==> forall j :: 0 <= j < |rows| ==> !p(rows[j])
    decreases |rows|
  {
    if |rows| == 0 then None
    else if p(rows[0]) then Some(0)
    else match Find(rows[1..], p)
      case None => None
      case Some(k) => Some(k + 1)
  }

  /** The rows not satisfying `p`, in order (`DELETE ... WHERE p`). */
  function Remove<T>(rows: seq<T>, p: T -> bool): (r: seq<T>)
    ensures |r| <= |rows|
    ensures forall j :: 0 <= j < |r| ==> !p(r[j]) && r[j] in rows
    ensures forall x :: x in rows && !p(x) ==> x in r
    decreases |rows|
  {
    if |rows| == 0 then []
    else (if p(rows[0]) then [] else [rows[0]]) + Remove(rows[1..], p)
  }

  /** The rows satisfying `p`, in order (`SELECT ... WHERE p`). */
  function Select<T>(rows: seq<T>, p: T -> bool): (r: seq<T>)
    ensures |r| <= |rows|
    ensures forall j :: 0 <= j < |r| ==> p(r[j]) && r[j] in rows
    ensures forall x :: x in rows && p(x) ==> x in r
    decreases |rows|
  {
    if |rows| == 0 then []
    else (if p(rows[0]) then [rows[0]] else []) + Select(rows[1..], p)
  }

  lemma {:induction false} SelectAppend<T>(a: seq<T>, b: seq<T>, p: T -> bool)
    ensures Select(a + b, p) == Select(a, p) + Select(b, p)
    decreases |a|
  {
    if |a| > 0 {
      assert (a + b)[1..] == a[1..] + b;
      SelectAppend(a[1..], b, p);
    } else {
      assert a + b == b;
    }
  }

  /** Deleting where no row matches keeps every row. */
  lemma {:induction false} RemoveNone<T>(rows: seq<T>, p: T -> bool)
    requires forall j :: 0 <= j < |rows| ==> !p(rows[j])
    ensures Remove(rows, p) == rows
    decreases |rows|
  {
    if |rows| > 0 {
      RemoveNone(rows[1..], p);
    }
  }

  /** Deleting where exactly row `k` matches drops row `k` and keeps the
      others in order. */
  lemma {:induction false} RemoveOne<T>(rows: seq<T>, p: T -> bool, k: nat)
    requires k < |rows| && p(rows[k])
    requires forall j :: 0 <= j < |rows| && j != k ==> !p(rows[j])
    ensures Remove(rows, p) == rows[..k] + rows[k + 1..]
    decreases k
  {
    var tail := rows[1..];
    TailAvoids(rows, p, k);
    if k == 0 {
      RemoveNone(tail, p);
      assert rows[..0] + rows[1..] == tail;
    } else {
      RemoveOne(tail, p, k - 1);
      RemoveKeptHead(rows, p);
      SplitAround(rows, k);
    }
  }

  /** The rows after the first, other than the one matching at `k`, do not
      match. */
  lemma {:induction false} TailAvoids<T>(rows: seq<T>, p: T -> bool, k: nat)
    requires k < |rows|
    requires forall j :: 0 <= j < |rows| && j != k ==> !p(rows[j])
    ensures forall j :: 0 <= j < |rows[1..]| && j != k - 1 ==> !p(rows[1..][j])
  {
    forall j | 0 <= j < |rows[1..]| && j != k - 1
      ensures !p(rows[1..][j])
    {
      assert rows[1..][j] == rows[j + 1];
    }
  }

  /** Row `k` dropped, seen from the second row on. */
  lemma {:induction false} SplitAround<T>(rows: seq<T>, k: nat)
    requires 0 < k < |rows|
    ensures [rows[0]] + (rows[1..][..k - 1] + rows[1..][k..]) == rows[..k] + rows[k + 1..]
  {
    assert [rows[0]] + rows[1..][..k - 1] == rows[..k];
    assert rows[1..][k..] == rows[k + 1..];
  }

  /** A first row that does not match is kept in front. */
  lemma {:induction false} RemoveKeptHead<T>(rows: seq<T>, p: T -> bool)
    requires |rows| > 0 && !p(rows[0])
    ensures Remove(rows, p) == [rows[0]] + Remove(rows[1..], p)
  {
  }

  /** What a service call produced: the new store, its result, and the
      notifier calls it made, in order. */
  datatype Effect<T> = Effect(db: Db, value: T, notices: seq<Notice>)

  /** What a call that writes more than once leaves behind: the store after
      it, whatever it answered, and its answer. A failure of a later write
      keeps the earlier writes. */
  datatype Written<T, E> = Written(db: Db, answer: Result<T, E>)

  /** Row `i` replaced by `x` (`UPDATE ... WHERE id = ...`). */
  function Replace<T>(rows: seq<T>, i: nat, x: T): (r: seq<T>)
    requires i < |rows|
    ensures |r| == |rows| && r[i] == x
    ensures forall j :: 0 <= j < |rows| && j != i ==> r[j] == rows[j]
  {
    rows[i := x]
  }

  function UserById(db: Db, id: Uuid): Option<User> {
    match Find(db.users, (u: User) => u.id == id)
    case None => None
    case Some(k) => Some(db.users[k])
  }

  function UserByUsername(db: Db, username: string): Option<User> {
    match Find(db.users, (u: User) => u.username == username)
    case None => None
    case Some(k) => Some(db.users[k])
  }

  function WorkspaceIndex(db: Db, id: Uuid): Option<nat> {
    Find(db.workspaces, (w: Workspace) => w.id == id)
  }

  function ChannelIndex(db: Db, id: Uuid): Option<nat> {
    Find(db.channels, (c: Channel) => c.id == id)
  }

  /** The role of `userId` in `workspaceId`, if a member. */
  function WorkspaceRole(db: Db, workspaceId: Uuid, userId: Uuid): Option<string> {
    if (workspaceId, userId) in db.workspaceMembers then Some(db.workspaceMembers[(workspaceId, userId)]) else None
  }

  /** The role of `userId` in `channelId`, if a member. */
  function ChannelRole(db: Db, channelId: Uuid, userId: Uuid): Option<string> {
    if (channelId, userId) in db.channelMembers then Some(db.channelMembers[(channelId, userId)]) else None
  }
}

=== FILE: text.dfy ===
/** The parts of Go's `strings` and `unicode` packages that the validators and
    `slugify` rely on, over `string` = sequence of Unicode scalar values. */
module Text {

  /** Number of bytes UTF-8 uses for one code point. */
  function Utf8Width(c: char): (n: nat)
    ensures 1 <= n <= 4
    ensures n == 1 <==> c as int < 0x80
  {
    if c as int < 0x80 then 1
    else if c as int < 0x800 then 2
    else if c as int < 0x1_0000 then 3
    else 4
  }

  /** Go's `len(s)`: the length of the UTF-8 encoding of `s` in bytes. */
  function ByteLen(s: string): (n: nat)
    ensures |s| <= n <= 4 * |s|
    ensures n == |s| <==> forall i :: 0 <= i < |s| ==> s[i] as int < 0x80
  {
    if |s| == 0 then 0 else Utf8Width(s[0]) + ByteLen(s[1..])
  }

  /** Go's `unicode.IsSpace`: the Latin-1 spaces plus the other code points
      with the Unicode White_Space property. */
  predicate IsSpace(c: char) {
    var n := c as int;
    n == 0x09 || n == 0x0A || n == 0x0B || n == 0x0C || n == 0x0D || n == 0x20
    || n == 0x85 || n == 0xA0 || n == 0x1680 || (0x2000 <= n <= 0x200A)
    || n == 0x2028 || n == 0x2029 || n == 0x202F || n == 0x205F || n == 0x3000
  }

  /** Go's `strings.TrimLeftFunc`. */
  function TrimLeftFunc(s: string, p: char -> bool): (r: string)
    ensures |r| <= |s| && r == s[|s| - |r|..]
    ensures |r| > 0 ==> !p(r[0])
    ensures forall i :: 0 <= i < |s| - |r| ==> p(s[i])
  {
    if |s| > 0 && p(s[0]) then
      var r := TrimLeftFunc(s[1..], p);
      assert forall i :: 1 <= i < |s| - |r| ==> s[i] == s[1..][i - 1];
      r
    else s
  }

  /** Go's `strings.TrimRightFunc`. */
  function TrimRightFunc(s: string, p: char -> bool): (r: string)
    ensures |r| <= |s| && r == s[..|r|]
    ensures |r| > 0 ==> !p(r[|r| - 1])
    ensures forall i :: |r| <= i < |s| ==> p(s[i])
  {
    if |s| > 0 && p(s[|s| - 1]) then
      var r := TrimRightFunc(s[..|s| - 1], p);
      assert forall i :: |r| <= i < |s| - 1 ==> s[i] == s[..|s| - 1][i];
      r
    else s
  }

  /** Go's `strings.TrimFunc`: the longest infix whose ends fail `p`. */
  function TrimFunc(s: string, p: char -> bool): string {
    TrimRightFunc(TrimLeftFunc(s, p), p)
  }

  /** Go's `strings.TrimSpace`. */
  function TrimSpace(s: string): string {
    TrimFunc(s, IsSpace)
  }

  /** A string no end of which satisfies `p` is left alone by `TrimFunc`. */
  lemma {:induction false} TrimFuncNoop(s: string, p: char -> bool)
    requires |s| > 0 ==> !p(s[0]) && !p(s[|s| - 1])
    ensures TrimFunc(s, p) == s
  {
  }

  predicate IsAsciiUpper(c: char) { 'A' <= c <= 'Z' }
  predicate IsAsciiLower(c: char) { 'a' <= c <= 'z' }
  predicate IsAsciiDigit(c: char) { '0' <= c <= '9' }

  /** Go's `strings.Join`. */
  function Join(parts: seq<string>, sep: string): string
  {
    if |parts| == 0 then ""
    else if |parts| == 1 then parts[0]
    else parts[0] + sep + Join(parts[1..], sep)
  }

  /** The characters of `s` that satisfy `p`, in order. */
  function Filter(s: string, p: char -> bool): (r: string)
    ensures |r| <= |s|
    ensures forall i :: 0 <= i < |r| ==> p(r[i])
  {
    if |s| == 0 then "" else (if p(s[0]) then [s[0]] else "") + Filter(s[1..], p)
  }

  lemma {:induction false} FilterAppend(a: string, b: string, p: char -> bool)
    ensures Filter(a + b, p) == Filter(a, p) + Filter(b, p)
    decreases |a|
  {
    if |a| == 0 {
      assert a + b == b;
    } else {
      assert (a + b)[0] == a[0];
      assert (a + b)[1..] == a[1..] + b;
      FilterAppend(a[1..], b, p);
    }
  }

  /** Filtering out nothing but failures leaves nothing. */
  lemma {:induction false} FilterNone(s: string, p: char -> bool)
    requires forall i :: 0 <= i < |s| ==> !p(s[i])
    ensures Filter(s, p) == ""
    decreases |s|
  {
    if |s| > 0 {
      FilterNone(s[1..], p);
    }
  }

  /** A character satisfying `p` survives the filter. */
  lemma {:induction false} FilterSome(s: string, p: char -> bool, i: nat)
    requires i < |s| && p(s[i])
    ensures Filter(s, p) != ""
    decreases |s|
  {
    if i > 0 && !p(s[0]) {
      FilterSome(s[1..], p, i - 1);
    }
  }
}

=== FILE: validator.dfy ===
/** The request validators of backend/pkg/validator: each returns a map from
    field name to one human-readable message; an empty map means valid. */
module Validator {
  import opened Base
  import opened Text

  /** Go's `ValidationErrors`: field name to message. */
  type Errors = map<string, string>

  /** `HasErrors`: the map is non-empty. */
  predicate HasErrors(e: Errors) {
    |e| > 0
  }

  lemma {:induction false} HasErrorsIffSomeField(e: Errors)
    ensures HasErrors(e) <==> exists f :: f in e
  {
    if !HasErrors(e) {
      assert e == map[];
    } else {
      assert e != map[];
      var f :| f in e.Keys;
    }
  }

  lemma {:induction false} NoErrorsIff(e: Errors)
    ensures !HasErrors(e) <==> e.Keys == {}
  {
    assert |e.Keys| == |e|;
  }

  /** `Add`: records `message` for `field`, replacing an earlier message. */
  function Add(e: Errors, field: string, message: string): (r: Errors)
    ensures r.Keys == e.Keys + {field}
    ensures r[field] == message
    ensures forall f :: f in e && f != field ==> r[f] == e[f]
  {
    e[field := message]
  }

  /** Records the message for `field` when there is one. */
  function Put(e: Errors, field: string, message: Option<string>): (r: Errors)
    ensures r.Keys == e.Keys + (if message.Some? then {field} else {})
    ensures message.Some? ==> r[field] == message.value
    ensures forall f :: f in e && f != field ==> r[f] == e[f]
  {
    if message.Some? then Add(e, field, message.value) else e
  }

  /** Four `Put`s in a row on distinct fields, starting from no errors. */
  function Put4(f1: string, m1: Option<string>, f2: string, m2: Option<string>,
                f3: string, m3: Option<string>, f4: string, m4: Option<string>): (r: Errors)
    requires f1 != f2 && f1 != f3 && f1 != f4 && f2 != f3 && f2 != f4 && f3 != f4
    ensures r.Keys <= {f1, f2, f3, f4}
    ensures (f1 in r <==> m1.Some?) && (f1 in r ==> Some(r[f1]) == m1)
    ensures (f2 in r <==> m2.Some?) && (f2 in r ==> Some(r[f2]) == m2)
    ensures (f3 in r <==> m3.Some?) && (f3 in r ==> Some(r[f3]) == m3)
    ensures (f4 in r <==> m4.Some?) && (f4 in r ==> Some(r[f4]) == m4)
  {
    Put(Put(Put(Put(map[], f1, m1), f2, m2), f3, m3), f4, m4)
  }

  // ---------------------------------------------------------------------
  // Character classes of the two regular expressions.

  /** One character of `^[a-zA-Z0-9_-]+$`. */
  predicate UsernameChar(c: char) {
    IsAsciiUpper(c) || IsAsciiLower(c) || IsAsciiDigit(c) || c == '_' || c == '-'
  }

  /** One character of `^[a-z0-9-]+$`. */
  predicate SlugChar(c: char) {
    IsAsciiLower(c) || IsAsciiDigit(c) || c == '-'
  }

  predicate AllUsernameChars(s: string) {
    forall i :: 0 <= i < |s| ==> UsernameChar(s[i])
  }

  predicate AllSlugChars(s: string) {
    forall i :: 0 <= i < |s| ==> SlugChar(s[i])
  }

  // ---------------------------------------------------------------------
  // What each field must satisfy, stated independently of the checks.

  predicate EmailOk(email: string, parses: string -> bool) {
    var t := TrimSpace(email);
    t != "" && parses(t)
  }

  predicate UsernameOk(username: string) {
    var t := TrimSpace(username);
    3 <= ByteLen(t) <= 50 && AllUsernameChars(t)
  }

  /** A trimmed name of 2 to 100 bytes (display, workspace and channel names). */
  predicate NameOk(name: string) {
    2 <= ByteLen(TrimSpace(name)) <= 100
  }

  predicate HasUpper(p: string) { exists i :: 0 <= i < |p| && IsAsciiUpper(p[i]) }
  predicate HasLower(p: string) { exists i :: 0 <= i < |p| && IsAsciiLower(p[i]) }
  predicate HasDigit(p: string) { exists i :: 0 <= i < |p| && IsAsciiDigit(p[i]) }

  predicate PasswordOk(p: string) {
    ByteLen(p) >= 8 && HasUpper(p) && HasLower(p) && HasDigit(p)
  }

  /** An absent slug (empty after trimming) or 2 to 100 slug characters. */
  predicate SlugOk(slug: string) {
    var t := TrimSpace(slug);
    t == "" || (2 <= ByteLen(t) <= 100 && AllSlugChars(t))
  }

  predicate ChannelTypeOk(t: string) {
    t in {"", "public", "private", "dm"}
  }

  // ---------------------------------------------------------------------
  // The per-field checks, in the order the source tests them.

  /** The first failing length check of a required, trimmed field. */
  function LengthError(t: string, min: nat, max: nat,
                       required: string, tooShort: string, tooLong: string): (r: Option<string>)
    ensures r.None? <==> t != "" && min <= ByteLen(t) <= max
    ensures r.Some? ==> r.value in {required, tooShort, tooLong}
    ensures t == "" ==> r == Some(required)
    ensures t != "" && ByteLen(t) < min ==> r == Some(tooShort)
    ensures t != "" && min <= ByteLen(t) && max < ByteLen(t) ==> r == Some(tooLong)
  {
    if t == "" then Some(required)
    else if ByteLen(t) < min then Some(tooShort)
    else if ByteLen(t) > max then Some(tooLong)
    else None
  }

  function EmailError(email: string, parses: string -> bool): (r: Option<string>)
    ensures r.None? <==> EmailOk(email, parses)
    ensures TrimSpace(email) == "" ==> r == Some("Email is required")
    ensures TrimSpace(email) != "" && !parses(TrimSpace(email)) ==> r == Some("Invalid email address")
  {
    var t := TrimSpace(email);
    if t == "" then Some("Email is required")
    else if !parses(t) then Some("Invalid email address")
    else None
  }

  function UsernameError(username: string): (r: Option<string>)
    ensures r.None? <==> UsernameOk(username)
    ensures var t := TrimSpace(username);
      (t == "" ==> r == Some("Username is required")) &&
      (t != "" && ByteLen(t) < 3 ==> r == Some("Username must be at least 3 characters")) &&
      (3 <= ByteLen(t) && 50 < ByteLen(t) ==> r == Some("Username is too long")) &&
      (3 <= ByteLen(t) <= 50 && !AllUsernameChars(t) ==>
         r == Some("Username can only contain letters, numbers, _ and -"))
  {
    var t := TrimSpace(username);
    var l := LengthError(t, 3, 50, "Username is required",
                         "Username must be at least 3 characters", "Username is too long");
    if l.Some? then l
    else if !AllUsernameChars(t) then Some("Username can only contain letters, numbers, _ and -")
    else None
  }

  function DisplayNameError(displayName: string): (r: Option<string>)
    ensures r.None? <==> NameOk(displayName)
    ensures var t := TrimSpace(displayName);
      (t == "" ==> r == Some("Display name is required")) &&
      (t != "" && ByteLen(t) < 2 ==> r == Some("Display name must be at least 2 characters")) &&
      (2 <= ByteLen(t) && 100 < ByteLen(t) ==> r == Some("Display name is too long"))
  {
    LengthError(TrimSpace(displayName), 2, 100, "Display name is required",
                "Display name must be at least 2 characters", "Display name is too long")
  }

  /** The classes seen by the loop of `validatePassword`. */
  datatype Classes = Classes(upper: bool, lower: bool, digit: bool)

  function ScanClasses(p: string): (c: Classes)
    ensures c.upper <==> HasUpper(p)
    ensures c.lower <==> HasLower(p)
    ensures c.digit <==> HasDigit(p)
  {
    if |p| == 0 then Classes(false, false, false)
    else
      var rest := ScanClasses(p[1..]);
      assert forall i :: 1 <= i < |p| ==> p[i] == p[1..][i - 1];
      assert HasUpper(p[1..]) ==> HasUpper(p) by {
        if HasUpper(p[1..]) { var i :| 0 <= i < |p[1..]| && IsAsciiUpper(p[1..][i]); assert IsAsciiUpper(p[i + 1]); }
      }
      assert HasLower(p[1..]) ==> HasLower(p) by {
        if HasLower(p[1..]) { var i :| 0 <= i < |p[1..]| && IsAsciiLower(p[1..][i]); assert IsAsciiLower(p[i + 1]); }
      }
      assert HasDigit(p[1..]) ==> HasDigit(p) by {
        if HasDigit(p[1..]) { var i :| 0 <= i < |p[1..]| && IsAsciiDigit(p[1..][i]); assert IsAsciiDigit(p[i + 1]); }
      }
      var c := p[0];
      if IsAsciiUpper(c) then rest.(upper := true)
      else if IsAsciiLower(c) then rest.(lower := true)
      else if IsAsciiDigit(c) then rest.(digit := true)
      else rest
  }

  /** The missing classes, in the order uppercase, lowercase, number. */
  function MissingClasses(p: string): (m: seq<string>)
    ensures |m| <= 3
    ensures m == [] <==> HasUpper(p) && HasLower(p) && HasDigit(p)
    ensures m == (if HasUpper(p) then [] else ["one uppercase letter"])
               + (if HasLower(p) then [] else ["one lowercase letter"])
               + (if HasDigit(p) then [] else ["one number"])
  {
    var c := ScanClasses(p);
    (if c.upper then [] else ["one uppercase letter"])
    + (if c.lower then [] else ["one lowercase letter"])
    + (if c.digit then [] else ["one number"])
  }

  const PasswordTooShort := "Password must be at least 8 characters"

  /** `validatePassword`: the length check alone for short passwords; else one
      message naming every missing class. */
  function PasswordError(p: string): (r: Option<string>)
    ensures r.None? <==> PasswordOk(p)
    ensures ByteLen(p) < 8 ==> r == Some(PasswordTooShort)
    ensures ByteLen(p) >= 8 && r.Some? ==>
      r.value == "Password must contain at least " + Join(MissingClasses(p), ", ")
  {
    if ByteLen(p) < 8 then Some(PasswordTooShort)
    else
      var missing := MissingClasses(p);
      if |missing| > 0 then Some("Password must contain at least " + Join(missing, ", ")) else None
  }

  function SlugError(slug: string): (r: Option<string>)
    ensures r.None? <==> SlugOk(slug)
    ensures TrimSpace(slug) == "" ==> r.None?
    ensures var t := TrimSpace(slug);
      (t != "" && ByteLen(t) < 2 ==> r == Some("Slug must be at least 2 characters")) &&
      (2 <= ByteLen(t) && 100 < ByteLen(t) ==> r == Some("Slug is too long")) &&
      (2 <= ByteLen(t) <= 100 && !AllSlugChars(t) ==>
         r == Some("Slug can only contain lowercase letters, numbers and dashes"))
  {
    var t := TrimSpace(slug);
    if t == "" then None
    else if ByteLen(t) < 2 then Some("Slug must be at least 2 characters")
    else if ByteLen(t) > 100 then Some("Slug is too long")
    else if !AllSlugChars(t) then Some("Slug can only contain lowercase letters, numbers and dashes")
    else None
  }

  function ChannelTypeError(t: string): (r: Option<string>)
    ensures r.None? <==> ChannelTypeOk(t)
    ensures r.Some? ==> r.value == "Channel type must be public, private, or dm"
  {
    if t != "" && t != "public" && t != "private" && t != "dm" then
      Some("Channel type must be public, private, or dm")
    else None
  }

  // ---------------------------------------------------------------------
  // The exported validators. `parses` stands for `mail.ParseAddress`
  // succeeding on the trimmed address.

  function ValidateRegister(email: string, username: string, displayName: string,
                            password: string, parses: string -> bool): (r: Errors)
    ensures r.Keys <= {"email", "username", "display_name", "password"}
    ensures "email" in r <==> EmailError(email, parses).Some?
    ensures "email" in r ==> Some(r["email"]) == EmailError(email, parses)
    ensures "username" in r <==> UsernameError(username).Some?
    ensures "username" in r ==> Some(r["username"]) == UsernameError(username)
    ensures "display_name" in r <==> DisplayNameError(displayName).Some?
    ensures "display_name" in r ==> Some(r["display_name"]) == DisplayNameError(displayName)
    ensures "password" in r <==> PasswordError(password).Some?
    ensures "password" in r ==> Some(r["password"]) == PasswordError(password)
  {
    Put4("email", EmailError(email, parses), "username", UsernameError(username),
         "display_name", DisplayNameError(displayName), "password", PasswordError(password))
  }

  /** A registration is accepted exactly when every field is valid. */
  lemma {:induction false} RegisterAcceptedIff(email: string, username: string, displayName: string,
                            password: string, parses: string -> bool)
    ensures !HasErrors(ValidateRegister(email, username, displayName, password, parses)) <==>
      EmailOk(email, parses) && UsernameOk(username) && NameOk(displayName) && PasswordOk(password)
  {
    NoErrorsIff(ValidateRegister(email, username, displayName, password, parses));
  }

  function ValidateLogin(email: string, password: string, parses: string -> bool): (r: Errors)
    ensures r.Keys <= {"email", "password"}
    ensures "email" in r <==> !EmailOk(email, parses)
    ensures "password" in r <==> password == ""
    ensures !HasErrors(r) <==> EmailOk(email, parses) && password != ""
    ensures "email" in r ==> Some(r["email"]) == EmailError(email, parses)
    ensures "password" in r ==> r["password"] == "Password is required"
  {
    var e := Put(map[], "email", EmailError(email, parses));
    if password == "" then Add(e, "password", "Password is required") else e
  }

  function ValidateWorkspace(name: string, slug: string): (r: Errors)
    ensures r.Keys <= {"name", "slug"}
    ensures "name" in r <==> !NameOk(name)
    ensures "slug" in r <==> !SlugOk(slug)
    ensures TrimSpace(slug) == "" ==> "slug" !in r
    ensures !HasErrors(r) <==> NameOk(name) && SlugOk(slug)
    ensures "name" in r ==> Some(r["name"]) == LengthError(TrimSpace(name), 2, 100, "Workspace name is required",
      "Workspace name must be at least 2 characters", "Workspace name is too long")
    ensures "slug" in r ==> Some(r["slug"]) == SlugError(slug)
  {
    var e := Put(map[], "name",
      LengthError(TrimSpace(name), 2, 100, "Workspace name is required",
                  "Workspace name must be at least 2 characters", "Workspace name is too long"));
    Put(e, "slug", SlugError(slug))
  }

  function ValidateChannel(name: string, chType: string): (r: Errors)
    ensures r.Keys <= {"name", "type"}
    ensures "name" in r <==> !NameOk(name)
    ensures "type" in r <==> !ChannelTypeOk(chType)
    ensures !HasErrors(r) <==> NameOk(name) && ChannelTypeOk(chType)
    ensures "name" in r ==> Some(r["name"]) == LengthError(TrimSpace(name), 2, 100, "Channel name is required",
      "Channel name must be at least 2 characters", "Channel name is too long")
    ensures "type" in r ==> r["type"] == "Channel type must be public, private, or dm"
  {
    var e := Put(map[], "name",
      LengthError(TrimSpace(name), 2, 100, "Channel name is required",
                  "Channel name must be at least 2 characters", "Channel name is too long"));
    Put(e, "type", ChannelTypeError(chType))
  }

  /** A password of 8 or more bytes with no letters or digits gets one
      message that lists all three classes, uppercase first. */
  lemma {:induction false} PasswordListsMissingInOrder(p: string)
    requires ByteLen(p) >= 8 && !HasUpper(p) && !HasLower(p) && !HasDigit(p)
    ensures PasswordError(p) == Some("Password must contain at least "
      + "one uppercase letter" + ", " + "one lowercase letter" + ", " + "one number")
  {
    var m := ["one uppercase letter", "one lowercase letter", "one number"];
    assert MissingClasses(p) == m;
    assert m[1..][1..] == ["one number"];
    assert Join(m[1..], ", ") == "one lowercase letter" + ", " + "one number";
    assert Join(m, ", ") == "one uppercase letter" + ", " + Join(m[1..], ", ");
    var pre, sep := "Password must contain at least ", ", ";
    assert pre + (m[0] + sep + (m[1] + sep + m[2])) == pre + m[0] + sep + m[1] + sep + m[2];
  }
}

=== FILE: workspace_service.dfy ===
/** `WorkspaceService` (service/workspace_service.go): creation with a
    unique slug, owner-only update and delete, and owner/admin-only
    membership changes, each as a decision over the in-memory store. */
module WorkspaceService {
  import opened Base
  import opened Domain
  import opened Store
  import opened ServiceErrors
  import Slug
  import Validator

  const OwnerRole := "owner"
  const AdminRole := "admin"
  const MemberRole := "member"

  /** Some workspace has `slug`. */
  predicate SlugInUse(db: Db, slug: string) {
    exists i :: 0 <= i < |db.workspaces| && db.workspaces[i].slug == slug
  }

  /** A workspace other than `id` has `slug`. */
  predicate SlugHeldByOther(db: Db, slug: string, id: Uuid) {
    exists i :: 0 <= i < |db.workspaces| && db.workspaces[i].slug == slug && db.workspaces[i].id != id
  }

  /** The unique constraints of the workspaces table: ids and slugs. */
  predicate WorkspacesUnique(db: Db) {
    forall i, j :: 0 <= i < j < |db.workspaces| ==>
      db.workspaces[i].id != db.workspaces[j].id && db.workspaces[i].slug != db.workspaces[j].slug
  }

  predicate WorkspaceIdFresh(db: Db, id: Uuid) {
    forall i :: 0 <= i < |db.workspaces| ==> db.workspaces[i].id != id
  }

  /** `GetBySlug`: the first workspace with `slug`. */
  function BySlug(db: Db, slug: string): Option<nat> {
    Find(db.workspaces, (w: Workspace) => w.slug == slug)
  }

  /** `GetByID`. */
  function Lookup(db: Db, id: Uuid): (r: Option<Workspace>)
    ensures r.Some? <==> exists i :: 0 <= i < |db.workspaces| && db.workspaces[i].id == id
    ensures r.Some? ==> r.value.id == id && r.value in db.workspaces
  {
    match WorkspaceIndex(db, id)
    case None => None
    case Some(k) => Some(db.workspaces[k])
  }

  /** The requester may change the member list: role `owner` or `admin`. */
  predicate CanManage(db: Db, workspaceId: Uuid, requesterId: Uuid) {
    WorkspaceRole(db, workspaceId, requesterId) == Some(OwnerRole)
    || WorkspaceRole(db, workspaceId, requesterId) == Some(AdminRole)
  }

  /** The slug `Create` uses: the given one when it slugifies to something,
      else the name's. */
  function ChosenSlug(slug: string, name: string): (r: string)
    ensures Slug.Alnums(slug) != "" ==> r == Slug.Slugify(slug)
    ensures Slug.Alnums(slug) == "" ==> r == Slug.Slugify(name)
  {
    Slug.SlugifyEmptyIff(slug);
    var s := Slug.Slugify(slug);
    if s == "" then Slug.Slugify(name) else s
  }

  /** The row `Create` inserts. An empty description is stored as absent. */
  function NewWorkspace(id: Uuid, name: string, slug: string, description: string, ownerId: Uuid): (w: Workspace)
    ensures w.id == id && w.name == name && w.slug == slug && w.ownerId == ownerId
    ensures (w.description.Some? <==> description != "") && (w.description.Some? ==> w.description.value == description)
  {
    Workspace(id, name, slug, if description != "" then Some(description) else None, ownerId)
  }

  /** `Create`: fails with `ErrSlugTaken`, changing nothing, when the chosen
      slug is in use. Then two writes: the workspace row, whose failure
      (`insertError`) is wrapped as "creating workspace" and changes
      nothing, and the creator's `owner` membership, whose failure
      (`memberError`) is wrapped as "adding owner as member" and leaves the
      workspace row stored without it. No other table is touched. */
  function Create(db: Db, userId: Uuid, name: string, slug: string, description: string, freshId: Uuid,
                  insertError: Option<string>, memberError: Option<string>): (r: Written<Workspace, Error>)
    requires WorkspaceIdFresh(db, freshId)
    ensures SlugInUse(db, ChosenSlug(slug, name)) ==> r == Written(db, Err(SlugTaken))
    ensures !SlugInUse(db, ChosenSlug(slug, name)) && insertError.Some? ==>
      r == Written(db, Err(StoreFailure("creating workspace: " + insertError.value)))
    ensures r.answer.Ok? <==> !SlugInUse(db, ChosenSlug(slug, name)) && insertError.None? && memberError.None?
    ensures !SlugInUse(db, ChosenSlug(slug, name)) && insertError.None? ==>
      var w := NewWorkspace(freshId, name, ChosenSlug(slug, name), description, userId);
      r.db.workspaces == db.workspaces + [w] &&
      (memberError.Some? ==>
         r.db == db.(workspaces := r.db.workspaces) &&
         r.answer == Err(StoreFailure("adding owner as member: " + memberError.value))) &&
      (memberError.None? ==>
         r.answer == Ok(w) &&
         r.db.workspaceMembers == db.workspaceMembers[(freshId, userId) := OwnerRole] &&
         r.db.(workspaces := db.workspaces, workspaceMembers := db.workspaceMembers) == db)
  {
    var s := ChosenSlug(slug, name);
    match BySlug(db, s)
    case Some(k) =>
      assert db.workspaces[k].slug == s;
      Written(db, Err(SlugTaken))
    case None =>
      assert forall i :: 0 <= i < |db.workspaces| ==> db.workspaces[i].slug != s;
      var w := NewWorkspace(freshId, name, s, description, userId);
      match insertError
      case Some(e) => Written(db, Err(StoreFailure("creating workspace: " + e)))
      case None =>
        var d1 := db.(workspaces := db.workspaces + [w]);
        match memberError
        case Some(e) => Written(d1, Err(StoreFailure("adding owner as member: " + e)))
        case None =>
          var d := d1.(workspaceMembers := db.workspaceMembers[(freshId, userId) := OwnerRole]);
          assert d.(workspaces := db.workspaces, workspaceMembers := db.workspaceMembers) == db;
          Written(d, Ok(w))
  }

  /** Whatever `Create` answers, the store it leaves keeps the table's
      unique constraints; on success the creator's role is `owner`. */
  lemma {:induction false} CreateKeepsUnique(db: Db, userId: Uuid, name: string, slug: string, description: string,
                                             freshId: Uuid, insertError: Option<string>, memberError: Option<string>)
    requires WorkspaceIdFresh(db, freshId) && WorkspacesUnique(db)
    ensures var r := Create(db, userId, name, slug, description, freshId, insertError, memberError);
      WorkspacesUnique(r.db) && (r.answer.Ok? ==> WorkspaceRole(r.db, freshId, userId) == Some(OwnerRole))
  {
    var r := Create(db, userId, name, slug, description, freshId, insertError, memberError);
    if !SlugInUse(db, ChosenSlug(slug, name)) && insertError.None? {
      AppendKeepsUnique(db, r.db, NewWorkspace(freshId, name, ChosenSlug(slug, name), description, userId));
    }
  }

  /** A failed owner membership leaves a workspace behind that its creator
      is not a member of, although the call reported an error. */
  lemma {:induction false} OwnerInsertFailureLeavesWorkspace(db: Db, userId: Uuid, name: string, slug: string,
                                                             description: string, freshId: Uuid, e: string)
    requires WorkspaceIdFresh(db, freshId) && !SlugInUse(db, ChosenSlug(slug, name))
    requires (freshId, userId) !in db.workspaceMembers
    ensures var r := Create(db, userId, name, slug, description, freshId, None, Some(e));
      r.answer.Err? && Lookup(r.db, freshId).Some? && WorkspaceRole(r.db, freshId, userId).None?
  {
    var r := Create(db, userId, name, slug, description, freshId, None, Some(e));
    assert r.db.workspaces[|db.workspaces|].id == freshId;
  }

  /** Appending a workspace whose id and slug are both new keeps the table's
      unique constraints. */
  lemma {:induction false} AppendKeepsUnique(db: Db, d: Db, w: Workspace)
    requires WorkspacesUnique(db) && WorkspaceIdFresh(db, w.id) && !SlugInUse(db, w.slug)
    requires d.workspaces == db.workspaces + [w]
    ensures WorkspacesUnique(d)
  {
    var ws := d.workspaces;
    forall i, j | 0 <= i < j < |ws|
      ensures ws[i].id != ws[j].id && ws[i].slug != ws[j].slug
    {
      assert ws[i] == db.workspaces[i];
      if j < |db.workspaces| {
        assert ws[j] == db.workspaces[j];
      }
    }
  }

  /** A created workspace's slug has slug shape. */
  lemma {:induction false} CreateSlugShape(db: Db, userId: Uuid, name: string, slug: string, description: string,
                                           freshId: Uuid, insertError: Option<string>, memberError: Option<string>)
    requires WorkspaceIdFresh(db, freshId)
    ensures var r := Create(db, userId, name, slug, description, freshId, insertError, memberError);
      r.answer.Ok? ==> var s := r.answer.value.slug;
        Validator.AllSlugChars(s) && Slug.NoDoubleDash(s) && (|s| > 0 ==> s[0] != '-' && s[|s| - 1] != '-')
  {
    Slug.SlugifyShape(slug);
    Slug.SlugifyShape(name);
  }

  /** The slug clash test of `Update`, as written: the workspace holding the
      slug, if any, is not the one being updated. */
  predicate SlugClash(db: Db, slug: string, id: Uuid) {
    match BySlug(db, slug)
    case None => false
    case Some(j) => db.workspaces[j].id != id
  }

  /** Under the unique constraints the clash test is exactly "another
      workspace holds the slug". */
  lemma {:induction false} SlugClashIff(db: Db, slug: string, id: Uuid)
    requires WorkspacesUnique(db)
    ensures SlugClash(db, slug, id) <==> SlugHeldByOther(db, slug, id)
  {
    match BySlug(db, slug)
    case None =>
    case Some(j) =>
      if SlugHeldByOther(db, slug, id) {
        var i :| 0 <= i < |db.workspaces| && db.workspaces[i].slug == slug && db.workspaces[i].id != id;
        assert i == j;
      }
  }

  /** `Update`: the workspace must exist (`ErrWorkspaceNotFound`) and belong
      to the caller (`ErrNotWorkspaceOwner`); a new slug is slugified and
      rejected with `ErrSlugTaken` when another workspace holds it. Present
      fields replace the stored ones; only that row changes. A failed write
      (`updateError`) is wrapped as "updating workspace" and changes
      nothing. */
  function Update(db: Db, userId: Uuid, workspaceId: Uuid, name: Option<string>, slug: Option<string>,
                  description: Option<string>, updateError: Option<string>): (r: Result<(Db, Workspace), Error>)
    ensures Lookup(db, workspaceId).None? ==> r == Err(WorkspaceNotFound)
    ensures Lookup(db, workspaceId).Some? && Lookup(db, workspaceId).value.ownerId != userId ==> r == Err(NotWorkspaceOwner)
    ensures r.Err? && r.error == SlugTaken ==> slug.Some? && SlugClash(db, Slug.Slugify(slug.value), workspaceId)
    ensures (Lookup(db, workspaceId).Some? && Lookup(db, workspaceId).value.ownerId == userId &&
             !(slug.Some? && SlugClash(db, Slug.Slugify(slug.value), workspaceId)) && updateError.Some?) ==>
      r == Err(StoreFailure("updating workspace: " + updateError.value))
    ensures r.Ok? ==> updateError.None?
    ensures r.Ok? ==>
      var (d, w) := r.value;
      var ws := Lookup(db, workspaceId).value;
      Lookup(db, workspaceId).Some? && ws.ownerId == userId &&
      w.id == workspaceId && w.ownerId == ws.ownerId &&
      w.name == (if name.Some? then name.value else ws.name) &&
      w.slug == (if slug.Some? then Slug.Slugify(slug.value) else ws.slug) &&
      w.description == (if description.Some? then description else ws.description) &&
      d == db.(workspaces := d.workspaces) && |d.workspaces| == |db.workspaces| &&
      w in d.workspaces &&
      forall i :: 0 <= i < |db.workspaces| && db.workspaces[i].id != workspaceId ==> d.workspaces[i] == db.workspaces[i]
  {
    match WorkspaceIndex(db, workspaceId)
    case None => Err(WorkspaceNotFound)
    case Some(k) =>
      var ws := db.workspaces[k];
      assert Lookup(db, workspaceId) == Some(ws);
      if ws.ownerId != userId then Err(NotWorkspaceOwner)
      else
        var newSlug := if slug.Some? then Slug.Slugify(slug.value) else ws.slug;
        if slug.Some? && SlugClash(db, newSlug, ws.id) then Err(SlugTaken)
        else
          var w := ws.(name := if name.Some? then name.value else ws.name,
                       slug := newSlug,
                       description := if description.Some? then description else ws.description);
          match updateError
          case Some(e) => Err(StoreFailure("updating workspace: " + e))
          case None =>
            var rows := Replace(db.workspaces, k, w);
            assert w == rows[k] && w in rows;
            Ok((db.(workspaces := rows), w))
  }

  /** On a store meeting its unique constraints, an owner's update is
      refused with `ErrSlugTaken` exactly when the new slug belongs to
      another workspace; it fails exactly then or when the write fails; and
      a successful update keeps the constraints. */
  lemma {:induction false} UpdateSlugRule(db: Db, userId: Uuid, workspaceId: Uuid, name: Option<string>, slug: Option<string>,
                       description: Option<string>, updateError: Option<string>)
    requires WorkspacesUnique(db)
    requires Lookup(db, workspaceId).Some? && Lookup(db, workspaceId).value.ownerId == userId
    ensures var r := Update(db, userId, workspaceId, name, slug, description, updateError);
      r == Err(SlugTaken) <==> slug.Some? && SlugHeldByOther(db, Slug.Slugify(slug.value), workspaceId)
    ensures var r := Update(db, userId, workspaceId, name, slug, description, updateError);
      r.Err? <==> (slug.Some? && SlugHeldByOther(db, Slug.Slugify(slug.value), workspaceId)) || updateError.Some?
    ensures var r := Update(db, userId, workspaceId, name, slug, description, updateError);
      r.Ok? ==> WorkspacesUnique(r.value.0)
  {
    if slug.Some? {
      SlugClashIff(db, Slug.Slugify(slug.value), workspaceId);
    }
    var r := Update(db, userId, workspaceId, name, slug, description, updateError);
    if r.Ok? {
      var k := WorkspaceIndex(db, workspaceId).value;
      var d := r.value.0;
      forall i, j | 0 <= i < j < |d.workspaces|
        ensures d.workspaces[i].id != d.workspaces[j].id && d.workspaces[i].slug != d.workspaces[j].slug
      {
        if i == k || j == k {
          var o := if i == k then j else i;
          assert db.workspaces[o].id != workspaceId by {
            if o < k { assert db.workspaces[o].id != db.workspaces[k].id; }
            else { assert db.workspaces[k].id != db.workspaces[o].id; }
          }
          if slug.Some? {
            assert !SlugHeldByOther(db, Slug.Slugify(slug.value), workspaceId);
          }
        }
      }
    }
  }

  /** `Delete`: owner only; removes the workspace's row and nothing else. */
  function Delete(db: Db, userId: Uuid, workspaceId: Uuid): (r: Result<Db, Error>)
    ensures Lookup(db, workspaceId).None? ==> r == Err(WorkspaceNotFound)
    ensures (Lookup(db, workspaceId).Some? && Lookup(db, workspaceId).value.ownerId != userId) ==>
      r == Err(NotWorkspaceOwner)
    ensures r.Ok? <==> Lookup(db, workspaceId).Some? && Lookup(db, workspaceId).value.ownerId == userId
    ensures r.Ok? ==>
      r.value == db.(workspaces := r.value.workspaces) &&
      Lookup(r.value, workspaceId).None? &&
      forall w :: w in r.value.workspaces <==> w in db.workspaces && w.id != workspaceId
  {
    match WorkspaceIndex(db, workspaceId)
    case None => Err(WorkspaceNotFound)
    case Some(k) =>
      if db.workspaces[k].ownerId != userId then Err(NotWorkspaceOwner)
      else Ok(db.(workspaces := Remove(db.workspaces, (w: Workspace) => w.id == workspaceId)))
  }

  /** Deleting a workspace keeps the table's unique constraints. */
  lemma {:induction false} DeleteKeepsUnique(db: Db, userId: Uuid, workspaceId: Uuid)
    requires WorkspacesUnique(db)
    requires Delete(db, userId, workspaceId).Ok?
    ensures WorkspacesUnique(Delete(db, userId, workspaceId).value)
  {
    var k := WorkspaceIndex(db, workspaceId).value;
    var ws := db.workspaces;
    forall j | 0 <= j < |ws| && j != k
      ensures ws[j].id != workspaceId
    {
      if j < k { assert ws[j].id != ws[k].id; } else { assert ws[k].id != ws[j].id; }
    }
    RemoveOne(ws, (w: Workspace) => w.id == workspaceId, k);
    DropKeepsUnique(ws, k);
  }

  /** Dropping one row keeps rows pairwise distinct in id and slug. */
  lemma {:induction false} DropKeepsUnique(ws: seq<Workspace>, k: nat)
    requires k < |ws|
    requires forall i, j :: 0 <= i < j < |ws| ==> ws[i].id != ws[j].id && ws[i].slug != ws[j].slug
    ensures var r := ws[..k] + ws[k + 1..];
      forall i, j :: 0 <= i < j < |r| ==> r[i].id != r[j].id && r[i].slug != r[j].slug
  {
    var r := ws[..k] + ws[k + 1..];
    forall i, j | 0 <= i < j < |r|
      ensures r[i].id != r[j].id && r[i].slug != r[j].slug
    {
      var a := if i < k then i else i + 1;
      var b := if j < k then j else j + 1;
      assert r[i] == ws[a] && r[j] == ws[b] && a < b;
    }
  }

  /** The owner deleting the newest workspace, whose id no older one has,
      restores the earlier workspace table. */
  lemma {:induction false} DeleteUndoesAppend(d: Db, rows: seq<Workspace>, w: Workspace)
    requires d.workspaces == rows + [w]
    requires forall i :: 0 <= i < |rows| ==> rows[i].id != w.id
    ensures Delete(d, w.ownerId, w.id) == Ok(d.(workspaces := rows))
  {
    var n := |rows|;
    assert d.workspaces[n] == w;
    assert forall i :: 0 <= i < n ==> d.workspaces[i] == rows[i];
    assert WorkspaceIndex(d, w.id) == Some(n);
    RemoveOne(d.workspaces, (x: Workspace) => x.id == w.id, n);
    assert d.workspaces[..n] + d.workspaces[n + 1..] == rows;
  }

  /** The creator deleting a workspace just created restores the workspace
      table. The owner's membership stays: the model has no cascade. */
  lemma {:induction false} DeleteUndoesCreate(db: Db, userId: Uuid, name: string, slug: string, description: string,
                                              freshId: Uuid)
    requires WorkspaceIdFresh(db, freshId)
    ensures var c := Create(db, userId, name, slug, description, freshId, None, None);
      c.answer.Ok? ==> Delete(c.db, userId, freshId) == Ok(c.db.(workspaces := db.workspaces))
  {
    var c := Create(db, userId, name, slug, description, freshId, None, None);
    if c.answer.Ok? {
      DeleteUndoesAppend(c.db, db.workspaces, c.answer.value);
    }
  }

  /** `AddMember`: the requester must be `owner` or `admin`
      (`ErrNotWorkspaceOwner`), the user must exist (`user not found`) and
      must not be a member yet (`ErrAlreadyMember`); the user joins with
      role `member`. */
  function AddMember(db: Db, requesterId: Uuid, workspaceId: Uuid, userId: Uuid): (r: Result<Db, Error>)
    ensures !CanManage(db, workspaceId, requesterId) ==> r == Err(NotWorkspaceOwner)
    ensures CanManage(db, workspaceId, requesterId) && UserById(db, userId).None? ==> r == Err(AdHocUserNotFound)
    ensures (CanManage(db, workspaceId, requesterId) && UserById(db, userId).Some? &&
             WorkspaceRole(db, workspaceId, userId).Some?) ==> r == Err(AlreadyMember)
    ensures r.Ok? <==> CanManage(db, workspaceId, requesterId) && UserById(db, userId).Some? &&
                       WorkspaceRole(db, workspaceId, userId).None?
    ensures r.Ok? ==>
      r.value == db.(workspaceMembers := r.value.workspaceMembers) &&
      r.value.workspaceMembers.Keys == db.workspaceMembers.Keys + {(workspaceId, userId)} &&
      WorkspaceRole(r.value, workspaceId, userId) == Some(MemberRole) &&
      forall key :: key in db.workspaceMembers ==> r.value.workspaceMembers[key] == db.workspaceMembers[key]
  {
    if !CanManage(db, workspaceId, requesterId) then Err(NotWorkspaceOwner)
    else if UserById(db, userId).None? then Err(AdHocUserNotFound)
    else if WorkspaceRole(db, workspaceId, userId).Some? then Err(AlreadyMember)
    else Ok(db.(workspaceMembers := db.workspaceMembers[(workspaceId, userId) := MemberRole]))
  }

  /** `RemoveMember`: the requester must be `owner` or `admin`; the user's
      membership, if any, is deleted and nothing else changes. */
  function RemoveMember(db: Db, requesterId: Uuid, workspaceId: Uuid, userId: Uuid): (r: Result<Db, Error>)
    ensures r.Err? <==> !CanManage(db, workspaceId, requesterId)
    ensures r.Err? ==> r.error == NotWorkspaceOwner
    ensures r.Ok? ==>
      r.value == db.(workspaceMembers := r.value.workspaceMembers) &&
      r.value.workspaceMembers.Keys == db.workspaceMembers.Keys - {(workspaceId, userId)} &&
      forall key :: key in r.value.workspaceMembers ==> r.value.workspaceMembers[key] == db.workspaceMembers[key]
  {
    if !CanManage(db, workspaceId, requesterId) then Err(NotWorkspaceOwner)
    else Ok(db.(workspaceMembers := db.workspaceMembers - {(workspaceId, userId)}))
  }

  /** Removing a member just added by the same requester restores the
      member table. */
  lemma {:induction false} RemoveUndoesAdd(db: Db, requesterId: Uuid, workspaceId: Uuid, userId: Uuid)
    requires AddMember(db, requesterId, workspaceId, userId).Ok?
    ensures var d := AddMember(db, requesterId, workspaceId, userId).value;
      RemoveMember(d, requesterId, workspaceId, userId) == Ok(db)
  {
    var d := AddMember(db, requesterId, workspaceId, userId).value;
    assert (workspaceId, requesterId) != (workspaceId, userId);
    assert CanManage(d, workspaceId, requesterId);
    assert d.workspaceMembers - {(workspaceId, userId)} == db.workspaceMembers;
  }

  /** Nothing protects the owner: an `admin` can remove the workspace's
      owner from its members. */
  lemma {:induction false} AdminMayRemoveOwner(db: Db, adminId: Uuid, workspaceId: Uuid)
    requires WorkspaceRole(db, workspaceId, adminId) == Some(AdminRole)
    requires Lookup(db, workspaceId).Some?
    ensures var owner := Lookup(db, workspaceId).value.ownerId;
      var r := RemoveMember(db, adminId, workspaceId, owner);
      r.Ok? && WorkspaceRole(r.value, workspaceId, owner).None?
  {
  }
}
